=== FILE: README.md ===
# Oficina Pro — a Dafny model of the order store and its screens

Oficina Pro is a small workshop-management web app. A mechanic registers a
client and a vehicle, then opens a service order (OS) with a check-in
checklist. Parts and labour items go on the order, and the order moves through
five statuses, from `aberta` to `entregue`. A dashboard shows realised,
expected and overdue revenue. The operator can send the client a WhatsApp
update.

This project models the pure core of the app:

- **`LocalDB`** (`localdb.dfy`): the browser-local store. It is a value of
  type `Store` that holds every table and the per-user order counters. Each
  operation is a function from a store to either an error or a new store plus
  the value the operation returns. Fresh ids and the current instant are
  parameters.
- **`StoreInvariants`** (`store_invariants.dfy`): the store's consistency
  conditions. The central one is `valor_total = Σ item.valor_total +
  mao_de_obra` for every order. The module proves that every pricing and
  status operation preserves these conditions, and that the generic `updateOS`
  does not.
- **`Dashboard`** (`dashboard.dfy`):
  - the local week and month windows, as half-open intervals of instants;
  - the projected payment day;
  - realised revenue (`faturamento`), expected revenue (`previsto`) and
    overdue revenue (`atrasados`);
  - the six most recent orders.

  Two of the page's figures differ from what it evidently means (see
  Findings). For each, the module has the figure as written and the
  corrected figure. `Summarize` uses the corrected ones.

  These rest on **`Calendar`** (`calendar.dfy`), a proleptic Gregorian
  calendar over day numbers and millisecond instants.
- **`OSDetail`** (`osdetail.dfy`), the order page:
  - HTML escaping for the printout;
  - the keyword classifier that suggests part or service;
  - the parts/labour/total buckets;
  - the labour field;
  - item validation.

  These rest on **`Money`** (`money.dfy`): amounts are natural numbers of
  cents. The module models `toFixed(2)`, the Brazilian `1234,56` rendering,
  and the JavaScript `Number(...)` reading that `parseBRL` relies on.
- **`NewOSWizard`** (`wizard.dfy`): the three-step intake wizard. It covers
  step validation, the Back/Next buttons, the checklist selection and seeding,
  and submission, which creates a client, a vehicle, an order and the
  checklist.
- **`WhatsApp`** (`whatsapp.dfy`): the handler that rereads an order and its
  items from the store, totals them, and composes the message.
- **`WhatsAppModal`** (`whatsapp_modal.dfy`): the dialog. It handles status
  labels, the fallback message, the choice of opening message, the phone
  digits and the `wa.me` link.
- **`OSList`** and **`Clientes`** (`lists.dfy`): the search and status
  filters of the two list pages.
- **Support modules:**
  - `Wrappers` (`Option`, `Result`);
  - `Text` (trim, case mapping, substring search, decimal digits);
  - `Seqs` (first and last match, filter, insertion sort);
  - `Types`, the records of `src/types/index.ts`.

Money is counted in cents throughout, so every `toFixed(2)` in the source is
exact here. Instants are milliseconds on the local clock. A `Day` counts days
since 1970-01-01, local time.

## Model

| member | source | states |
|---|---|---|
| `Types.StatusName` | src/types/index.ts:1 | every one of the five statuses is stored under a non-empty name |
| `Types.StatusNameInjective` | src/types/index.ts:1 | different statuses are stored under different names |
| `Types.Seed` | src/lib/localDB.ts:43-53 | the first store has one demo user whose counter is 0, and no orders, items, events or checklist rows |
| `StoreInvariants.SeedValid` | src/lib/localDB.ts:43-53 | the first store satisfies every store invariant |
| `LocalDB.SignUp` | src/lib/localDB.ts:67-79 | fails with the "already registered" conflict exactly when some user's email matches ignoring case; otherwise it appends the user, sets its counter to 0 and changes nothing else |
| `LocalDB.SignIn` | src/lib/localDB.ts:81-88 | fails with "not found" exactly when no email matches ignoring case; otherwise it returns the first stored user whose email matches, as `find` does |
| `LocalDB.ListClientes` | src/lib/localDB.ts:93-96 | the clients sorted by name, a permutation of the stored ones |
| `LocalDB.CreateCliente` | src/lib/localDB.ts:98-120 | appends a client carrying the given fields, id and timestamps, and touches no other table |
| `LocalDB.CreateVeiculo` | src/lib/localDB.ts:125-152 | appends a vehicle carrying the given fields, id and timestamp, and touches no other table |
| `LocalDB.Hydrate` | src/lib/localDB.ts:157-169 | each order, in place, paired with the client and vehicle its ids name |
| `LocalDB.ListOS` | src/lib/localDB.ts:157-169 | every stored order with its client and vehicle, newest first, as a permutation of the hydrated table |
| `LocalDB.CreateOS` | src/lib/localDB.ts:171-212 | the number is the user's counter (0 if absent) plus one and becomes the new counter; other users' counters are unchanged; the order is appended as `aberta` with total 0, labour 0 and no payment, conclusion or delivery instant |
| `StoreInvariants.CreateOSConsecutive` | src/lib/localDB.ts:182-184 | two orders created in a row for one user get consecutive numbers |
| `LocalDB.RowsOf` | src/lib/localDB.ts:214-239 | one stored row per requested row, in order, with its id and the creation instant |
| `LocalDB.InsertChecklist` | src/lib/localDB.ts:214-239 | the checklist table grows by exactly the new rows, appended in order; the old rows and every other table are unchanged |
| `LocalDB.ApplyStatus` | src/lib/localDB.ts:255-275 | sets the status; `concluida` and `entregue` fill the payment and conclusion instants only when unset; `entregue` fills delivery only when unset; no instant is ever cleared |
| `LocalDB.SetOSStatus` | src/lib/localDB.ts:244-287 | fails with "OS not found" exactly when the order is missing; otherwise it updates that order by `ApplyStatus` and appends one `Status alterado` event |
| `StoreInvariants.ConcluidaTwiceKeepsStamps` | src/lib/localDB.ts:255-275 | marking an order `concluida` twice keeps the payment and conclusion instants of the first time |
| `LocalDB.SetMaoDeObra` | src/lib/localDB.ts:292-317 | fails exactly when the order is missing; otherwise the labour becomes the value, the total is repriced, other orders are unchanged and one event is appended |
| `LocalDB.ClearMaoDeObra` | src/lib/localDB.ts:447-471 | fails exactly when the order is missing; otherwise labour becomes 0 and the total becomes the order's item sum; one event is appended |
| `StoreInvariants.ClearMaoDeObraIdempotent` | src/lib/localDB.ts:447-471 | clearing the labour twice leaves the orders and items as clearing once does |
| `LocalDB.AddOSItem` | src/lib/localDB.ts:322-371 | fails exactly when the order is missing; otherwise the item total is quantity × unit price, the item is appended, the order's total becomes its item sum plus labour, other orders are unchanged and one `Item adicionado` event is appended |
| `LocalDB.RemoveOSItem` | src/lib/localDB.ts:376-406 | fails with "item not found" or "OS not found" exactly in those cases; otherwise it removes exactly that item, lowers the order's total by its amount, leaves other orders alone and appends one `Item removido` event |
| `LocalDB.KeepOthers` | src/lib/localDB.ts:417-421 | keeps, in order, exactly the items not of that order and kind; the count dropped is the count of such items; other orders' sums are unchanged |
| `LocalDB.RemoveOSItensByTipo` | src/lib/localDB.ts:408-445 | fails exactly when the order is missing; otherwise it removes exactly that order's items of that kind, returns how many, reprices the order and appends one event |
| `LocalDB.ToggleChecklist` | src/lib/localDB.ts:504-512 | an unknown id gives no value and no change; otherwise the first row with that id has its flag flipped, the new flag is returned and nothing else changes |
| `LocalDB.ToggleChecklistTwice` | src/lib/localDB.ts:504-512 | toggling the same row twice gives back the original store |
| `LocalDB.ClienteById` | src/lib/localDB.ts:159 | the last client with that id, as a `Map` built from the table keeps, or none when no client has it |
| `LocalDB.VeiculoById` | src/lib/localDB.ts:160 | the last vehicle with that id, or none when no vehicle has it |
| `LocalDB.FindCliente` | src/lib/localDB.ts:481 | the first client with that id, or none when no client has it |
| `LocalDB.FindVeiculo` | src/lib/localDB.ts:482 | the first vehicle with that id, or none when no vehicle has it |
| `LocalDB.GetOSDetails` | src/lib/localDB.ts:476-502 | none exactly when the order is missing; otherwise the stored order with its first-matching client and vehicle, its items in store order, its checklist sorted by `ordem` (a permutation of its rows), exactly its photos in store order, and its timeline newest first (a permutation of its events) |
| `LocalDB.UpdateOS` | src/lib/localDB.ts:533-547 | fails exactly when the order is missing; otherwise it replaces that order with the given one stamped with the update instant |
| `StoreInvariants.UpdateOSCanBreakPricing` | src/lib/localDB.ts:533-547 | an update that carries a total other than item sum plus labour succeeds and leaves an inconsistent store |
| `StoreInvariants.CreateOSPreservesValid` | src/lib/localDB.ts:171-212 | creating an order with a fresh id keeps the store consistent, and the new number exceeds every earlier number of that user |
| `StoreInvariants.SetOSStatusPreservesValid` | src/lib/localDB.ts:244-287 | a status change keeps the store consistent |
| `StoreInvariants.SetMaoDeObraPreservesValid` | src/lib/localDB.ts:292-317 | setting the labour keeps the store consistent |
| `StoreInvariants.ClearMaoDeObraPreservesValid` | src/lib/localDB.ts:447-471 | clearing the labour keeps the store consistent |
| `StoreInvariants.AddOSItemPreservesValid` | src/lib/localDB.ts:322-371 | adding an item keeps the store consistent |
| `StoreInvariants.RemoveOSItemPreservesValid` | src/lib/localDB.ts:376-406 | removing an item keeps the store consistent |
| `StoreInvariants.RemoveOSItensByTipoPreservesValid` | src/lib/localDB.ts:408-445 | removing the items of one kind keeps the store consistent |
| `StoreInvariants.SideTablesPreserveValid` | src/lib/localDB.ts:98-239 | creating clients and vehicles, seeding and toggling checklist rows keep the store consistent |
| `StoreInvariants.SignUpPreservesValid` | src/lib/localDB.ts:67-79 | registering a fresh user keeps the store consistent |
| `Dashboard.WeekStartDay` | src/pages/Dashboard.tsx:15-22 | the Monday on or before the given day |
| `Dashboard.WeekWindow` | src/pages/Dashboard.tsx:15-29 | starts at midnight of that Monday, spans exactly seven days, and holds the whole given day |
| `Dashboard.MonthWindow` | src/pages/Dashboard.tsx:31-37 | from midnight of the 1st to midnight of the 1st of the next month, spanning the month's length, and holding the whole given day |
| `Dashboard.InRange` | src/pages/Dashboard.tsx:39-47 | a missing instant is never in range; the window is half-open, so its start is inside (when it is not empty) and its end is not |
| `Dashboard.InRangeDays` | src/pages/Dashboard.tsx:39-47 | an instant lies in a window between two midnights exactly when its local day lies in the half-open day range |
| `Dashboard.WeekWindowDays` | src/pages/Dashboard.tsx:15-47 | an instant is in the week window exactly when its day is one of the seven days from that Monday |
| `Dashboard.NowInWindows` | src/pages/Dashboard.tsx:172-179 | the current instant lies in both the current week window and the current month window |
| `Dashboard.PrevisaoPagamento` | src/pages/Dashboard.tsx:49-57 | the delivery estimate when set; otherwise the local day holding the creation instant plus three days |
| `Dashboard.FaturamentoDia` | src/pages/Dashboard.tsx:190-194 | the filter-then-sum equals the one-pass sum over the orders done and paid on today's local day, and never exceeds the list's total |
| `Dashboard.Faturamento` | src/pages/Dashboard.tsx:196-206 | the filter-then-sum equals the one-pass sum over the orders done and paid inside the window, and never exceeds the list's total |
| `Dashboard.Previsto` | src/pages/Dashboard.tsx:211-231 | the filter-then-sum equals the one-pass sum over the unpaid orders whose projected midnight is inside the window, and never exceeds the list's total |
| `Dashboard.FaturamentoContribution` | src/pages/Dashboard.tsx:196-206 | an order adds its total to the realised revenue of a window exactly when it is `concluida` or `entregue` and paid inside the window |
| `Dashboard.PrevistoContribution` | src/pages/Dashboard.tsx:211-231 | an order adds its total to the expected revenue exactly when it is unpaid, whatever its status, and its projected midnight is in the window; a paid order never adds |
| `Dashboard.Atrasados` | src/pages/Dashboard.tsx:236-242 | the unpaid orders projected strictly before today, in list order |
| `Dashboard.AtrasadosContribution` | src/pages/Dashboard.tsx:236-248 | the overdue value gains an order's total exactly when it is unpaid and projected before today |
| `Dashboard.DayWithinWeek` | src/pages/Dashboard.tsx:190-200 | today's realised revenue never exceeds this week's |
| `Dashboard.DayWithinMonth` | src/pages/Dashboard.tsx:190-206 | today's realised revenue never exceeds this month's |
| `Dashboard.Recentes` | src/pages/Dashboard.tsx:251 | the first six orders of the list, or all of them when there are fewer |
| `Dashboard.RecentesAreNewest` | src/pages/Dashboard.tsx:251 | on a newest-first list, no order left out of the recent ones is newer than one shown |
| `Dashboard.Summarize` | src/pages/Dashboard.tsx:172-251 | the overdue count and value are the size and sum of one overdue list; today's revenue, counted by local day, is at most the week's and the month's; nothing overdue is paid |
| `Dashboard.FaturamentoDiaAsWritten` | src/pages/Dashboard.tsx:190-194 | today's revenue as the page computes it, from the UTC date of the payment text: never more than the list's total, and equal to the local-day figure when the local clock is UTC |
| `Dashboard.LateEveningUtcDate` | src/pages/Dashboard.tsx:192 | on a clock behind UTC by up to a day, an instant in the last offset-long stretch before local midnight has the next local day as its UTC date |
| `Dashboard.DayOutsideWeekAsWritten` | src/pages/Dashboard.tsx:190-200 | on a clock behind UTC, an order paid in the last hours before a Monday's midnight adds its total to Monday's revenue as written but nothing to that week's; with a positive total, the day exceeds the week |
| `Dashboard.DayOutsideMonthAsWritten` | src/pages/Dashboard.tsx:190-206 | the same for a payment in the last hours of a month: it adds to the 1st's revenue as written but not to the month's |
| `Dashboard.PrevistoAsWritten` | src/pages/Dashboard.tsx:211-231 | expected revenue as the page computes it, where an order with a delivery estimate never counts: never more than the intended figure, and equal to it when no order has an estimate |
| `Dashboard.EstimateNeverExpectedAsWritten` | src/pages/Dashboard.tsx:211-220 | an unpaid order whose estimate falls in the window adds its total to the intended figure but nothing to the figure as written |
| `OSDetail.EscapeHtml` | src/pages/OSDetail.tsx:19-29 | the output has no `<`, `>`, `"` or `'`, and text with no special character comes back unchanged |
| `OSDetail.UnescapeEscape` | src/pages/OSDetail.tsx:19-29 | decoding the five entities recovers exactly the escaped text |
| `Money.FormatBRL` | src/pages/OSDetail.tsx:31-33 | the whole reais, a comma and exactly two cent digits, with no point |
| `Money.ParseBRL` | src/pages/OSDetail.tsx:35-38 | blank text reads as 0; text starting with a minus sign reads as 0; a run of digits reads as that many whole reais |
| `Money.BadCharReadsZero` | src/pages/OSDetail.tsx:35-38 | text holding a character that no finite JavaScript number can contain (a currency sign such as `R$`, a letter outside `e E x X o O a–f A–F`, which occur in `1e3`, `0x10`, `0o7`, `0b1`) is not a finite number and reads as 0 |
| `Money.SecondCommaReadsZero` | src/pages/OSDetail.tsx:35-38 | only the first comma becomes a point, so text with two commas such as `1,2,3` is not a number and reads as 0 |
| `Money.ParseBRLDecimal` | src/pages/OSDetail.tsx:35-38 | digits, a comma and digits read as the whole reais plus the cents of the first two decimals |
| `Money.ParseFormatRoundTrip` | src/pages/OSDetail.tsx:31-38 | parsing a formatted amount gives the amount back |
| `Money.ParseBRLNegative` | src/pages/OSDetail.tsx:35-38 | a minus sign before digits reads as 0 |
| `Money.Fixed2ReadsBack` | src/App.tsx:81-82 | `toFixed(2)` text reads back as the same amount |
| `OSDetail.SuggestTipo` | src/pages/OSDetail.tsx:40-74 | `peca` exactly when no service keyword and some part keyword occurs in the lower-cased description |
| `OSDetail.TrocaIsServicoKey` | src/pages/OSDetail.tsx:67-73 | a description containing `troca` already matches a service keyword, so the later `troca` + `óleo` test never decides |
| `OSDetail.KindPartition` | src/pages/OSDetail.tsx:151-167 | parts total plus service total is the total of all items |
| `OSDetail.ComputeTotals` | src/pages/OSDetail.tsx:151-169 | the grand total is parts plus labour; labour is service items plus the typed extra; the grand total is all items plus the extra |
| `OSDetail.LabourField` | src/pages/OSDetail.tsx:138-141 | the field is empty exactly when the stored labour is 0, and it parses back to the stored labour |
| `OSDetail.DetailTotalMatchesStore` | src/pages/OSDetail.tsx:138-169 | on a consistent store the page's grand total after a refresh equals the stored `valor_total` |
| `OSDetail.SaveLabour` | src/pages/OSDetail.tsx:174-181 | saving stores the parsed field as the order's labour, and fails only when the order is missing |
| `OSDetail.SaveRefreshStable` | src/pages/OSDetail.tsx:138-181 | after saving and refreshing, the labour field parses to what was typed |
| `OSDetail.ItemSumIsFiltered` | src/lib/localDB.ts:352-354 | an order's item sum is the total of the items filtered to that order |
| `OSDetail.ValidateItem` | src/pages/OSDetail.tsx:183-191 | accepted exactly when the description is non-blank, the quantity positive and the parsed price positive; otherwise the first failing check's message; an accepted item carries the form's values |
| `OSDetail.AddItem` | src/pages/OSDetail.tsx:183-210 | rejected exactly when validation fails; stored items have positive quantity and price, a total at least the price, and a non-blank description |
| `NewOSWizard.Initial` | src/pages/NewOSWizard.tsx:45-48 | the wizard starts at step 1 with no error and nothing checked |
| `NewOSWizard.HandleNext` | src/pages/NewOSWizard.tsx:69-87 | at step 1 without name, phone and plate, or at step 2 without problem and km, it stays and sets the error; otherwise it clears the error and advances by one; the form and selection are unchanged |
| `NewOSWizard.PressKeepsStep` | src/pages/NewOSWizard.tsx:431-464 | with Back shown only above step 1 and Next only below step 3, no action leaves steps 1 to 3 |
| `NewOSWizard.RunKeepsStep` | src/pages/NewOSWizard.tsx:431-464 | any sequence of actions keeps the step within 1 to 3 |
| `NewOSWizard.ReachStep3` | src/pages/NewOSWizard.tsx:79-86 | Next from step 2 reaches step 3 exactly when problem and km are filled |
| `NewOSWizard.ToggleChecklistItem` | src/pages/NewOSWizard.tsx:142-149 | flips the membership of exactly that item |
| `NewOSWizard.ToggleTwice` | src/pages/NewOSWizard.tsx:142-149 | toggling an item twice restores the selection |
| `NewOSWizard.SeedChecklist` | src/pages/NewOSWizard.tsx:124-129 | one row per catalog entry in catalog order, `ordem` its index, checked exactly when selected |
| `NewOSWizard.ParseInt` | src/pages/NewOSWizard.tsx:109 | a string of digits reads as its decimal value; a string without digits reads as nothing |
| `NewOSWizard.ParseIntNatToString` | src/pages/NewOSWizard.tsx:118 | a number's decimal text reads back as the number |
| `NewOSWizard.NonEmpty` | src/pages/NewOSWizard.tsx:100 | an empty field becomes null, any other is kept |
| `NewOSWizard.SaveClienteVeiculo` | src/pages/NewOSWizard.tsx:97-112 | appends the client and its vehicle; the plate is upper-cased; an empty email, year or colour, or an unreadable year, becomes null |
| `NewOSWizard.Submit` | src/pages/NewOSWizard.tsx:89-140 | fails with the login message exactly when no user is logged in; otherwise it appends one client, one vehicle linked to it, one `aberta` order linked to both with the next number, and the seeded checklist, leaving the items unchanged |
| `WhatsApp.ItemLines` | src/App.tsx:66-72 | one bullet per item, in order |
| `WhatsApp.ListaItens` | src/App.tsx:63-73 | the placeholder line for no items; otherwise the bullets, each ending its line |
| `WhatsApp.ModeloSuffix` | src/App.tsx:78 | empty exactly when the make-and-model text is empty; otherwise it holds that text in parentheses |
| `WhatsApp.SuffixOmittedIffBlank` | src/App.tsx:59-78 | the parenthesised make and model are left out exactly when both are blank |
| `WhatsApp.Message` | src/App.tsx:75-83 | opens with the greeting, is never blank, and contains the vehicle line, the item list, and the labour and total lines for the values given |
| `WhatsApp.MessageFor` | src/App.tsx:56-83 | addressed to the client or "Cliente", naming the order's vehicle, listing its items, with the order's labour line and the given total line |
| `WhatsApp.Assemble` | src/App.tsx:47-92 | the final total is the items total plus labour (0 when absent), and the message shows those same labour and total values; the phone is the client's or empty |
| `WhatsApp.BuildWhatsApp` | src/App.tsx:40-93 | uses the reread order and its items, or the order on screen with no items; the final total is items plus labour and appears in a non-blank message |
| `WhatsApp.DraftTotalIsStored` | src/App.tsx:42-54 | on a consistent store the total sent equals the order's stored `valor_total` |
| `WhatsAppModal.StatusLabel` | src/components/WhatsAppModal.tsx:21-30 | each stored status name gets its label; any other text is shown unchanged |
| `WhatsAppModal.LabelInjective` | src/components/WhatsAppModal.tsx:21-30 | different statuses are shown with different labels |
| `WhatsAppModal.TotalText` | src/components/WhatsAppModal.tsx:46-49 | a dash when the total is missing; otherwise `R$ ` followed by text that reads back as the total |
| `WhatsAppModal.FallbackMessage` | src/components/WhatsAppModal.tsx:36-59 | greets the client or "Cliente", shows the status label (that of `aberta` when absent) and the total text, and is never blank |
| `WhatsAppModal.InitialMessage` | src/components/WhatsAppModal.tsx:61-64 | the given message when it is not blank, the fallback when it is absent or blank, and never blank |
| `WhatsAppModal.DraftMessageUsed` | src/components/WhatsAppModal.tsx:61-64 | the dialog opened from the send action shows exactly the composed message |
| `WhatsAppModal.RawPhone` | src/components/WhatsAppModal.tsx:72 | an explicit phone wins, even an empty one; without one the client's phone; with neither it is empty |
| `WhatsAppModal.DraftDialsCliente` | src/components/WhatsAppModal.tsx:72 | the dialog opened from the send action dials the client on record, or nobody |
| `WhatsAppModal.HandleSend` | src/components/WhatsAppModal.tsx:71-82 | sends nothing exactly when the phone has no digit; otherwise the link starts with `https://wa.me/55` |
| `WhatsAppModal.SendUrlRoundTrip` | src/components/WhatsAppModal.tsx:74-78 | reading the link back gives exactly the phone's digits and the encoded message |
| `WhatsAppModal.SendKeepsEveryDigit` | src/components/WhatsAppModal.tsx:74 | every digit of the phone is dialled as often as it was typed, and the dialled number is exactly the phone's digits in typed order |
| `Text.KeepDigits` | src/components/WhatsAppModal.tsx:74 | only digits remain, in their original order (a subsequence of the text), and a phone typed as digits only is unchanged |
| `Text.KeepDigitsIsFilter` | src/components/WhatsAppModal.tsx:74 | keeping the digits is the same as filtering the text by "is a digit" |
| `Text.KeepDigitsAppend` | src/components/WhatsAppModal.tsx:74 | the digits of two pieces of text joined are the digits of the first followed by those of the second |
| `OSList.FilterOrders` | src/pages/OSList.tsx:35-44 | an order-preserving subsequence holding exactly the orders that match the search and the status chip; a single-status chip keeps only that status; a shown order appears as many times as in the list |
| `OSList.NoFilterKeepsAll` | src/pages/OSList.tsx:36-41 | no text and the "all" chip list every order, in order |
| `OSList.SearchIgnoresCase` | src/pages/OSList.tsx:37-39 | lower-casing the typed text changes nothing |
| `OSList.NumberFindsOrder` | src/pages/OSList.tsx:37 | typing an order's number finds it whenever the chip allows its status |
| `Clientes.FilterClientes` | src/pages/Clientes.tsx:29-36 | an order-preserving subsequence holding exactly the clients whose lower-cased name, phone or lower-cased email contains the lower-cased text, each as many times as in the list |
| `Clientes.EmptySearchKeepsAll` | src/pages/Clientes.tsx:29-36 | with nothing typed every client is listed, in order |
| `Clientes.SearchIgnoresCase` | src/pages/Clientes.tsx:30 | lower-casing the typed text changes nothing |
| `Clientes.PhoneDigitsFindCliente` | src/pages/Clientes.tsx:33 | any run of digits from a client's phone finds that client |

## Findings

| source | as written | input that shows it | evidently intended | confidence | as-written member | corrected member |
|---|---|---|---|---|---|---|
| src/pages/Dashboard.tsx:190-194 | today's revenue keeps the orders whose `paid_at` text, a UTC timestamp from `toISOString`, starts with today's local `YYYY-MM-DD`, while the week and month figures compare the instant with local midnights | a clock three hours behind UTC (Brazil), today a Monday, an order `concluida` with total R$ 100,00 paid at 22:00 on Sunday: its UTC date is Monday, so today shows R$ 100,00 and the week R$ 0,00 | the payment counts on its local day, so today's revenue is part of the week's and the month's | not executed | `Dashboard.DayOutsideWeekAsWritten`, `Dashboard.DayOutsideMonthAsWritten` | `Dashboard.DayWithinWeek`, `Dashboard.DayWithinMonth` |
| src/pages/Dashboard.tsx:211-231 | the projected day is turned into a date with ``new Date(`${p}T00:00:00`)``, but the wizard stores the estimate from a `datetime-local` input (src/pages/NewOSWizard.tsx:120, 370), such as `2026-10-12T14:30`; the appended text makes an invalid date, every comparison with it is false, and the order is never expected | an unpaid order with estimate `2026-10-12T14:30` and total R$ 100,00, looked at in the week of 2026-10-12: the week's expected revenue shows R$ 0,00 | an unpaid order counts in the window holding its estimated day | not executed | `Dashboard.EstimateNeverExpectedAsWritten` | `Dashboard.PrevistoContribution` |

## Left out

- Persistence is not modelled. That covers `loadDB`/`saveDB`, `localStorage` and JSON. The store is a value, and the seed is the first value.
- `uuid()` and `nowIso()` are not modelled. Fresh ids and the current instant are parameters. The invariant lemmas assume the ids are fresh where the source relies on it.
- Floating point is not modelled. Amounts are whole cents, and `toFixed(2)` is exact. The model's `parseBRL` truncates digits past the second decimal at reading time. The source reads them into a binary float, and it rounds to cents with `toFixed(2)` only when it stores the item (src/lib/localDB.ts:335-345).
- `OSDetail.ValidateItem`: a price below one cent, such as `0,004`, reads as 0 in the model and is rejected as an invalid value. The source reads it as 0.004, which is positive, so it accepts the item.
- `OSDetail.AddItem`: "stored items have a positive price" holds in the model only because prices are truncated to cents before validation. The source can store an item whose price, rounded by `toFixed(2)`, is 0: a price of `0,004` is stored as `valor_unitario` 0.
- `Money.JsNumber` does not model JavaScript's exponent notation, hexadecimal, `Infinity` or `NaN` forms; those read as no number. Its contract states only that blank text reads as 0. The decimal readings are proved in separate lemmas (`JsNumberDecimal`, `Fixed2ReadsBack`).
- `NewOSWizard.ParseInt` states only two cases: all-digit text and digit-free text. The body also follows `parseInt` on leading blanks, a sign and trailing junk. A non-number km is kept as "no value" instead of `NaN`.
- `LocalDB.SignIn` and `LocalDB.SignUp` ignore the password, as the source does.
- `LocalDB.GetOSDetails` states that the checklist is sorted by `ordem` and is a permutation of the order's rows, but not where rows with equal `ordem` end up. The source's `a.ordem - b.ordem` with a stable sort keeps them in store order; the wizard gives every row a distinct `ordem`.
- `LocalDB.ListOS` and `LocalDB.GetOSDetails` sort newest first, but they do not reproduce where the source's comparator puts equal timestamps. That comparator never returns 0, so it leaves ties in whatever order the engine's sort produces.
- `LocalDB.ListClientes` orders names by code point, not by `localeCompare`.
- `Text.ToLower` maps only ASCII and Latin-1 letters. It does no locale-specific mapping.
- `LocalDB.UpdateOS` replaces the order outright. It does not model the field-by-field spread of a partial object, and it drops the `cliente`/`veiculo`/`itens`/`timeline` keys.
- `LocalDB.CreateOS` leaves out `problema_relatado`, `combustivel` and `data_entrada`. They are carried into the order but play no part in any property.
- The offset between the local clock and UTC is a parameter of `Dashboard.FaturamentoDiaAsWritten`; daylight-saving changes within a day are not modelled. The corrected figures compare local days throughout (see Findings).
- The `datetime-local` delivery estimate is modelled as the local day it names. Its time of day is dropped; only whether an estimate is present matters to `Dashboard.PrevistoAsWritten` (see Findings).
- The overdue test is modelled on day numbers. The source compares `YYYY-MM-DD` text.
- `Dashboard.Summarize` states how the overdue figures relate to each other and that a day's revenue never exceeds the week's or the month's. Each figure's own meaning is stated by the per-figure functions and contribution lemmas above.
- Item quantities are natural numbers. The form's number input is not modelled. Validation rejects 0.
- Printing is not modelled. That covers the HTML print template, `window.open`, `print`, and the PDF.
- `WhatsAppModal.HandleSend` takes `encodeURIComponent` as a parameter. Opening the link and closing the dialog are not modelled.
- `WhatsApp.BuildWhatsApp` states that the message contains the total line and is not blank; the greeting, vehicle line, item list and labour line are stated one level down, by `WhatsApp.MessageFor` and `WhatsApp.Assemble`. The order-number and status lines are not stated as contents of the text.
- `WhatsAppModal.StatusLabel`: the lookup object in the source inherits `Object.prototype`, so text such as `toString` or `constructor` comes back as an inherited function rather than unchanged. The model shows such text unchanged.
- The wizard's `handleNext` at step 3 is not modelled separately. The Next button is hidden there, so a press at step 3 does nothing.
- The `"aberta"` status fallback in `App.tsx` is not modelled: every stored order has a status.
- React rendering, hooks, styling and the authentication context are not modelled.

=== FILE: calendar.dfy ===
/** Local calendar arithmetic for the dashboard.  Instants are milliseconds on
    the local clock, so a local day is a fixed run of `MsPerDay` milliseconds
    and day `0` is 1970-01-01 (a Thursday).  Calendar dates follow the
    proleptic Gregorian calendar, as JavaScript's `Date` does. */
module Calendar {

  /** Milliseconds since 1970-01-01 00:00 on the local clock. */
  type Instant = int

  /** Local calendar day; 1970-01-01 is day 0. */
  type Day = int

  const MsPerHour: nat := 3_600_000
  const MsPerDay: nat := 86_400_000

  /** The local day an instant falls on. */
  function DayOf(t: Instant): (d: Day)
    ensures StartOfDay(d) <= t < StartOfDay(d + 1)
  {
    t / MsPerDay
  }

  /** Local midnight at the start of day `d`. */
  function StartOfDay(d: Day): Instant {
    d * MsPerDay
  }

  /** Midnight is on its own day. */
  lemma DayOfStart(d: Day)
    ensures DayOf(StartOfDay(d)) == d
  {
  }

  /** `Date.prototype.getDay()`: 0 is Sunday, 1 Monday, ..., 6 Saturday. */
  function WeekDay(d: Day): (w: nat)
    ensures w < 7
  {
    (d + 4) % 7
  }

  // ---------------------------------------------------------------------------
  // Civil dates
  // ---------------------------------------------------------------------------

  datatype CivilDate = CivilDate(year: int, month: int, day: int)

  predicate IsLeapYear(y: int) {
    y % 4 == 0 && (y % 100 != 0 || y % 400 == 0)
  }

  function DaysInMonth(y: int, m: int): (n: nat)
    requires 1 <= m <= 12
    ensures 28 <= n <= 31
  {
    if m == 2 then (if IsLeapYear(y) then 29 else 28)
    else if m == 4 || m == 6 || m == 9 || m == 11 then 30
    else 31
  }

  predicate ValidDate(d: CivilDate) {
    d.year >= 1 && 1 <= d.month <= 12 && 1 <= d.day <= DaysInMonth(d.year, d.month)
  }

  /** Days of year `y` before the first of month `m`. */
  function DaysBeforeMonth(y: int, m: int): nat
    requires 1 <= m <= 12
  {
    [0, 31, 59, 90, 120, 151, 181, 212, 243, 273, 304, 334][m - 1]
      + (if m > 2 && IsLeapYear(y) then 1 else 0)
  }

  /** Days from 0001-01-01 to the first of January of year `y`. */
  function DaysBeforeYear(y: int): int
    requires y >= 1
  {
    365 * (y - 1) + (y - 1) / 4 - (y - 1) / 100 + (y - 1) / 400
  }

  /** `DaysBeforeYear(1970)`: the offset of the Unix epoch. */
  const EpochDays: int := 719162

  /** The local day number of a calendar date. */
  function DayNumber(d: CivilDate): Day
    requires ValidDate(d)
  {
    DaysBeforeYear(d.year) + DaysBeforeMonth(d.year, d.month) + d.day - 1 - EpochDays
  }

  /** The first day of the month after `d`'s month: `new Date(y, m + 1, 1)`,
      which rolls December over into January of the next year. */
  function FirstOfNextMonth(d: CivilDate): (r: CivilDate)
    requires ValidDate(d)
    ensures ValidDate(r) && r.day == 1
  {
    if d.month == 12 then CivilDate(d.year + 1, 1, 1) else CivilDate(d.year, d.month + 1, 1)
  }

  /** `y / k - (y - 1) / k` is 1 exactly when `k` divides `y`, for the three
      divisors of the leap-year rule. */
  lemma DivStep(y: int, k: int)
    requires y >= 1 && (k == 4 || k == 100 || k == 400)
    ensures y / k - (y - 1) / k == if y % k == 0 then 1 else 0
  {
    if k == 4 {
    } else if k == 100 {
    } else {
    }
  }

  /** The divisors of the leap-year rule nest: 400 | y ==> 100 | y ==> 4 | y. */
  lemma LeapDivisors(y: int)
    ensures y % 400 == 0 ==> y % 100 == 0
    ensures y % 100 == 0 ==> y % 4 == 0
  {
  }

  /** A year has 366 days when it is a leap year and 365 otherwise. */
  lemma YearLength(y: int)
    requires y >= 1
    ensures DaysBeforeYear(y + 1) - DaysBeforeYear(y) == if IsLeapYear(y) then 366 else 365
  {
    DivStep(y, 4);
    DivStep(y, 100);
    DivStep(y, 400);
    LeapDivisors(y);
    var a := y / 4 - (y - 1) / 4;
    var b := y / 100 - (y - 1) / 100;
    var c := y / 400 - (y - 1) / 400;
    assert DaysBeforeYear(y + 1) - DaysBeforeYear(y) == 365 + a - b + c;
  }

  /** Every day of a month lies before the first of the next month, and the
      first of the month lies on or before it. */
  lemma MonthBounds(d: CivilDate)
    requires ValidDate(d)
    ensures DayNumber(CivilDate(d.year, d.month, 1)) <= DayNumber(d) < DayNumber(FirstOfNextMonth(d))
    ensures DayNumber(FirstOfNextMonth(d)) - DayNumber(CivilDate(d.year, d.month, 1)) == DaysInMonth(d.year, d.month)
  {
    if d.month == 12 {
      YearLength(d.year);
    }
  }

  // ---------------------------------------------------------------------------
  // Local date-times
  // ---------------------------------------------------------------------------

  /** A local date and the milliseconds elapsed since its midnight: what a
      JavaScript `Date` exposes through its local getters. */
  datatype LocalDateTime = LocalDateTime(date: CivilDate, msOfDay: int)

  predicate ValidDateTime(t: LocalDateTime) {
    ValidDate(t.date) && 0 <= t.msOfDay < MsPerDay
  }

  function InstantOf(t: LocalDateTime): (r: Instant)
    requires ValidDateTime(t)
    ensures DayOf(r) == DayNumber(t.date)
  {
    StartOfDay(DayNumber(t.date)) + t.msOfDay
  }
}

=== FILE: dashboard.dfy ===
/** The revenue dashboard: the current week and month as half-open windows of
    local time, the projected payment day of an order, and the realised,
    expected and overdue sums over the order list. */
module Dashboard {
  import opened Wrappers
  import opened Seqs
  import opened Money
  import opened Calendar
  import opened Types

  /** A half-open interval `[start, end)` of instants. */
  datatype Window = Window(start: Instant, end: Instant)

  /** `inRange`: false for a missing timestamp, otherwise `start <= t < end`. */
  predicate InRange(t: Option<Instant>, w: Window)
    ensures InRange(t, w) ==> t.Some? && w.start < w.end
    ensures t.Some? && t.value == w.start ==> (InRange(t, w) <==> w.start < w.end)
    ensures t.Some? && t.value == w.end ==> !InRange(t, w)
  {
    t.Some? && w.start <= t.value < w.end
  }

  // ---------------------------------------------------------------------------
  // Windows
  // ---------------------------------------------------------------------------

  /** The Monday on or before `today` (Sunday counts as the end of a week). */
  function WeekStartDay(today: Day): (ws: Day)
    ensures WeekDay(ws) == 1
    ensures ws <= today < ws + 7
  {
    var wd := WeekDay(today);
    var q := (today + 4) / 7;
    assert today + 4 == 7 * q + wd;
    if wd == 0 then
      assert today - 6 + 4 == 7 * (q - 1) + 1;
      today - 6
    else
      assert today + 1 - wd + 4 == 7 * q + 1;
      today + 1 - wd
  }

  /** `startOfWeekLocal` / `endOfWeekLocal`: local midnight of that Monday and
      exactly seven days later. */
  function WeekWindow(today: Day): (w: Window)
    ensures w.start == StartOfDay(WeekStartDay(today))
    ensures w.end - w.start == 7 * MsPerDay
    ensures w.start <= StartOfDay(today) && StartOfDay(today + 1) <= w.end
  {
    var ws := WeekStartDay(today);
    Window(StartOfDay(ws), StartOfDay(ws + 7))
  }

  /** `startOfMonthLocal` / `endOfMonthLocal`: local midnight of the first of
      the month and of the first of the next month. */
  function MonthWindow(date: CivilDate): (w: Window)
    requires ValidDate(date)
    ensures w.start == StartOfDay(DayNumber(CivilDate(date.year, date.month, 1)))
    ensures w.end - w.start == DaysInMonth(date.year, date.month) * MsPerDay
    ensures w.start <= StartOfDay(DayNumber(date)) && StartOfDay(DayNumber(date) + 1) <= w.end
  {
    MonthBounds(date);
    Window(StartOfDay(DayNumber(CivilDate(date.year, date.month, 1))), StartOfDay(DayNumber(FirstOfNextMonth(date))))
  }

  /** Local midnight is monotone in the day. */
  lemma StartOfDayMono(a: Day, b: Day)
    requires a <= b
    ensures StartOfDay(a) <= StartOfDay(b)
  {
  }

  /** An instant lies in a window bounded by two midnights exactly when its
      day lies between those two days. */
  lemma InRangeDays(t: Instant, lo: Day, hi: Day)
    ensures InRange(Some(t), Window(StartOfDay(lo), StartOfDay(hi))) <==> lo <= DayOf(t) < hi
  {
    var d := DayOf(t);
    if lo <= d < hi {
      StartOfDayMono(lo, d);
      StartOfDayMono(d + 1, hi);
    } else if d < lo {
      StartOfDayMono(d + 1, lo);
    } else {
      StartOfDayMono(hi, d);
    }
  }

  /** The week window holds exactly the instants of its seven days. */
  lemma WeekWindowDays(today: Day, t: Instant)
    ensures InRange(Some(t), WeekWindow(today))
            <==> WeekStartDay(today) <= DayOf(t) < WeekStartDay(today) + 7
  {
    InRangeDays(t, WeekStartDay(today), WeekStartDay(today) + 7);
  }

  /** The current instant lies in the current week and in the current month. */
  lemma NowInWindows(now: LocalDateTime)
    requires ValidDateTime(now)
    ensures InRange(Some(InstantOf(now)), WeekWindow(DayNumber(now.date)))
    ensures InRange(Some(InstantOf(now)), MonthWindow(now.date))
  {
  }

  // ---------------------------------------------------------------------------
  // Per-order tests
  // ---------------------------------------------------------------------------

  predicate IsDone(o: Order) {
    o.status == Concluida || o.status == Entregue
  }

  predicate IsPaid(o: Order) {
    o.paidAt.Some?
  }

  /** `previsaoPagamento`: the delivery estimate when there is one, else the
      local day three days after the order was created. */
  function PrevisaoPagamento(o: Order): (d: Day)
    ensures o.previsaoEntrega.Some? ==> d == o.previsaoEntrega.value
    ensures o.previsaoEntrega.None? ==>
              StartOfDay(d) <= o.createdAt + 3 * MsPerDay < StartOfDay(d + 1)
  {
    match o.previsaoEntrega
    case Some(p) => p
    case None => DayOf(o.createdAt) + 3
  }

  /** Realised today: done and paid on the local day `today`.  The page
      itself tests the UTC date of the payment (`PaidOnUtcText`); counting the
      local day is what keeps today's figure inside the week's. */
  predicate PaidOn(o: Order, today: Day) {
    IsDone(o) && o.paidAt.Some? && DayOf(o.paidAt.value) == today
  }

  /** Realised within a window: done and paid inside it. */
  predicate PaidIn(o: Order, w: Window) {
    IsDone(o) && InRange(o.paidAt, w)
  }

  /** Expected within a window: unpaid, whatever the status, with local
      midnight of the projected day inside the window.  The page drops every
      order with an estimate (`ExpectedInAsWritten`). */
  predicate ExpectedIn(o: Order, w: Window) {
    !IsPaid(o) && w.start <= StartOfDay(PrevisaoPagamento(o)) < w.end
  }

  /** Overdue: unpaid with the projected day strictly before today. */
  predicate Overdue(o: Order, today: Day) {
    !IsPaid(o) && PrevisaoPagamento(o) < today
  }

  // ---------------------------------------------------------------------------
  // Sums
  // ---------------------------------------------------------------------------

  /** `reduce((acc, os) => acc + os.valor_total, 0)`. */
  function SumTotals(os: seq<Order>): Cents {
    if os == [] then 0 else os[0].valorTotal + SumTotals(os[1..])
  }

  /** The total over the orders satisfying `p`, in one pass. */
  function SumWhere(os: seq<Order>, p: Order -> bool): Cents {
    if os == [] then 0
    else (if p(os[0]) then os[0].valorTotal else 0) + SumWhere(os[1..], p)
  }

  /** Filtering and then summing is summing the qualifying orders. */
  lemma {:induction false} SumFilter(os: seq<Order>, p: Order -> bool)
    ensures SumTotals(Filter(os, p)) == SumWhere(os, p)
  {
    if os != [] {
      SumFilter(os[1..], p);
      if p(os[0]) {
        assert Filter(os, p)[1..] == Filter(os[1..], p);
      }
    }
  }

  lemma {:induction false} SumWhereAppend(a: seq<Order>, b: seq<Order>, p: Order -> bool)
    ensures SumWhere(a + b, p) == SumWhere(a, p) + SumWhere(b, p)
  {
    if a == [] {
      assert a + b == b;
    } else {
      SumWhereAppend(a[1..], b, p);
      assert (a + b)[1..] == a[1..] + b;
    }
  }

  /** One order adds its total to a filtered sum exactly when it qualifies. */
  lemma Contribution(a: seq<Order>, o: Order, b: seq<Order>, p: Order -> bool)
    ensures SumTotals(Filter(a + [o] + b, p))
            == SumTotals(Filter(a + b, p)) + (if p(o) then o.valorTotal else 0)
  {
    SumFilter(a + [o] + b, p);
    SumFilter(a + b, p);
    SumWhereAppend(a + [o], b, p);
    SumWhereAppend(a, [o], p);
    SumWhereAppend(a, b, p);
    assert SumWhere([o], p) == (if p(o) then o.valorTotal else 0) by {
      assert [o][1..] == [];
    }
  }

  /** No selection sums to more than the whole list. */
  lemma {:induction false} SumWhereBounded(os: seq<Order>, p: Order -> bool)
    ensures SumWhere(os, p) <= SumTotals(os)
  {
    if os != [] {
      SumWhereBounded(os[1..], p);
    }
  }

  /** A weaker test gives a sum at least as large. */
  lemma {:induction false} SumWhereMono(os: seq<Order>, p: Order -> bool, q: Order -> bool)
    requires forall k :: 0 <= k < |os| && p(os[k]) ==> q(os[k])
    ensures SumWhere(os, p) <= SumWhere(os, q)
  {
    if os != [] {
      SumWhereMono(os[1..], p, q);
    }
  }

  // ---------------------------------------------------------------------------
  // The figures
  // ---------------------------------------------------------------------------

  /** `faturamentoDia`: the total of the orders done and paid today. */
  function FaturamentoDia(ordens: seq<Order>, today: Day): (r: Cents)
    ensures r == SumWhere(ordens, (o: Order) => PaidOn(o, today))
    ensures r <= SumTotals(ordens)
  {
    SumFilter(ordens, (o: Order) => PaidOn(o, today));
    SumWhereBounded(ordens, (o: Order) => PaidOn(o, today));
    SumTotals(Filter(ordens, (o: Order) => PaidOn(o, today)))
  }

  /** `faturamentoSemana` / `faturamentoMes`: the total of the orders done
      and paid inside the window. */
  function Faturamento(ordens: seq<Order>, w: Window): (r: Cents)
    ensures r == SumWhere(ordens, (o: Order) => PaidIn(o, w))
    ensures r <= SumTotals(ordens)
  {
    SumFilter(ordens, (o: Order) => PaidIn(o, w));
    SumWhereBounded(ordens, (o: Order) => PaidIn(o, w));
    SumTotals(Filter(ordens, (o: Order) => PaidIn(o, w)))
  }

  /** `previstoSemana` / `previstoMes`: the total of the unpaid orders whose
      projected day starts inside the window. */
  function Previsto(ordens: seq<Order>, w: Window): (r: Cents)
    ensures r == SumWhere(ordens, (o: Order) => ExpectedIn(o, w))
    ensures r <= SumTotals(ordens)
  {
    SumFilter(ordens, (o: Order) => ExpectedIn(o, w));
    SumWhereBounded(ordens, (o: Order) => ExpectedIn(o, w));
    SumTotals(Filter(ordens, (o: Order) => ExpectedIn(o, w)))
  }

  /** `atrasados`: the overdue orders, in list order. */
  function Atrasados(ordens: seq<Order>, today: Day): (r: seq<Order>)
    ensures IsSubsequence(r, ordens)
    ensures forall o :: o in r <==> o in ordens && !IsPaid(o) && PrevisaoPagamento(o) < today
  {
    Filter(ordens, (o: Order) => Overdue(o, today))
  }

  /** `recentes`: the first six orders of the list. */
  function Recentes(ordens: seq<Order>): (r: seq<Order>)
    ensures |r| == if |ordens| < 6 then |ordens| else 6
    ensures r == ordens[..|r|]
  {
    Take(ordens, 6)
  }

  datatype Metrics = Metrics(
    faturamentoDia: Cents,
    faturamentoSemana: Cents,
    faturamentoMes: Cents,
    previstoSemana: Cents,
    previstoMes: Cents,
    atrasados: seq<Order>,
    atrasadosCount: nat,
    atrasadosValor: Cents,
    recentes: seq<Order>)

  /** Every figure on the dashboard for the list `ordens` at local time `now`. */
  function Summarize(ordens: seq<Order>, now: LocalDateTime): (m: Metrics)
    requires ValidDateTime(now)
    ensures m.atrasadosCount == |m.atrasados| && m.atrasadosValor == SumTotals(m.atrasados)
    ensures m.faturamentoDia <= m.faturamentoSemana && m.faturamentoDia <= m.faturamentoMes
    ensures forall o :: o in m.atrasados ==> !IsPaid(o)
  {
    var today := DayNumber(now.date);
    var week := WeekWindow(today);
    var month := MonthWindow(now.date);
    var atrasados := Atrasados(ordens, today);
    DayWithinWeek(ordens, today);
    DayWithinMonth(ordens, now.date);
    Metrics(
      FaturamentoDia(ordens, today),
      Faturamento(ordens, week),
      Faturamento(ordens, month),
      Previsto(ordens, week),
      Previsto(ordens, month),
      atrasados,
      |atrasados|,
      SumTotals(atrasados),
      Recentes(ordens))
  }

  // ---------------------------------------------------------------------------
  // Properties of the figures
  // ---------------------------------------------------------------------------

  /** Realised revenue: an order adds its total exactly when it is done and
      its payment instant lies in the window. */
  lemma FaturamentoContribution(a: seq<Order>, o: Order, b: seq<Order>, w: Window)
    ensures Faturamento(a + [o] + b, w)
            == Faturamento(a + b, w) + (if IsDone(o) && InRange(o.paidAt, w) then o.valorTotal else 0)
  {
    Contribution(a, o, b, (x: Order) => PaidIn(x, w));
  }

  /** Expected revenue: an order adds its total exactly when it is unpaid and
      its projected day starts inside the window; a paid order never adds. */
  lemma PrevistoContribution(a: seq<Order>, o: Order, b: seq<Order>, w: Window)
    ensures Previsto(a + [o] + b, w)
            == Previsto(a + b, w)
               + (if !IsPaid(o) && w.start <= StartOfDay(PrevisaoPagamento(o)) < w.end then o.valorTotal else 0)
    ensures IsPaid(o) ==> Previsto(a + [o] + b, w) == Previsto(a + b, w)
  {
    Contribution(a, o, b, (x: Order) => ExpectedIn(x, w));
  }

  /** Overdue value: an order adds its total exactly when it is unpaid and
      its projected day is before today. */
  lemma AtrasadosContribution(a: seq<Order>, o: Order, b: seq<Order>, today: Day)
    ensures SumTotals(Atrasados(a + [o] + b, today))
            == SumTotals(Atrasados(a + b, today))
               + (if !IsPaid(o) && PrevisaoPagamento(o) < today then o.valorTotal else 0)
  {
    Contribution(a, o, b, (x: Order) => Overdue(x, today));
  }

  /** What was realised today was realised this week. */
  lemma DayWithinWeek(ordens: seq<Order>, today: Day)
    ensures FaturamentoDia(ordens, today) <= Faturamento(ordens, WeekWindow(today))
  {
    var w := WeekWindow(today);
    var p := (o: Order) => PaidOn(o, today);
    var q := (o: Order) => PaidIn(o, w);
    forall k | 0 <= k < |ordens| && p(ordens[k])
      ensures q(ordens[k])
    {
      InRangeDays(ordens[k].paidAt.value, WeekStartDay(today), WeekStartDay(today) + 7);
    }
    SumWhereMono(ordens, p, q);
    SumFilter(ordens, p);
    SumFilter(ordens, q);
  }

  /** What was realised today was realised this month. */
  lemma DayWithinMonth(ordens: seq<Order>, date: CivilDate)
    requires ValidDate(date)
    ensures FaturamentoDia(ordens, DayNumber(date)) <= Faturamento(ordens, MonthWindow(date))
  {
    var today := DayNumber(date);
    var w := MonthWindow(date);
    var first := DayNumber(CivilDate(date.year, date.month, 1));
    var next := DayNumber(FirstOfNextMonth(date));
    MonthBounds(date);
    var p := (o: Order) => PaidOn(o, today);
    var q := (o: Order) => PaidIn(o, w);
    forall k | 0 <= k < |ordens| && p(ordens[k])
      ensures q(ordens[k])
    {
      InRangeDays(ordens[k].paidAt.value, first, next);
    }
    SumWhereMono(ordens, p, q);
    SumFilter(ordens, p);
    SumFilter(ordens, q);
  }

  // ---------------------------------------------------------------------------
  // The figures as the page computes them
  // ---------------------------------------------------------------------------

  /** Realised today as the page tests it: the stored payment text is a UTC
      timestamp whose date prefix is compared with today's local date.  With
      the local clock `offset` milliseconds ahead of UTC, that prefix names
      the local day of the payment instant moved back by `offset`. */
  predicate PaidOnUtcText(o: Order, today: Day, offset: int) {
    IsDone(o) && o.paidAt.Some? && DayOf(o.paidAt.value - offset) == today
  }

  /** `faturamentoDia` as written, comparing UTC text with a local date. */
  function FaturamentoDiaAsWritten(ordens: seq<Order>, today: Day, offset: int): (r: Cents)
    ensures r == SumWhere(ordens, (o: Order) => PaidOnUtcText(o, today, offset))
    ensures r <= SumTotals(ordens)
    ensures offset == 0 ==> r == FaturamentoDia(ordens, today)
  {
    var p := (o: Order) => PaidOnUtcText(o, today, offset);
    SumFilter(ordens, p);
    SumWhereBounded(ordens, p);
    assert offset == 0 ==> Filter(ordens, p) == Filter(ordens, (o: Order) => PaidOn(o, today)) by {
      if offset == 0 {
        FilterCongruent(ordens, p, (o: Order) => PaidOn(o, today));
      }
    }
    SumTotals(Filter(ordens, p))
  }

  /** One order's share of a one-pass sum. */
  lemma SumWhereSplit(a: seq<Order>, x: Order, b: seq<Order>, p: Order -> bool)
    ensures SumWhere(a + [x] + b, p) == SumWhere(a + b, p) + (if p(x) then x.valorTotal else 0)
  {
    SumWhereAppend(a + [x], b, p);
    SumWhereAppend(a, [x], p);
    SumWhereAppend(a, b, p);
    assert [x][1..] == [];
  }

  /** The Monday of a Monday's week is that day itself. */
  lemma MondayStartsWeek(today: Day)
    requires WeekDay(today) == 1
    ensures WeekStartDay(today) == today
  {
    var ws := WeekStartDay(today);
    assert (ws + 4) % 7 == 1 && (today + 4) % 7 == 1;
    assert (today + 4) - (ws + 4) == 7 * ((today + 4) / 7 - (ws + 4) / 7);
  }

  /** With the clock `-offset` milliseconds behind UTC, an instant in the last
      `-offset` milliseconds before local midnight of `today` has `today` as
      its UTC date. */
  lemma LateEveningUtcDate(t: Instant, today: Day, offset: int)
    requires 0 < -offset <= MsPerDay
    requires StartOfDay(today) + offset <= t < StartOfDay(today)
    ensures DayOf(t - offset) == today
  {
    var d := DayOf(t - offset);
    if d < today {
      StartOfDayMono(d + 1, today);
    } else if d > today {
      StartOfDayMono(today + 1, d);
    }
  }

  /** In a zone behind UTC, an order paid in the last hours before a
      Monday's local midnight has Monday as its UTC date: on that Monday the
      page adds it to today's revenue, while the week starting at that
      midnight leaves it out.  With a positive total, today's figure exceeds
      the week's. */
  lemma DayOutsideWeekAsWritten(a: seq<Order>, late: Order, b: seq<Order>, today: Day, offset: int)
    requires WeekDay(today) == 1
    requires 0 < -offset <= MsPerDay
    requires IsDone(late) && late.paidAt.Some?
    requires StartOfDay(today) + offset <= late.paidAt.value < StartOfDay(today)
    ensures FaturamentoDiaAsWritten(a + [late] + b, today, offset)
            == FaturamentoDiaAsWritten(a + b, today, offset) + late.valorTotal
    ensures Faturamento(a + [late] + b, WeekWindow(today)) == Faturamento(a + b, WeekWindow(today))
    ensures late.valorTotal > 0 ==>
              FaturamentoDiaAsWritten([late], today, offset) > Faturamento([late], WeekWindow(today))
  {
    MondayStartsWeek(today);
    LateEveningUtcDate(late.paidAt.value, today, offset);
    var p := (o: Order) => PaidOnUtcText(o, today, offset);
    var q := (o: Order) => PaidIn(o, WeekWindow(today));
    SumWhereSplit(a, late, b, p);
    SumWhereSplit(a, late, b, q);
    SumWhereSplit([], late, [], p);
    SumWhereSplit([], late, [], q);
    assert [] + [late] + [] == [late];
  }

  /** The same on the first of a month: a payment in the last hours of the
      previous month counts today but not in this month. */
  lemma DayOutsideMonthAsWritten(a: seq<Order>, late: Order, b: seq<Order>, date: CivilDate, offset: int)
    requires ValidDate(date) && date.day == 1
    requires 0 < -offset <= MsPerDay
    requires IsDone(late) && late.paidAt.Some?
    requires StartOfDay(DayNumber(date)) + offset <= late.paidAt.value < StartOfDay(DayNumber(date))
    ensures FaturamentoDiaAsWritten(a + [late] + b, DayNumber(date), offset)
            == FaturamentoDiaAsWritten(a + b, DayNumber(date), offset) + late.valorTotal
    ensures Faturamento(a + [late] + b, MonthWindow(date)) == Faturamento(a + b, MonthWindow(date))
    ensures late.valorTotal > 0 ==>
              FaturamentoDiaAsWritten([late], DayNumber(date), offset) > Faturamento([late], MonthWindow(date))
  {
    var today := DayNumber(date);
    assert date == CivilDate(date.year, date.month, 1);
    LateEveningUtcDate(late.paidAt.value, today, offset);
    var p := (o: Order) => PaidOnUtcText(o, today, offset);
    var q := (o: Order) => PaidIn(o, MonthWindow(date));
    SumWhereSplit(a, late, b, p);
    SumWhereSplit(a, late, b, q);
    SumWhereSplit([], late, [], p);
    SumWhereSplit([], late, [], q);
    assert [] + [late] + [] == [late];
  }

  /** Expected within a window as the page tests it.  The stored estimate is
      the wizard's date-and-time text, and appending a midnight time to it
      makes an invalid date, which fails every comparison; only an order
      without an estimate, whose projected day the page writes as a bare
      date, can count. */
  predicate ExpectedInAsWritten(o: Order, w: Window) {
    !IsPaid(o) && o.previsaoEntrega.None? && w.start <= StartOfDay(PrevisaoPagamento(o)) < w.end
  }

  /** `previstoSemana` / `previstoMes` as written: never more than the
      intended figure, and equal to it when no order carries an estimate. */
  function PrevistoAsWritten(ordens: seq<Order>, w: Window): (r: Cents)
    ensures r == SumWhere(ordens, (o: Order) => ExpectedInAsWritten(o, w))
    ensures r <= Previsto(ordens, w)
    ensures (forall k :: 0 <= k < |ordens| ==> ordens[k].previsaoEntrega.None?) ==> r == Previsto(ordens, w)
  {
    var p := (o: Order) => ExpectedInAsWritten(o, w);
    var q := (o: Order) => ExpectedIn(o, w);
    SumFilter(ordens, p);
    SumWhereMono(ordens, p, q);
    assert (forall k :: 0 <= k < |ordens| ==> ordens[k].previsaoEntrega.None?) ==> SumWhere(ordens, q) <= SumWhere(ordens, p) by {
      if forall k :: 0 <= k < |ordens| ==> ordens[k].previsaoEntrega.None? {
        SumWhereMono(ordens, q, p);
      }
    }
    SumTotals(Filter(ordens, p))
  }

  /** An unpaid order due inside the window adds its total to the intended
      figure, but as written it adds nothing once the wizard has given it an
      estimate. */
  lemma EstimateNeverExpectedAsWritten(a: seq<Order>, late: Order, b: seq<Order>, w: Window)
    requires !IsPaid(late) && late.previsaoEntrega.Some?
    requires w.start <= StartOfDay(late.previsaoEntrega.value) < w.end
    ensures PrevistoAsWritten(a + [late] + b, w) == PrevistoAsWritten(a + b, w)
    ensures Previsto(a + [late] + b, w) == Previsto(a + b, w) + late.valorTotal
    ensures late.valorTotal > 0 ==> PrevistoAsWritten([late], w) < Previsto([late], w)
  {
    var p := (o: Order) => ExpectedInAsWritten(o, w);
    var q := (o: Order) => ExpectedIn(o, w);
    SumWhereSplit(a, late, b, p);
    SumWhereSplit(a, late, b, q);
    SumWhereSplit([], late, [], p);
    SumWhereSplit([], late, [], q);
    assert [] + [late] + [] == [late];
  }

  /** In a list ordered newest first, every earlier order is at least as new
      as every later one. */
  lemma {:induction false} NewestFirstOrdered(os: seq<Order>, i: nat, j: nat)
    requires SortedBy(os, (a: Order, b: Order) => a.createdAt >= b.createdAt)
    requires i <= j < |os|
    ensures os[i].createdAt >= os[j].createdAt
    decreases j - i
  {
    if i < j {
      NewestFirstOrdered(os, i + 1, j);
      assert os[i].createdAt >= os[i + 1].createdAt;
    }
  }

  /** On the store's newest-first list, the recent orders are the newest. */
  lemma RecentesAreNewest(ordens: seq<Order>)
    requires SortedBy(ordens, (a: Order, b: Order) => a.createdAt >= b.createdAt)
    ensures forall i, j :: 0 <= i < |Recentes(ordens)| <= j < |ordens|
              ==> ordens[i].createdAt >= ordens[j].createdAt
  {
    forall i, j | 0 <= i < |Recentes(ordens)| <= j < |ordens|
      ensures ordens[i].createdAt >= ordens[j].createdAt
    {
      NewestFirstOrdered(ordens, i, j);
    }
  }
}

=== FILE: lists.dfy ===
/** The search box and status chips of the order list. */
module OSList {
  import opened Text
  import opened Seqs
  import opened Types

  datatype StatusFilter = All | Only(status: Status)

  /** An order matches the typed text when the text is empty or when it
      occurs in the order number, in the lower-cased plate or in the
      lower-cased client name.  The number is searched for the lower-cased
      text as well. */
  predicate MatchesSearch(v: OrderView, term: string) {
    var t := ToLower(term);
    term == []
    || Contains(NatToString(v.os.numero), t)
    || (v.veiculo.Some? && Contains(ToLower(v.veiculo.value.placa), t))
    || (v.cliente.Some? && Contains(ToLower(v.cliente.value.nome), t))
  }

  predicate MatchesStatus(v: OrderView, f: StatusFilter) {
    f.All? || v.os.status == f.status
  }

  predicate Shown(v: OrderView, term: string, f: StatusFilter) {
    MatchesSearch(v, term) && MatchesStatus(v, f)
  }

  /** `filteredOrders`: the orders matching both the text and the status
      chip, in the order they were listed. */
  function FilterOrders(orders: seq<OrderView>, term: string, f: StatusFilter): (r: seq<OrderView>)
    ensures IsSubsequence(r, orders)
    ensures forall v :: v in r <==> v in orders && MatchesSearch(v, term) && MatchesStatus(v, f)
    ensures f.Only? ==> forall v :: v in r ==> v.os.status == f.status
    ensures forall v :: Shown(v, term, f) ==> multiset(r)[v] == multiset(orders)[v]
  {
    Filter(orders, (v: OrderView) => Shown(v, term, f))
  }

  /** With nothing typed and the "all" chip every order is listed, in
      order. */
  lemma {:induction false} NoFilterKeepsAll(orders: seq<OrderView>)
    ensures FilterOrders(orders, "", All) == orders
  {
    FilterKeepsAll(orders, (v: OrderView) => Shown(v, "", All));
  }

  /** The search does not care about the case of the typed text. */
  lemma {:induction false} SearchIgnoresCase(orders: seq<OrderView>, term: string, f: StatusFilter)
    ensures FilterOrders(orders, ToLower(term), f) == FilterOrders(orders, term, f)
  {
    ToLowerIdempotent(term);
    assert ToLower(term) == [] <==> term == [];
    FilterCongruent(orders, (v: OrderView) => Shown(v, ToLower(term), f), (v: OrderView) => Shown(v, term, f));
  }

  /** Typing an order's number finds it, whatever the status chip allows. */
  lemma NumberFindsOrder(orders: seq<OrderView>, v: OrderView, f: StatusFilter)
    requires v in orders && MatchesStatus(v, f)
    ensures v in FilterOrders(orders, NatToString(v.os.numero), f)
  {
    var n := NatToString(v.os.numero);
    ToLowerNoUpper(n);
    assert IsPrefix(n, n);
  }
}

/** The search box of the client list. */
module Clientes {
  import opened Wrappers
  import opened Text
  import opened Seqs
  import opened Types

  /** A client matches when the lower-cased text occurs in the lower-cased
      name, in the phone as stored, or in the lower-cased e-mail when there
      is one. */
  predicate MatchesCliente(c: Cliente, term: string) {
    var t := ToLower(term);
    Contains(ToLower(c.nome), t)
    || Contains(c.telefone, t)
    || (c.email.Some? && Contains(ToLower(c.email.value), t))
  }

  /** `filteredClientes`: the clients matching the text, in list order. */
  function FilterClientes(clientes: seq<Cliente>, term: string): (r: seq<Cliente>)
    ensures IsSubsequence(r, clientes)
    ensures forall c :: c in r <==> c in clientes && MatchesCliente(c, term)
    ensures forall c :: MatchesCliente(c, term) ==> multiset(r)[c] == multiset(clientes)[c]
  {
    Filter(clientes, (c: Cliente) => MatchesCliente(c, term))
  }

  /** With nothing typed every client is listed, in order. */
  lemma {:induction false} EmptySearchKeepsAll(clientes: seq<Cliente>)
    ensures FilterClientes(clientes, "") == clientes
  {
    forall c: Cliente | c in clientes
      ensures MatchesCliente(c, "")
    {
      ContainsEmpty(ToLower(c.nome));
    }
    FilterKeepsAll(clientes, (c: Cliente) => MatchesCliente(c, ""));
  }

  /** The search does not care about the case of the typed text. */
  lemma {:induction false} SearchIgnoresCase(clientes: seq<Cliente>, term: string)
    ensures FilterClientes(clientes, ToLower(term)) == FilterClientes(clientes, term)
  {
    ToLowerIdempotent(term);
    FilterCongruent(clientes, (c: Cliente) => MatchesCliente(c, ToLower(term)), (c: Cliente) => MatchesCliente(c, term));
  }

  /** Any run of digits from a client's phone finds the client. */
  lemma PhoneDigitsFindCliente(clientes: seq<Cliente>, c: Cliente, digits: string)
    requires c in clientes && AllDigits(digits) && Contains(c.telefone, digits)
    ensures c in FilterClientes(clientes, digits)
  {
    ToLowerNoUpper(digits);
  }
}

=== FILE: localdb.dfy ===
/** The local database layer: every operation takes the whole store and
    returns the whole new store, as the source loads the blob, mutates it and
    saves it back.  Fresh identifiers and the current instant are parameters
    standing in for `uuid()` and `nowIso()`.  An operation that throws in the
    source returns `Failure` here, which carries no store: nothing is saved. */
module LocalDB {
  import opened Wrappers
  import opened Text
  import opened Seqs
  import opened Money
  import opened Calendar
  import opened Types

  datatype DbError = NotFound(message: string) | Conflict(message: string)

  /** The outcome of a mutating operation: the saved store and the returned
      value, or the error thrown before anything was saved. */
  type Answer<T> = Result<(Store, T), DbError>

  const MsgOsNotFound: string := "OS n\U{00E3}o encontrada."
  const MsgItemNotFound: string := "Item n\U{00E3}o encontrado."
  const MsgEmailTaken: string := "Este e-mail j\U{00E1} est\U{00E1} cadastrado."
  const MsgUserNotFound: string := "Usu\U{00E1}rio n\U{00E3}o encontrado."

  // ---------------------------------------------------------------------------
  // Lookups and derived values
  // ---------------------------------------------------------------------------

  /** `db.ordens_servico.find((o) => o.id === id)`, as a position. */
  function OrderIndex(s: Store, id: Id): (r: Option<nat>)
    ensures r.Some? ==> r.value < |s.ordens| && s.ordens[r.value].id == id
    ensures r.Some? ==> forall k :: 0 <= k < r.value ==> s.ordens[k].id != id
    ensures r.None? ==> forall k :: 0 <= k < |s.ordens| ==> s.ordens[k].id != id
  {
    FindIndex(s.ordens, (o: Order) => o.id == id)
  }

  /** The sum of `valor_total` over the items of order `osId`. */
  function ItemSum(itens: seq<Item>, osId: Id): Cents {
    if itens == [] then 0
    else (if itens[0].osId == osId then itens[0].valorTotal else 0) + ItemSum(itens[1..], osId)
  }

  /** `Number(os.mao_de_obra ?? 0)`. */
  function Mao(o: Order): Cents {
    o.maoDeObra.GetOr(0)
  }

  /** The pricing rule: an order's total is the sum of its items plus its
      separate labour charge. */
  predicate Priced(o: Order, itens: seq<Item>) {
    o.valorTotal == ItemSum(itens, o.id) + Mao(o)
  }

  /** `db.counters[user] ?? 0`. */
  function Counter(s: Store, user: Id): nat {
    if user in s.counters then s.counters[user] else 0
  }

  function Event(id: Id, osId: Id, evento: string, now: Instant, userId: Option<Id>): TimelineEvent {
    TimelineEvent(id, osId, evento, now, userId)
  }

  // ---------------------------------------------------------------------------
  // Item-sum algebra
  // ---------------------------------------------------------------------------

  lemma {:induction false} ItemSumAppend(a: seq<Item>, b: seq<Item>, osId: Id)
    ensures ItemSum(a + b, osId) == ItemSum(a, osId) + ItemSum(b, osId)
  {
    if a == [] {
      assert a + b == b;
    } else {
      ItemSumAppend(a[1..], b, osId);
      assert (a + b)[1..] == a[1..] + b;
    }
  }

  /** Removing the item at `i` lowers its own order's sum by that item's
      total and leaves every other order's sum alone. */
  lemma ItemSumRemoveAt(itens: seq<Item>, i: nat, osId: Id)
    requires i < |itens|
    ensures ItemSum(itens[..i] + itens[i + 1..], osId)
            == ItemSum(itens, osId) - (if itens[i].osId == osId then itens[i].valorTotal else 0)
  {
    assert itens == itens[..i] + [itens[i]] + itens[i + 1..];
    ItemSumAppend(itens[..i] + [itens[i]], itens[i + 1..], osId);
    ItemSumAppend(itens[..i], [itens[i]], osId);
    ItemSumAppend(itens[..i], itens[i + 1..], osId);
  }

  /** Items of other orders do not enter an order's sum. */
  lemma {:induction false} ItemSumOtherOrders(itens: seq<Item>, keep: Item -> bool, osId: Id)
    requires forall k :: 0 <= k < |itens| && itens[k].osId == osId ==> keep(itens[k])
    ensures ItemSum(Filter(itens, keep), osId) == ItemSum(itens, osId)
  {
    if itens != [] {
      ItemSumOtherOrders(itens[1..], keep, osId);
    }
  }

  /** Number of items of order `osId` and kind `tipo`. */
  function CountKind(itens: seq<Item>, osId: Id, tipo: TipoItem): nat {
    if itens == [] then 0
    else (if itens[0].osId == osId && itens[0].tipo == tipo then 1 else 0) + CountKind(itens[1..], osId, tipo)
  }

  /** The items that `removeOSItensByTipo` keeps. */
  function KeepOthers(itens: seq<Item>, osId: Id, tipo: TipoItem): (r: seq<Item>)
    ensures IsSubsequence(r, itens)
    ensures forall x :: x in r <==> x in itens && !(x.osId == osId && x.tipo == tipo)
    ensures |itens| - |r| == CountKind(itens, osId, tipo)
    ensures forall id :: id != osId ==> ItemSum(r, id) == ItemSum(itens, id)
  {
    var keep := (i: Item) => !(i.osId == osId && i.tipo == tipo);
    var r := Filter(itens, keep);
    KeepOthersCount(itens, osId, tipo);
    forall id | id != osId
      ensures ItemSum(r, id) == ItemSum(itens, id)
    {
      ItemSumOtherOrders(itens, keep, id);
    }
    r
  }

  lemma {:induction false} KeepOthersCount(itens: seq<Item>, osId: Id, tipo: TipoItem)
    ensures |itens| - |Filter(itens, (i: Item) => !(i.osId == osId && i.tipo == tipo))| == CountKind(itens, osId, tipo)
  {
    if itens != [] {
      KeepOthersCount(itens[1..], osId, tipo);
    }
  }

  // ---------------------------------------------------------------------------
  // Accounts
  // ---------------------------------------------------------------------------

  /** Case-insensitive e-mail comparison. */
  predicate SameEmail(a: string, b: string) {
    ToLower(a) == ToLower(b)
  }

  function UserIndex(s: Store, email: string): (r: Option<nat>)
    ensures r.Some? ==> r.value < |s.users| && SameEmail(s.users[r.value].email, email)
    ensures r.Some? ==> forall k :: 0 <= k < r.value ==> !SameEmail(s.users[k].email, email)
    ensures r.None? ==> forall k :: 0 <= k < |s.users| ==> !SameEmail(s.users[k].email, email)
  {
    FindIndex(s.users, (u: User) => SameEmail(u.email, email))
  }

  /** `signUp`: refuses an e-mail already registered under any letter case;
      otherwise appends the account and starts its order counter at 0. */
  function SignUp(s: Store, email: string, newId: Id): (r: Answer<User>)
    ensures r.Failure? <==> exists k :: 0 <= k < |s.users| && SameEmail(s.users[k].email, email)
    ensures r.Failure? ==> r.error == Conflict(MsgEmailTaken)
    ensures r.Success? ==> r.value.1 == User(newId, email)
                           && r.value.0.users == s.users + [r.value.1]
                           && Counter(r.value.0, newId) == 0
                           && r.value.0 == s.(users := r.value.0.users, counters := s.counters[newId := 0])
  {
    if UserIndex(s, email).Some? then Failure(Conflict(MsgEmailTaken))
    else
      var user := User(newId, email);
      Success((s.(users := s.users + [user], counters := s.counters[newId := 0]), user))
  }

  /** `signIn`: the first account whose e-mail matches under any letter case;
      fails when there is none.  The password is not checked. */
  function SignIn(s: Store, email: string): (r: Result<User, DbError>)
    ensures r.Failure? <==> forall k :: 0 <= k < |s.users| ==> !SameEmail(s.users[k].email, email)
    ensures r.Failure? ==> r.error == NotFound(MsgUserNotFound)
    ensures r.Success? ==> r.value in s.users && SameEmail(r.value.email, email)
    ensures r.Success? ==>
      exists k :: 0 <= k < |s.users| && r.value == s.users[k] &&
        forall j :: 0 <= j < k ==> !SameEmail(s.users[j].email, email)
  {
    match UserIndex(s, email)
    case Some(k) => Success(s.users[k])
    case None => Failure(NotFound(MsgUserNotFound))
  }

  // ---------------------------------------------------------------------------
  // Clients, vehicles, orders
  // ---------------------------------------------------------------------------

  /** `listClientes`: every client, ordered by name. */
  function ListClientes(s: Store): (r: seq<Cliente>)
    ensures SortedBy(r, (a: Cliente, b: Cliente) => LexLe(a.nome, b.nome))
    ensures multiset(r) == multiset(s.clientes)
  {
    var le := (a: Cliente, b: Cliente) => LexLe(a.nome, b.nome);
    forall a: Cliente, b: Cliente
      ensures le(a, b) || le(b, a)
    {
      LexLeTotal(a.nome, b.nome);
    }
    SortBy(s.clientes, le)
  }

  datatype NewCliente = NewCliente(nome: string, telefone: string, email: Option<string>, userId: Id)

  /** `createCliente`: appends a client stamped with `now`. */
  function CreateCliente(s: Store, input: NewCliente, id: Id, now: Instant): (r: (Store, Cliente))
    ensures r.1.id == id && r.1.nome == input.nome && r.1.telefone == input.telefone
    ensures r.1.email == input.email && r.1.userId == input.userId
    ensures r.1.createdAt == now && r.1.updatedAt == now
    ensures r.0 == s.(clientes := s.clientes + [r.1])
  {
    var c := Cliente(id, input.nome, input.telefone, input.email, None, None, now, now, input.userId);
    (s.(clientes := s.clientes + [c]), c)
  }

  datatype NewVeiculo = NewVeiculo(
    clienteId: Id, placa: string, marca: string, modelo: string,
    ano: Option<int>, cor: Option<string>, userId: Id)

  /** `createVeiculo`: appends a vehicle stamped with `now`. */
  function CreateVeiculo(s: Store, input: NewVeiculo, id: Id, now: Instant): (r: (Store, Veiculo))
    ensures r.1.id == id && r.1.clienteId == input.clienteId && r.1.placa == input.placa
    ensures r.1.marca == input.marca && r.1.modelo == input.modelo
    ensures r.1.ano == input.ano && r.1.cor == input.cor && r.1.createdAt == now
    ensures r.0 == s.(veiculos := s.veiculos + [r.1])
  {
    var v := Veiculo(id, input.clienteId, input.placa, input.marca, input.modelo, input.ano, input.cor, now, input.userId);
    (s.(veiculos := s.veiculos + [v]), v)
  }

  /** The client a `Map` of all clients by id yields: the last one with that id. */
  function ClienteById(s: Store, id: Id): (r: Option<Cliente>)
    ensures r.Some? ==> exists k :: 0 <= k < |s.clientes| && s.clientes[k] == r.value
                                    && forall j :: k < j < |s.clientes| ==> s.clientes[j].id != id
    ensures r.Some? ==> r.value.id == id
    ensures r.None? ==> forall k :: 0 <= k < |s.clientes| ==> s.clientes[k].id != id
  {
    match FindLastIndex(s.clientes, (c: Cliente) => c.id == id)
    case Some(k) => Some(s.clientes[k])
    case None => None
  }

  /** Likewise for vehicles: the last one with that id. */
  function VeiculoById(s: Store, id: Id): (r: Option<Veiculo>)
    ensures r.Some? ==> exists k :: 0 <= k < |s.veiculos| && s.veiculos[k] == r.value
                                    && forall j :: k < j < |s.veiculos| ==> s.veiculos[j].id != id
    ensures r.Some? ==> r.value.id == id
    ensures r.None? ==> forall k :: 0 <= k < |s.veiculos| ==> s.veiculos[k].id != id
  {
    match FindLastIndex(s.veiculos, (v: Veiculo) => v.id == id)
    case Some(k) => Some(s.veiculos[k])
    case None => None
  }

  /** `clientes.find(c => c.id === id)`: the first client with that id. */
  function FindCliente(s: Store, id: Id): (r: Option<Cliente>)
    ensures r.Some? ==> exists k :: 0 <= k < |s.clientes| && s.clientes[k] == r.value
                                    && forall j :: 0 <= j < k ==> s.clientes[j].id != id
    ensures r.Some? ==> r.value.id == id
    ensures r.None? ==> forall k :: 0 <= k < |s.clientes| ==> s.clientes[k].id != id
  {
    match FindIndex(s.clientes, (c: Cliente) => c.id == id)
    case Some(k) => Some(s.clientes[k])
    case None => None
  }

  /** `veiculos.find(v => v.id === id)`: the first vehicle with that id. */
  function FindVeiculo(s: Store, id: Id): (r: Option<Veiculo>)
    ensures r.Some? ==> exists k :: 0 <= k < |s.veiculos| && s.veiculos[k] == r.value
                                    && forall j :: 0 <= j < k ==> s.veiculos[j].id != id
    ensures r.Some? ==> r.value.id == id
    ensures r.None? ==> forall k :: 0 <= k < |s.veiculos| ==> s.veiculos[k].id != id
  {
    match FindIndex(s.veiculos, (v: Veiculo) => v.id == id)
    case Some(k) => Some(s.veiculos[k])
    case None => None
  }

  function Hydrate(s: Store, ordens: seq<Order>): (r: seq<OrderView>)
    ensures |r| == |ordens|
    ensures forall k :: 0 <= k < |r| ==> r[k].os == ordens[k]
    ensures forall k :: 0 <= k < |r| ==> r[k].cliente == ClienteById(s, ordens[k].clienteId)
    ensures forall k :: 0 <= k < |r| ==> r[k].veiculo == VeiculoById(s, ordens[k].veiculoId)
  {
    if ordens == [] then []
    else [OrderView(ordens[0], ClienteById(s, ordens[0].clienteId), VeiculoById(s, ordens[0].veiculoId))]
         + Hydrate(s, ordens[1..])
  }

  /** `listOS`: every order with its client and vehicle attached, newest first. */
  function ListOS(s: Store): (r: seq<OrderView>)
    ensures SortedBy(r, (a: OrderView, b: OrderView) => a.os.createdAt >= b.os.createdAt)
    ensures multiset(r) == multiset(Hydrate(s, s.ordens))
    ensures |r| == |s.ordens|
  {
    SortBy(Hydrate(s, s.ordens), (a: OrderView, b: OrderView) => a.os.createdAt >= b.os.createdAt)
  }

  datatype NewOS = NewOS(
    clienteId: Id, veiculoId: Id, problemaRelatado: string, km: Option<int>,
    combustivel: int, previsaoEntrega: Option<Day>, userId: Id)

  /** `createOS`: numbers the order one past the user's counter (0 when the
      user has none), stores that number back as the counter, and appends an
      open order with no value, no labour and no payment or completion. */
  function CreateOS(s: Store, input: NewOS, id: Id, now: Instant): (r: (Store, Order))
    ensures r.1.numero == Counter(s, input.userId) + 1
    ensures Counter(r.0, input.userId) == r.1.numero
    ensures forall u :: u != input.userId ==> Counter(r.0, u) == Counter(s, u)
    ensures r.0.ordens == s.ordens + [r.1]
    ensures r.1.id == id && r.1.userId == input.userId && r.1.status == Aberta
    ensures r.1.valorTotal == 0 && r.1.maoDeObra == Some(0)
    ensures r.1.paidAt == None && r.1.dataConclusao == None && r.1.deliveredAt == None
    ensures r.1.createdAt == now && r.1.previsaoEntrega == input.previsaoEntrega
    ensures r.0 == s.(ordens := r.0.ordens, counters := r.0.counters)
  {
    var numero := Counter(s, input.userId) + 1;
    var os := Order(id, numero, input.clienteId, input.veiculoId, Aberta, input.problemaRelatado,
                    input.km, input.combustivel, 0, input.previsaoEntrega, now, None, now, now,
                    input.userId, Some(0), None, None);
    (s.(ordens := s.ordens + [os], counters := s.counters[input.userId := numero]), os)
  }

  // ---------------------------------------------------------------------------
  // Checklist
  // ---------------------------------------------------------------------------

  datatype NewChecklistRow = NewChecklistRow(osId: Id, item: string, checked: bool, ordem: int)

  function RowsOf(rows: seq<NewChecklistRow>, ids: seq<Id>, now: Instant): (r: seq<ChecklistRow>)
    requires |ids| == |rows|
    ensures |r| == |rows|
    ensures forall k :: 0 <= k < |r| ==>
              r[k] == ChecklistRow(ids[k], rows[k].osId, rows[k].item, rows[k].checked, rows[k].ordem, now)
  {
    if rows == [] then []
    else [ChecklistRow(ids[0], rows[0].osId, rows[0].item, rows[0].checked, rows[0].ordem, now)]
         + RowsOf(rows[1..], ids[1..], now)
  }

  /** `insertChecklist`: appends one row per input, in input order; `ids` are
      the identifiers generated for them. */
  function InsertChecklist(s: Store, rows: seq<NewChecklistRow>, ids: seq<Id>, now: Instant): (r: Store)
    requires |ids| == |rows|
    ensures |r.checklist| == |s.checklist| + |rows| && r.checklist[..|s.checklist|] == s.checklist
    ensures forall k :: 0 <= k < |rows| ==>
              r.checklist[|s.checklist| + k]
              == ChecklistRow(ids[k], rows[k].osId, rows[k].item, rows[k].checked, rows[k].ordem, now)
    ensures r == s.(checklist := r.checklist)
  {
    s.(checklist := s.checklist + RowsOf(rows, ids, now))
  }

  /** `toggleChecklist`: flips the first row with that id and returns its new
      value; an unknown id returns `None` and changes nothing. */
  function ToggleChecklist(s: Store, id: Id): (r: (Store, Option<bool>))
    ensures r.1.None? <==> forall k :: 0 <= k < |s.checklist| ==> s.checklist[k].id != id
    ensures r.1.None? ==> r.0 == s
    ensures r.1.Some? ==> exists k :: 0 <= k < |s.checklist| && s.checklist[k].id == id
                            && (forall j :: 0 <= j < k ==> s.checklist[j].id != id)
                            && r.1.value == !s.checklist[k].checked
                            && r.0 == s.(checklist := s.checklist[k := s.checklist[k].(checked := r.1.value)])
  {
    match FindIndex(s.checklist, (c: ChecklistRow) => c.id == id)
    case None => (s, None)
    case Some(k) =>
      var row := s.checklist[k].(checked := !s.checklist[k].checked);
      (s.(checklist := s.checklist[k := row]), Some(row.checked))
  }

  /** Toggling the same row twice restores the store. */
  lemma ToggleChecklistTwice(s: Store, id: Id)
    ensures ToggleChecklist(ToggleChecklist(s, id).0, id).0 == s
  {
    var p := (c: ChecklistRow) => c.id == id;
    match FindIndex(s.checklist, p)
    case None =>
    case Some(k) =>
      var s1 := ToggleChecklist(s, id).0;
      assert |s1.checklist| == |s.checklist|;
      assert forall j :: 0 <= j < |s.checklist| ==> s1.checklist[j].id == s.checklist[j].id;
      assert FindIndex(s1.checklist, p) == Some(k) by {
        FindIndexSame(s.checklist, s1.checklist, p, k);
      }
      assert s1.checklist[k := s1.checklist[k].(checked := !s1.checklist[k].checked)] == s.checklist;
  }

  // ---------------------------------------------------------------------------
  // Status
  // ---------------------------------------------------------------------------

  function StatusEvent(prev: Status, next: Status): string {
    "Status alterado: " + StatusName(prev) + " \U{2192} " + StatusName(next)
  }

  /** The order after a status change: the new status, and the payment,
      completion and delivery stamps that status implies, filled with `now`
      only where they were unset. */
  function ApplyStatus(o: Order, st: Status, now: Instant): (r: Order)
    ensures r == o.(status := st, updatedAt := now, paidAt := r.paidAt,
                    dataConclusao := r.dataConclusao, deliveredAt := r.deliveredAt)
    ensures o.paidAt.Some? ==> r.paidAt == o.paidAt
    ensures o.dataConclusao.Some? ==> r.dataConclusao == o.dataConclusao
    ensures o.deliveredAt.Some? ==> r.deliveredAt == o.deliveredAt
    ensures o.paidAt.None? ==> r.paidAt == (if st == Concluida || st == Entregue then Some(now) else None)
    ensures o.dataConclusao.None? ==> r.dataConclusao == (if st == Concluida || st == Entregue then Some(now) else None)
    ensures o.deliveredAt.None? ==> r.deliveredAt == (if st == Entregue then Some(now) else None)
  {
    var o1 := o.(status := st, updatedAt := now);
    var o2 := if st == Concluida then
                o1.(paidAt := Some(o1.paidAt.GetOr(now)), dataConclusao := Some(o1.dataConclusao.GetOr(now)))
              else o1;
    if st == Entregue then
      o2.(deliveredAt := Some(o2.deliveredAt.GetOr(now)),
          paidAt := Some(o2.paidAt.GetOr(now)),
          dataConclusao := Some(o2.dataConclusao.GetOr(now)))
    else o2
  }

  /** `setOSStatus`: fails when the order is missing; otherwise updates that
      order alone and appends one `Status alterado: prev → new` event. */
  function SetOSStatus(s: Store, osId: Id, st: Status, userId: Option<Id>, eventId: Id, now: Instant): (r: Answer<Status>)
    ensures r.Failure? <==> OrderIndex(s, osId).None?
    ensures r.Failure? ==> r.error == NotFound(MsgOsNotFound)
    ensures r.Success? ==>
              var k := OrderIndex(s, osId).value;
              var o := s.ordens[k];
              && r.value.1 == st
              && r.value.0 == s.(ordens := s.ordens[k := ApplyStatus(o, st, now)],
                                 timeline := s.timeline + [Event(eventId, osId, StatusEvent(o.status, st), now, userId)])
  {
    match OrderIndex(s, osId)
    case None => Failure(NotFound(MsgOsNotFound))
    case Some(k) =>
      var o := s.ordens[k];
      var ev := Event(eventId, osId, StatusEvent(o.status, st), now, userId);
      Success((s.(ordens := s.ordens[k := ApplyStatus(o, st, now)], timeline := s.timeline + [ev]), st))
  }

  // ---------------------------------------------------------------------------
  // Labour and items
  // ---------------------------------------------------------------------------

  /** `setMaoDeObra`: sets the labour charge, prices the order as its items
      plus that charge, logs the new value and returns it. */
  function SetMaoDeObra(s: Store, osId: Id, valor: Cents, userId: Option<Id>, eventId: Id, now: Instant): (r: Answer<Cents>)
    ensures r.Failure? <==> OrderIndex(s, osId).None?
    ensures r.Failure? ==> r.error == NotFound(MsgOsNotFound)
    ensures r.Success? ==>
              var k := OrderIndex(s, osId).value;
              var s' := r.value.0;
              && r.value.1 == valor
              && |s'.ordens| == |s.ordens|
              && s'.ordens[k] == s.ordens[k].(maoDeObra := Some(valor), valorTotal := s'.ordens[k].valorTotal, updatedAt := now)
              && Priced(s'.ordens[k], s'.itens)
              && (forall j :: 0 <= j < |s.ordens| && j != k ==> s'.ordens[j] == s.ordens[j])
              && s'.timeline == s.timeline + [Event(eventId, osId, "M\U{00E3}o de obra atualizada: R$ " + Fixed2(valor), now, userId)]
              && s' == s.(ordens := s'.ordens, timeline := s'.timeline)
  {
    match OrderIndex(s, osId)
    case None => Failure(NotFound(MsgOsNotFound))
    case Some(k) =>
      var o := s.ordens[k].(maoDeObra := Some(valor), valorTotal := ItemSum(s.itens, osId) + valor, updatedAt := now);
      var ev := Event(eventId, osId, "M\U{00E3}o de obra atualizada: R$ " + Fixed2(valor), now, userId);
      Success((s.(ordens := s.ordens[k := o], timeline := s.timeline + [ev]), valor))
  }

  /** `clearMaoDeObra`: zeroes the labour charge, prices the order as its
      items alone and returns 0. */
  function ClearMaoDeObra(s: Store, osId: Id, userId: Option<Id>, eventId: Id, now: Instant): (r: Answer<Cents>)
    ensures r.Failure? <==> OrderIndex(s, osId).None?
    ensures r.Failure? ==> r.error == NotFound(MsgOsNotFound)
    ensures r.Success? ==>
              var k := OrderIndex(s, osId).value;
              var s' := r.value.0;
              && r.value.1 == 0
              && |s'.ordens| == |s.ordens|
              && s'.ordens[k] == s.ordens[k].(maoDeObra := Some(0), valorTotal := ItemSum(s.itens, osId), updatedAt := now)
              && Priced(s'.ordens[k], s'.itens)
              && (forall j :: 0 <= j < |s.ordens| && j != k ==> s'.ordens[j] == s.ordens[j])
              && s'.timeline == s.timeline + [Event(eventId, osId, "M\U{00E3}o de obra (mec\U{00E2}nico) zerada", now, userId)]
              && s' == s.(ordens := s'.ordens, timeline := s'.timeline)
  {
    match OrderIndex(s, osId)
    case None => Failure(NotFound(MsgOsNotFound))
    case Some(k) =>
      var o := s.ordens[k].(maoDeObra := Some(0), valorTotal := ItemSum(s.itens, osId), updatedAt := now);
      var ev := Event(eventId, osId, "M\U{00E3}o de obra (mec\U{00E2}nico) zerada", now, userId);
      Success((s.(ordens := s.ordens[k := o], timeline := s.timeline + [ev]), 0))
  }

  datatype NewItem = NewItem(osId: Id, tipo: TipoItem, descricao: string, quantidade: nat, valorUnitario: Cents)

  /** `addOSItem`: fails when the order is missing; otherwise appends an item
      priced at quantity × unit price, reprices its order from the items
      (labour counted as 0 when absent) and logs `Item adicionado`. */
  function AddOSItem(s: Store, input: NewItem, userId: Option<Id>, itemId: Id, eventId: Id, now: Instant): (r: Answer<Item>)
    ensures r.Failure? <==> OrderIndex(s, input.osId).None?
    ensures r.Failure? ==> r.error == NotFound(MsgOsNotFound)
    ensures r.Success? ==>
              var k := OrderIndex(s, input.osId).value;
              var (s', item) := r.value;
              && item == Item(itemId, input.osId, input.tipo, input.descricao, input.quantidade,
                              input.valorUnitario, input.quantidade * input.valorUnitario, now)
              && s'.itens == s.itens + [item]
              && |s'.ordens| == |s.ordens|
              && s'.ordens[k] == s.ordens[k].(valorTotal := s'.ordens[k].valorTotal, updatedAt := now)
              && s'.ordens[k].valorTotal == ItemSum(s.itens, input.osId) + item.valorTotal + Mao(s.ordens[k])
              && Priced(s'.ordens[k], s'.itens)
              && (forall j :: 0 <= j < |s.ordens| && j != k ==> s'.ordens[j] == s.ordens[j])
              && s'.timeline == s.timeline + [Event(eventId, input.osId, "Item adicionado: " + input.descricao, now, userId)]
              && s' == s.(ordens := s'.ordens, itens := s'.itens, timeline := s'.timeline)
  {
    match OrderIndex(s, input.osId)
    case None => Failure(NotFound(MsgOsNotFound))
    case Some(k) =>
      var item := Item(itemId, input.osId, input.tipo, input.descricao, input.quantidade,
                       input.valorUnitario, input.quantidade * input.valorUnitario, now);
      var itens := s.itens + [item];
      ItemSumAppend(s.itens, [item], input.osId);
      var o := s.ordens[k].(valorTotal := ItemSum(itens, input.osId) + Mao(s.ordens[k]), updatedAt := now);
      var ev := Event(eventId, input.osId, "Item adicionado: " + input.descricao, now, userId);
      Success((s.(ordens := s.ordens[k := o], itens := itens, timeline := s.timeline + [ev]), item))
  }

  function ItemIndex(s: Store, itemId: Id): (r: Option<nat>)
    ensures r.Some? ==> r.value < |s.itens| && s.itens[r.value].id == itemId
    ensures r.Some? ==> forall k :: 0 <= k < r.value ==> s.itens[k].id != itemId
    ensures r.None? ==> forall k :: 0 <= k < |s.itens| ==> s.itens[k].id != itemId
  {
    FindIndex(s.itens, (i: Item) => i.id == itemId)
  }

  /** `removeOSItem`: fails when the item or its order is missing; otherwise
      deletes exactly that item, reprices its order and logs `Item removido`. */
  function RemoveOSItem(s: Store, itemId: Id, userId: Option<Id>, eventId: Id, now: Instant): (r: Answer<bool>)
    ensures ItemIndex(s, itemId).None? ==> r == Failure(NotFound(MsgItemNotFound))
    ensures (ItemIndex(s, itemId).Some? && OrderIndex(s, s.itens[ItemIndex(s, itemId).value].osId).None?)
            ==> r == Failure(NotFound(MsgOsNotFound))
    ensures r.Failure? ==> ItemIndex(s, itemId).None? || OrderIndex(s, s.itens[ItemIndex(s, itemId).value].osId).None?
    ensures r.Success? ==>
              var i := ItemIndex(s, itemId).value;
              var item := s.itens[i];
              var k := OrderIndex(s, item.osId).value;
              var s' := r.value.0;
              && r.value.1
              && s'.itens == s.itens[..i] + s.itens[i + 1..]
              && |s'.ordens| == |s.ordens|
              && s'.ordens[k] == s.ordens[k].(valorTotal := s'.ordens[k].valorTotal, updatedAt := now)
              && s'.ordens[k].valorTotal == ItemSum(s.itens, item.osId) - item.valorTotal + Mao(s.ordens[k])
              && Priced(s'.ordens[k], s'.itens)
              && (forall j :: 0 <= j < |s.ordens| && j != k ==> s'.ordens[j] == s.ordens[j])
              && s'.timeline == s.timeline + [Event(eventId, item.osId, "Item removido: " + item.descricao, now, userId)]
              && s' == s.(ordens := s'.ordens, itens := s'.itens, timeline := s'.timeline)
  {
    match ItemIndex(s, itemId)
    case None => Failure(NotFound(MsgItemNotFound))
    case Some(i) =>
      var item := s.itens[i];
      match OrderIndex(s, item.osId)
      case None => Failure(NotFound(MsgOsNotFound))
      case Some(k) =>
        var itens := s.itens[..i] + s.itens[i + 1..];
        ItemSumRemoveAt(s.itens, i, item.osId);
        var o := s.ordens[k].(valorTotal := ItemSum(itens, item.osId) + Mao(s.ordens[k]), updatedAt := now);
        var ev := Event(eventId, item.osId, "Item removido: " + item.descricao, now, userId);
        Success((s.(ordens := s.ordens[k := o], itens := itens, timeline := s.timeline + [ev]), true))
  }

  function KindEvent(tipo: TipoItem, removed: nat): string {
    if tipo == Peca then "Pe\U{00E7}as removidas (" + NatToString(removed) + ")"
    else "M\U{00E3}o de obra (itens) removida (" + NatToString(removed) + ")"
  }

  /** `removeOSItensByTipo`: fails when the order is missing; otherwise
      deletes exactly the items of that order and kind, keeps the rest in
      order, reprices the order, logs the count and returns it. */
  function RemoveOSItensByTipo(s: Store, osId: Id, tipo: TipoItem, userId: Option<Id>, eventId: Id, now: Instant): (r: Answer<nat>)
    ensures r.Failure? <==> OrderIndex(s, osId).None?
    ensures r.Failure? ==> r.error == NotFound(MsgOsNotFound)
    ensures r.Success? ==>
              var k := OrderIndex(s, osId).value;
              var (s', removed) := r.value;
              && removed == CountKind(s.itens, osId, tipo)
              && IsSubsequence(s'.itens, s.itens)
              && (forall x :: x in s'.itens <==> x in s.itens && !(x.osId == osId && x.tipo == tipo))
              && |s'.ordens| == |s.ordens|
              && s'.ordens[k] == s.ordens[k].(valorTotal := s'.ordens[k].valorTotal, updatedAt := now)
              && Priced(s'.ordens[k], s'.itens)
              && (forall j :: 0 <= j < |s.ordens| && j != k ==> s'.ordens[j] == s.ordens[j])
              && s'.timeline == s.timeline + [Event(eventId, osId, KindEvent(tipo, removed), now, userId)]
              && s' == s.(ordens := s'.ordens, itens := s'.itens, timeline := s'.timeline)
  {
    match OrderIndex(s, osId)
    case None => Failure(NotFound(MsgOsNotFound))
    case Some(k) =>
      var itens := KeepOthers(s.itens, osId, tipo);
      var removed := |s.itens| - |itens|;
      var o := s.ordens[k].(valorTotal := ItemSum(itens, osId) + Mao(s.ordens[k]), updatedAt := now);
      var ev := Event(eventId, osId, KindEvent(tipo, removed), now, userId);
      Success((s.(ordens := s.ordens[k := o], itens := itens, timeline := s.timeline + [ev]), removed))
  }

  /** `updateOS`: fails when no order has that id; otherwise replaces the first
      such order by the given one, stamped with `now`.  Unlike every pricing
      operation it takes `valor_total` as given. */
  function UpdateOS(s: Store, updated: Order, now: Instant): (r: Answer<()>)
    ensures r.Failure? <==> OrderIndex(s, updated.id).None?
    ensures r.Success? ==>
              var k := OrderIndex(s, updated.id).value;
              r.value.0 == s.(ordens := s.ordens[k := updated.(updatedAt := now)])
  {
    match OrderIndex(s, updated.id)
    case None => Failure(NotFound("OS n\U{00E3}o encontrada para atualiza\U{00E7}\U{00E3}o."))
    case Some(k) => Success((s.(ordens := s.ordens[k := updated.(updatedAt := now)]), ()))
  }

  // ---------------------------------------------------------------------------
  // Details
  // ---------------------------------------------------------------------------

  datatype Details = Details(
    os: OrderView,
    itens: seq<Item>,
    checklist: seq<ChecklistRow>,
    fotos: seq<Foto>,
    timeline: seq<TimelineEvent>)

  /** `getOSDetails`: `None` for an unknown order; otherwise the order with its
      client and vehicle, its items and photos in store order, its checklist
      ordered by `ordem` and its timeline newest first. */
  function GetOSDetails(s: Store, osId: Id): (r: Option<Details>)
    ensures r.None? <==> OrderIndex(s, osId).None?
    ensures r.Some? ==>
              var d := r.value;
              && d.os.os == s.ordens[OrderIndex(s, osId).value]
              && d.os.cliente == FindCliente(s, d.os.os.clienteId)
              && d.os.veiculo == FindVeiculo(s, d.os.os.veiculoId)
              && d.itens == Filter(s.itens, (i: Item) => i.osId == osId)
              && SortedBy(d.checklist, (a: ChecklistRow, b: ChecklistRow) => a.ordem <= b.ordem)
              && multiset(d.checklist) == multiset(Filter(s.checklist, (c: ChecklistRow) => c.osId == osId))
              && d.fotos == Filter(s.fotos, (f: Foto) => f.osId == osId)
              && SortedBy(d.timeline, (a: TimelineEvent, b: TimelineEvent) => a.createdAt >= b.createdAt)
              && multiset(d.timeline) == multiset(Filter(s.timeline, (t: TimelineEvent) => t.osId == osId))
  {
    match OrderIndex(s, osId)
    case None => None
    case Some(k) =>
      var o := s.ordens[k];
      var cliente := FindCliente(s, o.clienteId);
      var veiculo := FindVeiculo(s, o.veiculoId);
      Some(Details(
        OrderView(o, cliente, veiculo),
        Filter(s.itens, (i: Item) => i.osId == osId),
        SortBy(Filter(s.checklist, (c: ChecklistRow) => c.osId == osId), (a: ChecklistRow, b: ChecklistRow) => a.ordem <= b.ordem),
        Filter(s.fotos, (f: Foto) => f.osId == osId),
        SortBy(Filter(s.timeline, (t: TimelineEvent) => t.osId == osId), (a: TimelineEvent, b: TimelineEvent) => a.createdAt >= b.createdAt)))
  }
}

=== FILE: money.dfy ===
/** Money as a whole number of centavos.  The source keeps amounts as
    JavaScript numbers rounded with `toFixed(2)` at every store; in cents that
    rounding is the identity, and the text forms below are the only place
    where the decimal point appears. */
module Money {
  import opened Wrappers
  import opened Text

  /** An amount in centavos (R$ 1,00 == 100). */
  type Cents = nat

  /** The two digits after the decimal point of `c` cents. */
  function CentDigits(c: Cents): (r: string)
    ensures |r| == 2 && AllDigits(r)
    ensures ParseDigits(r) == c % 100
  {
    var r := [DigitChar(c % 100 / 10), DigitChar(c % 10)];
    assert r[..1] == [r[0]] && [r[0]][..0] == [];
    assert ParseDigits([r[0]]) == c % 100 / 10;
    r
  }

  /** `n.toFixed(2)`: whole part, a point, exactly two decimal digits. */
  function Fixed2(c: Cents): (r: string)
    ensures exists w :: r == w + "." + CentDigits(c) && w == NatToString(c / 100)
    ensures |r| >= 4 && r[|r| - 3] == '.'
  {
    var w := NatToString(c / 100);
    w + "." + CentDigits(c)
  }

  /** `formatBRL`: `toFixed(2)` with the decimal point turned into a comma. */
  function FormatBRL(c: Cents): (r: string)
    ensures r == NatToString(c / 100) + "," + CentDigits(c)
    ensures |r| >= 4 && r[|r| - 3] == ',' && AllDigits(r[|r| - 2..])
    ensures '.' !in r
  {
    var w := NatToString(c / 100);
    var f := Fixed2(c);
    assert f == w + "." + CentDigits(c);
    assert '.' !in w;
    assert f[..|w|] == w;
    FirstIndexAt(f, '.', |w|);
    var r := ReplaceFirst(f, '.', ',');
    assert r == w + "," + CentDigits(c);
    r
  }

  // ---------------------------------------------------------------------------
  // Reading numbers
  // ---------------------------------------------------------------------------

  /** The first two fractional digits as cents; further digits are dropped. */
  function FracCents(f: string): (r: nat)
    requires AllDigits(f)
    ensures r < 100
  {
    (if |f| >= 1 then DigitValue(f[0]) * 10 else 0) + (if |f| >= 2 then DigitValue(f[1]) else 0)
  }

  /** Unsigned decimal text: digits with at most one point and at least one
      digit, in cents. */
  function ReadUnsigned(body: string): (r: Option<nat>)
  {
    var i := FirstIndex(body, '.');
    var whole := body[..i];
    var frac := if i < |body| then body[i + 1..] else [];
    if AllDigits(whole) && AllDigits(frac) && |whole| + |frac| > 0 then
      Some(ParseDigits(whole) * 100 + FracCents(frac))
    else None
  }

  /** A sign-aware reading of text that has already been trimmed: empty
      text is 0, an optional sign is followed by unsigned decimal text. */
  function ReadSigned(t: string): Option<int> {
    if t == [] then Some(0)
    else if t[0] == '-' then
      match ReadUnsigned(t[1..])
      case Some(v) => var n: int := v; Some(-n)
      case None => None
    else if t[0] == '+' then
      match ReadUnsigned(t[1..])
      case Some(v) => Some(v)
      case None => None
    else
      match ReadUnsigned(t)
      case Some(v) => Some(v)
      case None => None
  }

  /** `Number(s)` for plain decimal text, in cents: surrounding whitespace is
      ignored, blank text is 0, and an optional sign is followed by unsigned
      decimal text.  Anything else is `NaN`, here `None`. */
  function JsNumber(s: string): (r: Option<int>)
    ensures Trim(s) == [] ==> r.Some? && r.value == 0
  {
    ReadSigned(Trim(s))
  }

  /** `parseBRL`: the first comma is read as the decimal point, and a result
      that is not a finite non-negative number becomes 0. */
  function ParseBRL(input: string): (r: Cents)
    ensures IsBlank(input) ==> r == 0
    ensures |input| > 0 && input[0] == '-' ==> r == 0
    ensures |input| > 0 && AllDigits(input) ==> r == ParseDigits(input) * 100
  {
    BlankReadsZero(input);
    LeadingMinusReadsNonPositive(input);
    DigitsReadWhole(input);
    match JsNumber(ReplaceFirst(input, ',', '.'))
    case Some(n) => if n >= 0 then n else 0
    case None => 0
  }

  /** Blank text has no comma to replace and reads as 0. */
  lemma BlankReadsZero(input: string)
    ensures IsBlank(input) ==> JsNumber(ReplaceFirst(input, ',', '.')) == Some(0)
  {
    if IsBlank(input) {
      assert ',' !in input by {
        forall k | 0 <= k < |input| ensures input[k] != ',' {
          assert IsWhitespace(input[k]);
        }
      }
      TrimEmptyIffBlank(input);
    }
  }

  /** Text starting with a minus sign keeps it after the comma is replaced
      and after trimming, so it reads as no number or a non-positive one. */
  lemma LeadingMinusReadsNonPositive(input: string)
    ensures |input| > 0 && input[0] == '-' ==>
              var n := JsNumber(ReplaceFirst(input, ',', '.')); n.None? || n.value <= 0
  {
    if |input| > 0 && input[0] == '-' {
      var d := ReplaceFirst(input, ',', '.');
      assert d[0] == '-' by {
        if ',' in input {
          assert FirstIndex(input, ',') > 0;
          assert d[..FirstIndex(input, ',')] == input[..FirstIndex(input, ',')];
        }
      }
      var t := Trim(d);
      TrimEmptyIffBlank(d);
      assert t != [];
      assert TrimOffset(d) == 0;
      assert t[0] == '-';
    }
  }

  /** A plain run of digits has neither comma nor point and reads as that
      many whole reais. */
  lemma DigitsReadWhole(input: string)
    ensures |input| > 0 && AllDigits(input) ==>
              var n := JsNumber(ReplaceFirst(input, ',', '.')); n.Some? && n.value == ParseDigits(input) * 100
  {
    if |input| > 0 && AllDigits(input) {
      NoSeparators(input);
      ReadUnsignedWhole(input);
      JsNumberUnsigned(input, ParseDigits(input) * 100);
    }
  }

  lemma NoSeparators(s: string)
    requires AllDigits(s)
    ensures ',' !in s && '.' !in s
  {
    forall k | 0 <= k < |s| ensures s[k] != ',' && s[k] != '.' {
      assert IsDigit(s[k]);
    }
  }

  /** Digits without a point read as whole units. */
  lemma ReadUnsignedWhole(w: string)
    requires |w| > 0 && AllDigits(w)
    ensures ReadUnsigned(w).Some? && ReadUnsigned(w).value == ParseDigits(w) * 100
  {
    NoSeparators(w);
    assert FirstIndex(w, '.') == |w|;
    assert w[..|w|] == w;
  }

  /** The characters that can occur in text JavaScript's `Number` reads as
      a finite number once the first comma is a point: digits, separators,
      signs and whitespace, plus the letters of exponent (`1e3`), hexadecimal
      (`0x1F`), octal (`0o7`) and binary (`0b1`) forms.  Any other letter
      occurs only in `Infinity`, which is not finite. */
  predicate NumberChar(c: char) {
    IsDigit(c) || c == ',' || c == '.' || c == '+' || c == '-' || IsWhitespace(c)
    || ('a' <= c <= 'f') || ('A' <= c <= 'F') || c in "xXoO"
  }

  /** Unsigned text holding a character that is neither a digit nor the
      point is no number. */
  lemma UnsignedRejects(body: string, j: nat)
    requires j < |body| && !IsDigit(body[j]) && body[j] != '.'
    ensures ReadUnsigned(body).None?
  {
    var i := FirstIndex(body, '.');
    if j < i {
      assert body[..i][j] == body[j];
    } else {
      assert j > i;
      assert body[i + 1..][j - i - 1] == body[j];
    }
  }

  /** Trimmed text keeps every character that is not whitespace, at its
      place shifted by the trimmed prefix. */
  lemma TrimKeeps(d: string, k: nat)
    requires k < |d| && !IsWhitespace(d[k])
    ensures TrimOffset(d) <= k < TrimOffset(d) + |Trim(d)|
    ensures Trim(d)[k - TrimOffset(d)] == d[k]
  {
  }

  /** Text whose trimmed form holds a character that is neither a digit,
      a point, a sign nor whitespace is no number. */
  lemma JsNumberRejects(d: string, k: nat)
    requires k < |d| && !IsDigit(d[k]) && d[k] != '.' && d[k] != '+' && d[k] != '-' && !IsWhitespace(d[k])
    ensures JsNumber(d).None?
  {
    TrimKeeps(d, k);
    var t := Trim(d);
    var j := k - TrimOffset(d);
    if t[0] == '-' || t[0] == '+' {
      UnsignedRejects(t[1..], j - 1);
    } else {
      UnsignedRejects(t, j);
    }
  }

  /** Past the first comma, replacing it changes nothing. */
  lemma ReplaceFirstKeeps(input: string, k: nat)
    requires k < |input| && (input[k] != ',' || FirstIndex(input, ',') < k)
    ensures ReplaceFirst(input, ',', '.')[k] == input[k]
  {
    var d := ReplaceFirst(input, ',', '.');
    if ',' in input {
      var i := FirstIndex(input, ',');
      if k < i {
        assert d[..i][k] == input[..i][k];
      } else {
        assert d[i + 1..][k - i - 1] == input[i + 1..][k - i - 1];
      }
    }
  }

  /** Text with a character that no finite JavaScript number can contain
      (a currency sign, a letter other than those of exponent, hexadecimal,
      octal or binary forms) is not a finite number, so it reads as 0. */
  lemma BadCharReadsZero(input: string, k: nat)
    requires k < |input| && !NumberChar(input[k])
    ensures ParseBRL(input) == 0
  {
    ReplaceFirstKeeps(input, k);
    JsNumberRejects(ReplaceFirst(input, ',', '.'), k);
  }

  /** Only the first comma becomes a point: text with two commas is not a
      number and reads as 0. */
  lemma SecondCommaReadsZero(input: string, i: nat, j: nat)
    requires i < j < |input| && input[i] == ',' && input[j] == ','
    ensures ParseBRL(input) == 0
  {
    assert ',' in input[..i + 1] by { assert input[..i + 1][i] == ','; }
    assert FirstIndex(input, ',') <= i;
    ReplaceFirstKeeps(input, j);
    JsNumberRejects(ReplaceFirst(input, ',', '.'), j);
  }

  /** `w,f` with digit runs `w` and `f` reads as `w` reais and the cents of
      the first two digits of `f`. */
  lemma ParseBRLDecimal(w: string, f: string)
    requires |w| > 0 && |f| > 0 && AllDigits(w) && AllDigits(f)
    ensures ParseBRL(w + "," + f) == ParseDigits(w) * 100 + FracCents(f)
  {
    var s := w + "," + f;
    ReplaceCommaDecimal(w, f, s);
    JsNumberDecimal(w, f, w + "." + f);
  }

  /** A string without whitespace at either end is its own trim. */
  lemma TrimUntouched(s: string)
    requires |s| > 0 && !IsWhitespace(s[0]) && !IsWhitespace(s[|s| - 1])
    ensures Trim(s) == s
  {
  }

  /** Unsigned text `w.f` reads as `w` whole units and the cents of `f`. */
  lemma ReadUnsignedDecimal(w: string, f: string, d: string)
    requires AllDigits(w) && AllDigits(f) && |w| > 0 && d == w + "." + f
    ensures ReadUnsigned(d).Some? && ReadUnsigned(d).value == ParseDigits(w) * 100 + FracCents(f)
  {
    assert d[..|w|] == w;
    FirstIndexAt(d, '.', |w|);
    assert d[|w| + 1..] == f;
  }

  /** Text that starts with a digit and ends with no whitespace is read as
      unsigned decimal text. */
  lemma JsNumberUnsigned(d: string, v: nat)
    requires |d| > 0 && IsDigit(d[0]) && IsDigit(d[|d| - 1])
    requires ReadUnsigned(d).Some? && ReadUnsigned(d).value == v
    ensures JsNumber(d).Some? && JsNumber(d).value == v
  {
    TrimUntouched(d);
  }

  /** `Number(d)` for `d` a digit string `w`, a point and a digit string `f`. */
  lemma JsNumberDecimal(w: string, f: string, d: string)
    requires |w| > 0 && |f| > 0 && AllDigits(w) && AllDigits(f)
    requires d == w + "." + f
    ensures JsNumber(d).Some? && JsNumber(d).value == ParseDigits(w) * 100 + FracCents(f)
  {
    assert d[0] == w[0] && d[|d| - 1] == f[|f| - 1];
    var v := ParseDigits(w) * 100 + FracCents(f);
    ReadUnsignedDecimal(w, f, d);
    JsNumberUnsigned(d, v);
  }

  /** Turning the comma of `w,f` back into a point. */
  lemma ReplaceCommaDecimal(w: string, f: string, s: string)
    requires AllDigits(w) && s == w + "," + f
    ensures ReplaceFirst(s, ',', '.') == w + "." + f
  {
    assert s[..|w|] == w;
    FirstIndexAt(s, ',', |w|);
  }

  /** The whole part and the cent digits of `c` add back up to `c`. */
  lemma WholeAndCents(c: Cents, w: string, f: string)
    requires w == NatToString(c / 100) && f == CentDigits(c)
    ensures ParseDigits(w) * 100 + FracCents(f) == c
  {
    ParseNatToString(c / 100);
  }

  /** Whatever `formatBRL` shows, `parseBRL` reads back as the same amount:
      the labour field survives a save and reload unchanged. */
  lemma {:induction false} ParseFormatRoundTrip(c: Cents)
    ensures ParseBRL(FormatBRL(c)) == c
  {
    var w := NatToString(c / 100);
    var f := CentDigits(c);
    var s := FormatBRL(c);
    var d := ReplaceFirst(s, ',', '.');
    ReplaceCommaDecimal(w, f, s);
    JsNumberDecimal(w, f, d);
    WholeAndCents(c, w, f);
  }

  /** `Number(x.toFixed(2))` gives back the amount: the two-decimal text
      reads as the same number of cents. */
  lemma Fixed2ReadsBack(c: Cents, d: string)
    requires d == Fixed2(c)
    ensures JsNumber(d).Some? && JsNumber(d).value == c
  {
    var w := NatToString(c / 100);
    var f := CentDigits(c);
    assert d == w + "." + f;
    WholeAndCents(c, w, f);
    DecimalReadsBack(c, w, f, d);
  }

  lemma DecimalReadsBack(c: Cents, w: string, f: string, d: string)
    requires |w| > 0 && |f| > 0 && AllDigits(w) && AllDigits(f) && d == w + "." + f
    requires ParseDigits(w) * 100 + FracCents(f) == c
    ensures JsNumber(d).Some? && JsNumber(d).value == c
  {
    JsNumberDecimal(w, f, d);
  }

  /** A negative reading is clamped to 0: `"-5"` and `"-5,00"` both give 0. */
  lemma ParseBRLNegative(digits: string, s: string)
    requires |digits| > 0 && IsDigit(digits[|digits| - 1]) && s == "-" + digits
    ensures ParseBRL(s) == 0
  {
    assert s[|s| - 1] == digits[|digits| - 1];
    TrimUntouched(s);
    var n := JsNumber(s);
    assert n.None? || n.value <= 0;
  }
}

=== FILE: osdetail.dfy ===
/** The helpers of the order-detail page: HTML escaping for the printable
    report, the keyword classifier that proposes an item's kind, the labour
    field and its totals, and the validation in front of `addOSItem`. */
module OSDetail {
  import opened Wrappers
  import opened Text
  import opened Seqs
  import opened Money
  import opened Calendar
  import opened Types
  import opened LocalDB
  import opened StoreInvariants

  // ---------------------------------------------------------------------------
  // HTML escaping
  // ---------------------------------------------------------------------------

  predicate IsSpecial(c: char) {
    c == '&' || c == '<' || c == '>' || c == '"' || c == '\''
  }

  /** The entity each special character is written as. */
  function Entity(c: char): (r: string)
    requires IsSpecial(c)
    ensures |r| >= 4 && r[0] == '&' && r[|r| - 1] == ';'
  {
    if c == '&' then "&amp;"
    else if c == '<' then "&lt;"
    else if c == '>' then "&gt;"
    else if c == '"' then "&quot;"
    else "&#039;"
  }

  function EscapeChar(c: char): string {
    if IsSpecial(c) then Entity(c) else [c]
  }

  /** `escapeHtml`: every `& < > " '` becomes its entity; every other
      character is kept as it is. */
  function EscapeHtml(s: string): (r: string)
    ensures forall c :: c in r ==> c != '<' && c != '>' && c != '"' && c != '\''
    ensures |r| >= |s|
    ensures (forall k :: 0 <= k < |s| ==> !IsSpecial(s[k])) ==> r == s
  {
    if s == [] then []
    else EscapeChar(s[0]) + EscapeHtml(s[1..])
  }

  /** Reads the five entities back; any other character stands for itself. */
  function UnescapeHtml(s: string): string
    decreases |s|
  {
    if s == [] then []
    else if s[0] != '&' then [s[0]] + UnescapeHtml(s[1..])
    else if IsPrefix("&amp;", s) then "&" + UnescapeHtml(s[5..])
    else if IsPrefix("&lt;", s) then "<" + UnescapeHtml(s[4..])
    else if IsPrefix("&gt;", s) then ">" + UnescapeHtml(s[4..])
    else if IsPrefix("&quot;", s) then "\"" + UnescapeHtml(s[6..])
    else if IsPrefix("&#039;", s) then "'" + UnescapeHtml(s[6..])
    else [s[0]] + UnescapeHtml(s[1..])
  }

  lemma UnescapeAmp(rest: string)
    ensures UnescapeHtml("&amp;" + rest) == "&" + UnescapeHtml(rest)
  {
    var t := "&amp;" + rest;
    assert t[..5] == "&amp;" && t[5..] == rest;
  }

  lemma UnescapeLt(rest: string)
    ensures UnescapeHtml("&lt;" + rest) == "<" + UnescapeHtml(rest)
  {
    var t := "&lt;" + rest;
    assert t[1] == 'l';
    assert t[..4] == "&lt;" && t[4..] == rest;
  }

  lemma UnescapeGt(rest: string)
    ensures UnescapeHtml("&gt;" + rest) == ">" + UnescapeHtml(rest)
  {
    var t := "&gt;" + rest;
    assert t[1] == 'g';
    assert t[..4] == "&gt;" && t[4..] == rest;
  }

  lemma UnescapeQuot(rest: string)
    ensures UnescapeHtml("&quot;" + rest) == "\"" + UnescapeHtml(rest)
  {
    var t := "&quot;" + rest;
    assert t[1] == 'q';
    assert t[..6] == "&quot;" && t[6..] == rest;
  }

  lemma UnescapeApos(rest: string)
    ensures UnescapeHtml("&#039;" + rest) == "'" + UnescapeHtml(rest)
  {
    var t := "&#039;" + rest;
    assert t[1] == '#';
    assert t[..6] == "&#039;" && t[6..] == rest;
  }

  /** One escaped character is read back as itself, whatever follows it. */
  lemma UnescapeStep(c: char, rest: string)
    ensures UnescapeHtml(EscapeChar(c) + rest) == [c] + UnescapeHtml(rest)
  {
    if c == '&' {
      UnescapeAmp(rest);
    } else if c == '<' {
      UnescapeLt(rest);
    } else if c == '>' {
      UnescapeGt(rest);
    } else if c == '"' {
      UnescapeQuot(rest);
    } else if c == '\'' {
      UnescapeApos(rest);
    } else {
      var t := [c] + rest;
      assert t[0] == c && t[1..] == rest;
    }
  }

  /** Escaping loses nothing: the original text can be read back. */
  lemma {:induction false} UnescapeEscape(s: string)
    ensures UnescapeHtml(EscapeHtml(s)) == s
  {
    if s != [] {
      UnescapeStep(s[0], EscapeHtml(s[1..]));
      UnescapeEscape(s[1..]);
      assert s == [s[0]] + s[1..];
    }
  }

  // ---------------------------------------------------------------------------
  // Item kind suggestion
  // ---------------------------------------------------------------------------

  const ServicoKeys: seq<string> :=
    ["troca", "instala", "revis", "diagn", "ajuste", "m\U{00E3}o de obra", "mao de obra"]

  const PecaKeys: seq<string> :=
    ["vela", "bomba", "filtro", "correia", "pastilha", "sensor", "\U{00F3}leo", "oleo", "fluido", "pneu", "bateria"]

  /** `keys.some((k) => d.includes(k))`. */
  predicate AnyKey(d: string, keys: seq<string>) {
    exists k :: 0 <= k < |keys| && Contains(d, keys[k])
  }

  /** "troca" is itself a service keyword. */
  lemma TrocaIsServicoKey(d: string)
    requires Contains(d, "troca")
    ensures AnyKey(d, ServicoKeys)
  {
    assert ServicoKeys[0] == "troca";
  }

  /** `suggestTipo`, branch for branch: a service keyword wins; otherwise a
      part keyword gives `peca`, except for an oil change; otherwise
      `servico`.  The result is `peca` exactly when the lower-cased text has
      a part keyword and no service keyword, so the oil-change test never
      decides anything. */
  function SuggestTipo(descricao: string): (r: TipoItem)
    ensures r == Peca <==> !AnyKey(ToLower(descricao), ServicoKeys) && AnyKey(ToLower(descricao), PecaKeys)
  {
    var d := ToLower(descricao);
    if AnyKey(d, ServicoKeys) then Servico
    else if AnyKey(d, PecaKeys) then
      if Contains(d, "troca") && (Contains(d, "\U{00F3}leo") || Contains(d, "oleo")) then
        TrocaIsServicoKey(d);
        assert false;
        Servico
      else Peca
    else Servico
  }

  // ---------------------------------------------------------------------------
  // Totals
  // ---------------------------------------------------------------------------

  /** The sum of `valor_total` over the items of one kind. */
  function KindSum(itens: seq<Item>, tipo: TipoItem): Cents {
    if itens == [] then 0
    else (if itens[0].tipo == tipo then itens[0].valorTotal else 0) + KindSum(itens[1..], tipo)
  }

  /** The sum of `valor_total` over all the items. */
  function AllSum(itens: seq<Item>): Cents {
    if itens == [] then 0 else itens[0].valorTotal + AllSum(itens[1..])
  }

  /** Every item is a part or labour, so the two buckets add up to the whole. */
  lemma {:induction false} KindPartition(itens: seq<Item>)
    ensures KindSum(itens, Peca) + KindSum(itens, Servico) == AllSum(itens)
  {
    if itens != [] {
      KindPartition(itens[1..]);
    }
  }

  /** An order's item sum is the sum over the items the detail query gives. */
  lemma {:induction false} ItemSumIsFiltered(itens: seq<Item>, osId: Id)
    ensures ItemSum(itens, osId) == AllSum(Filter(itens, (i: Item) => i.osId == osId))
  {
    if itens != [] {
      ItemSumIsFiltered(itens[1..], osId);
      var f := Filter(itens, (i: Item) => i.osId == osId);
      if itens[0].osId == osId {
        assert f[1..] == Filter(itens[1..], (i: Item) => i.osId == osId);
      }
    }
  }

  datatype Totals = Totals(pecas: Cents, maoItens: Cents, maoExtra: Cents, mao: Cents, geral: Cents)

  /** `totalPecas`, `totalMaoItens`, `maoExtra`, `totalMao` and `totalGeral`
      for the listed items and the labour field's text. */
  function ComputeTotals(itens: seq<Item>, maoField: string): (t: Totals)
    ensures t.geral == AllSum(itens) + ParseBRL(maoField)
    ensures t.geral == t.pecas + t.mao && t.mao == t.maoItens + t.maoExtra
    ensures t.maoExtra == ParseBRL(maoField)
  {
    KindPartition(itens);
    var pecas := KindSum(itens, Peca);
    var maoItens := KindSum(itens, Servico);
    var maoExtra := ParseBRL(maoField);
    Totals(pecas, maoItens, maoExtra, maoItens + maoExtra, pecas + maoItens + maoExtra)
  }

  /** What the labour field shows after a refresh: the stored charge when it
      is positive, blank otherwise.  Reading the field back gives the stored
      charge in both cases. */
  function LabourField(m: Cents): (r: string)
    ensures r == [] <==> m == 0
    ensures ParseBRL(r) == m
  {
    if m > 0 then
      ParseFormatRoundTrip(m);
      FormatBRL(m)
    else
      assert ReplaceFirst([], ',', '.') == [];
      []
  }

  /** On a consistent store, the page's grand total after a refresh is the
      order's stored `valor_total`. */
  lemma DetailTotalMatchesStore(s: Store, osId: Id)
    requires Valid(s)
    requires GetOSDetails(s, osId).Some?
    ensures var d := GetOSDetails(s, osId).value;
            ComputeTotals(d.itens, LabourField(Mao(d.os.os))).geral == d.os.os.valorTotal
  {
    var k := OrderIndex(s, osId).value;
    assert Priced(s.ordens[k], s.itens);
    ItemSumIsFiltered(s.itens, osId);
  }

  // ---------------------------------------------------------------------------
  // Actions
  // ---------------------------------------------------------------------------

  /** `salvarMaoDeObra`: stores what the labour field reads as. */
  function SaveLabour(s: Store, osId: Id, maoField: string, userId: Option<Id>, eventId: Id, now: Instant): (r: Answer<Cents>)
    ensures r.Failure? <==> OrderIndex(s, osId).None?
    ensures r.Success? ==> r.value.1 == ParseBRL(maoField) && |r.value.0.ordens| == |s.ordens|
    ensures r.Success? ==> Mao(r.value.0.ordens[OrderIndex(s, osId).value]) == ParseBRL(maoField)
  {
    SetMaoDeObra(s, osId, ParseBRL(maoField), userId, eventId, now)
  }

  /** Saving and refreshing does not change what the labour field is worth. */
  lemma SaveRefreshStable(s: Store, osId: Id, maoField: string, userId: Option<Id>, eventId: Id, now: Instant)
    ensures var r := SaveLabour(s, osId, maoField, userId, eventId, now);
            r.Success? ==>
              ParseBRL(LabourField(Mao(r.value.0.ordens[OrderIndex(s, osId).value]))) == ParseBRL(maoField)
  {
  }

  datatype ItemForm = ItemForm(tipo: TipoItem, descricao: string, quantidade: int, valorUnitario: string)

  const MsgDescricao: string := "Informe a descri\U{00E7}\U{00E3}o."
  const MsgQuantidade: string := "Quantidade inv\U{00E1}lida."
  const MsgValor: string := "Valor inv\U{00E1}lido."

  /** The checks of `addItem`, in the source's order: a description that is
      not blank, a positive quantity, a positive unit price. */
  function ValidateItem(osId: Id, form: ItemForm): (r: Result<NewItem, string>)
    ensures r.Success? <==> Trim(form.descricao) != [] && form.quantidade > 0 && ParseBRL(form.valorUnitario) > 0
    ensures Trim(form.descricao) == [] ==> r == Failure(MsgDescricao)
    ensures Trim(form.descricao) != [] && form.quantidade <= 0 ==> r == Failure(MsgQuantidade)
    ensures Trim(form.descricao) != [] && form.quantidade > 0 && ParseBRL(form.valorUnitario) == 0 ==> r == Failure(MsgValor)
    ensures r.Success? ==> r.value.osId == osId && r.value.tipo == form.tipo && r.value.descricao == form.descricao
                           && r.value.quantidade == form.quantidade && r.value.valorUnitario == ParseBRL(form.valorUnitario)
  {
    if Trim(form.descricao) == [] then Failure(MsgDescricao)
    else if form.quantidade <= 0 then Failure(MsgQuantidade)
    else
      var unit := ParseBRL(form.valorUnitario);
      if unit <= 0 then Failure(MsgValor)
      else Success(NewItem(osId, form.tipo, form.descricao, form.quantidade, unit))
  }

  lemma MulAtLeast(q: nat, u: nat)
    requires q >= 1
    ensures q * u >= u
  {
    assert q * u == (q - 1) * u + u;
  }

  /** What pressing "add" does: a rejected form shows its message and leaves
      the store alone; an accepted one goes to `addOSItem`. */
  datatype AddOutcome = Rejected(message: string) | Stored(store: Store, item: Item) | Thrown(error: DbError)

  function AddItem(s: Store, osId: Id, form: ItemForm, userId: Option<Id>, itemId: Id, eventId: Id, now: Instant): (r: AddOutcome)
    ensures r.Rejected? <==> ValidateItem(osId, form).Failure?
    ensures r.Thrown? ==> OrderIndex(s, osId).None?
    ensures r.Stored? ==> r.store.itens == s.itens + [r.item]
                          && r.item.osId == osId
                          && r.item.quantidade > 0 && r.item.valorUnitario > 0
                          && r.item.valorTotal >= r.item.valorUnitario
                          && Trim(r.item.descricao) != []
  {
    match ValidateItem(osId, form)
    case Failure(msg) => Rejected(msg)
    case Success(input) =>
      match AddOSItem(s, input, userId, itemId, eventId, now)
      case Failure(e) => Thrown(e)
      case Success((s', item)) =>
        MulAtLeast(item.quantidade, item.valorUnitario);
        Stored(s', item)
  }
}

=== FILE: seqs.dfy ===
/** Sequence helpers that stand in for `Array.prototype.filter`, `slice` and
    `sort` with a comparator. */
module Seqs {
  import opened Wrappers

  /** `s.findIndex(p)`: the first position whose element satisfies `p`. */
  function FindIndex<T>(s: seq<T>, p: T -> bool): (r: Option<nat>)
    ensures r.Some? ==> r.value < |s| && p(s[r.value])
    ensures r.Some? ==> forall k :: 0 <= k < r.value ==> !p(s[k])
    ensures r.None? ==> forall k :: 0 <= k < |s| ==> !p(s[k])
  {
    if s == [] then None
    else if p(s[0]) then Some(0)
    else match FindIndex(s[1..], p)
      case Some(k) => Some(k + 1)
      case None => None
  }

  /** The first position satisfying `p` is the same in two sequences whose
      elements agree on `p`. */
  lemma FindIndexSame<T>(s: seq<T>, t: seq<T>, p: T -> bool, k: nat)
    requires |s| == |t|
    requires forall j :: 0 <= j < |s| ==> (p(s[j]) <==> p(t[j]))
    requires FindIndex(s, p) == Some(k)
    ensures FindIndex(t, p) == Some(k)
  {
  }

  /** The last position whose element satisfies `p`: what a `Map` built
      from `s` keeps when several elements share a key. */
  function FindLastIndex<T>(s: seq<T>, p: T -> bool): (r: Option<nat>)
    ensures r.Some? ==> r.value < |s| && p(s[r.value])
    ensures r.Some? ==> forall k :: r.value < k < |s| ==> !p(s[k])
    ensures r.None? ==> forall k :: 0 <= k < |s| ==> !p(s[k])
  {
    if s == [] then None
    else if p(s[|s| - 1]) then Some(|s| - 1)
    else FindLastIndex(s[..|s| - 1], p)
  }

  /** `a` is obtained from `b` by deleting elements, keeping the order. */
  predicate IsSubsequence<T(==)>(a: seq<T>, b: seq<T>)
    decreases |b|
  {
    if a == [] then true
    else if b == [] then false
    else if a[0] == b[0] then IsSubsequence(a[1..], b[1..])
    else IsSubsequence(a, b[1..])
  }

  /** `s.filter(p)`: the elements satisfying `p`, in their original order. */
  function Filter<T(==,!new)>(s: seq<T>, p: T -> bool): (r: seq<T>)
    ensures |r| <= |s|
    ensures forall x :: x in r <==> x in s && p(x)
    ensures IsSubsequence(r, s)
    ensures forall x :: p(x) ==> multiset(r)[x] == multiset(s)[x]
    ensures forall x :: !p(x) ==> multiset(r)[x] == 0
  {
    if s == [] then []
    else
      var t := Filter(s[1..], p);
      assert s == [s[0]] + s[1..];
      if p(s[0]) then
        assert ([s[0]] + t)[1..] == t;
        [s[0]] + t
      else t
  }

  /** A filter every element passes keeps the whole sequence. */
  lemma {:induction false} FilterKeepsAll<T(!new)>(s: seq<T>, p: T -> bool)
    requires forall x :: x in s ==> p(x)
    ensures Filter(s, p) == s
  {
    if s != [] {
      assert forall x :: x in s[1..] ==> x in s;
      FilterKeepsAll(s[1..], p);
      assert p(s[0]);
      assert s == [s[0]] + s[1..];
    }
  }

  /** Filters whose tests agree on the elements present give the same
      result. */
  lemma {:induction false} FilterCongruent<T(!new)>(s: seq<T>, p: T -> bool, q: T -> bool)
    requires forall x :: x in s ==> (p(x) <==> q(x))
    ensures Filter(s, p) == Filter(s, q)
  {
    if s != [] {
      assert forall x :: x in s[1..] ==> x in s;
      FilterCongruent(s[1..], p, q);
    }
  }

  /** `s.slice(0, n)`: the first `n` elements, or all of them when fewer. */
  function Take<T>(s: seq<T>, n: nat): (r: seq<T>)
    ensures |r| == if |s| < n then |s| else n
    ensures r == s[..|r|]
  {
    if |s| <= n then s else s[..n]
  }

  /** `le` orders any two values one way or the other. */
  ghost predicate Total<T(!new)>(le: (T, T) -> bool) {
    forall a, b :: le(a, b) || le(b, a)
  }

  /** Adjacent elements are in `le` order. */
  predicate SortedBy<T>(s: seq<T>, le: (T, T) -> bool) {
    forall k :: 0 < k < |s| ==> le(s[k - 1], s[k])
  }

  /** Inserts `x` before the first element it is `le` to. */
  function Insert<T(!new)>(x: T, s: seq<T>, le: (T, T) -> bool): (r: seq<T>)
    requires Total(le)
    requires SortedBy(s, le)
    ensures SortedBy(r, le)
    ensures multiset(r) == multiset(s) + multiset{x}
    ensures |r| == |s| + 1
    ensures r[0] == x || (|s| > 0 && r[0] == s[0])
  {
    if s == [] || le(x, s[0]) then [x] + s
    else
      var t := Insert(x, s[1..], le);
      assert le(s[0], x);
      assert s == [s[0]] + s[1..];
      [s[0]] + t
  }

  /** `[...s].sort(cmp)` for a comparator agreeing with `le`: a sorted
      permutation of `s`.  Insertion keeps equal elements in input order. */
  function SortBy<T(!new)>(s: seq<T>, le: (T, T) -> bool): (r: seq<T>)
    requires Total(le)
    ensures SortedBy(r, le)
    ensures multiset(r) == multiset(s)
    ensures |r| == |s|
  {
    if s == [] then []
    else
      assert s == [s[0]] + s[1..];
      Insert(s[0], SortBy(s[1..], le), le)
  }
}

=== FILE: store_invariants.dfy ===
/** The consistency the store keeps across its operations: order ids are
    unique, every order is priced as its items plus its labour, every item
    belongs to an existing order, and order numbers are handed out from a
    per-user counter without repetition. */
module StoreInvariants {
  import opened Wrappers
  import opened Seqs
  import opened Money
  import opened Calendar
  import opened Types
  import opened LocalDB

  predicate UniqueOrderIds(s: Store) {
    forall i, j :: 0 <= i < j < |s.ordens| ==> s.ordens[i].id != s.ordens[j].id
  }

  predicate AllPriced(s: Store) {
    forall k :: 0 <= k < |s.ordens| ==> Priced(s.ordens[k], s.itens)
  }

  predicate HasOrder(s: Store, id: Id) {
    exists k :: 0 <= k < |s.ordens| && s.ordens[k].id == id
  }

  predicate ItemsOwned(s: Store) {
    forall x :: x in s.itens ==> HasOrder(s, x.osId)
  }

  /** No order carries a number its user's counter has not reached yet. */
  predicate NumbersIssued(s: Store) {
    forall k :: 0 <= k < |s.ordens| ==> s.ordens[k].numero <= Counter(s, s.ordens[k].userId)
  }

  /** Two orders of one user never share a number. */
  predicate UniqueNumbers(s: Store) {
    forall i, j :: 0 <= i < j < |s.ordens| && s.ordens[i].userId == s.ordens[j].userId
                   ==> s.ordens[i].numero != s.ordens[j].numero
  }

  predicate Valid(s: Store) {
    UniqueOrderIds(s) && AllPriced(s) && ItemsOwned(s) && NumbersIssued(s) && UniqueNumbers(s)
  }

  /** The seeded database is consistent. */
  lemma SeedValid()
    ensures Valid(Seed())
  {
  }

  /** An order id no item refers to contributes nothing to any sum. */
  lemma {:induction false} ItemSumAbsent(itens: seq<Item>, osId: Id)
    requires forall x :: x in itens ==> x.osId != osId
    ensures ItemSum(itens, osId) == 0
  {
    if itens != [] {
      assert itens[0] in itens;
      ItemSumAbsent(itens[1..], osId);
    }
  }

  /** `OrderIndex` depends only on the ids at each position. */
  lemma OrderIndexStable(s: Store, s': Store, id: Id)
    requires |s'.ordens| == |s.ordens|
    requires forall j :: 0 <= j < |s.ordens| ==> s'.ordens[j].id == s.ordens[j].id
    ensures OrderIndex(s', id) == OrderIndex(s, id)
  {
    var a := OrderIndex(s, id);
    var b := OrderIndex(s', id);
    if a.Some? {
      assert s'.ordens[a.value].id == id;
    }
    if b.Some? {
      assert s.ordens[b.value].id == id;
    }
  }

  /** The common step of every operation that rewrites one order in place:
      when the order keeps its id, number and owner, is priced afterwards,
      the other orders' sums do not move and every item still names an
      existing order, the store stays consistent. */
  lemma ValidAfterOrderUpdate(s: Store, s': Store, k: nat)
    requires Valid(s) && k < |s.ordens|
    requires |s'.ordens| == |s.ordens| && s'.counters == s.counters
    requires forall j :: 0 <= j < |s.ordens| && j != k ==> s'.ordens[j] == s.ordens[j]
    requires s'.ordens[k].id == s.ordens[k].id
    requires s'.ordens[k].numero == s.ordens[k].numero && s'.ordens[k].userId == s.ordens[k].userId
    requires Priced(s'.ordens[k], s'.itens)
    requires forall j :: 0 <= j < |s.ordens| && j != k ==> ItemSum(s'.itens, s.ordens[j].id) == ItemSum(s.itens, s.ordens[j].id)
    requires forall x :: x in s'.itens ==> HasOrder(s, x.osId)
    ensures Valid(s')
  {
    forall x | x in s'.itens
      ensures HasOrder(s', x.osId)
    {
      var j :| 0 <= j < |s.ordens| && s.ordens[j].id == x.osId;
      assert s'.ordens[j].id == x.osId;
    }
    forall j | 0 <= j < |s'.ordens|
      ensures Priced(s'.ordens[j], s'.itens)
    {
      if j != k {
        assert Priced(s.ordens[j], s.itens);
      }
    }
  }

  // ---------------------------------------------------------------------------
  // One lemma per operation
  // ---------------------------------------------------------------------------

  /** A new order with a fresh id keeps the store consistent, and its number
      is above every number its user already holds. */
  lemma CreateOSPreservesValid(s: Store, input: NewOS, id: Id, now: Instant)
    requires Valid(s)
    requires forall k :: 0 <= k < |s.ordens| ==> s.ordens[k].id != id
    ensures Valid(CreateOS(s, input, id, now).0)
    ensures forall k :: 0 <= k < |s.ordens| && s.ordens[k].userId == input.userId
              ==> s.ordens[k].numero < CreateOS(s, input, id, now).1.numero
  {
    var (s', o) := CreateOS(s, input, id, now);
    forall x | x in s.itens
      ensures x.osId != id
    {
      assert HasOrder(s, x.osId);
    }
    ItemSumAbsent(s.itens, id);
    var n := |s.ordens|;
    assert s'.ordens[n] == o;
    forall i, j | 0 <= i < j < |s'.ordens|
      ensures s'.ordens[i].id != s'.ordens[j].id
    {
      if j == n {
        assert s'.ordens[i] == s.ordens[i];
      } else {
        assert s'.ordens[i] == s.ordens[i] && s'.ordens[j] == s.ordens[j];
      }
    }
    forall x | x in s'.itens
      ensures HasOrder(s', x.osId)
    {
      var j :| 0 <= j < |s.ordens| && s.ordens[j].id == x.osId;
      assert s'.ordens[j] == s.ordens[j];
    }
    forall k | 0 <= k < |s'.ordens|
      ensures s'.ordens[k].numero <= Counter(s', s'.ordens[k].userId)
    {
      if k < n {
        assert s'.ordens[k] == s.ordens[k];
      }
    }
    forall i, j | 0 <= i < j < |s'.ordens| && s'.ordens[i].userId == s'.ordens[j].userId
      ensures s'.ordens[i].numero != s'.ordens[j].numero
    {
      assert s'.ordens[i] == s.ordens[i];
      if j < n {
        assert s'.ordens[j] == s.ordens[j];
      }
    }
    forall k | 0 <= k < |s'.ordens|
      ensures Priced(s'.ordens[k], s'.itens)
    {
      if k < n {
        assert s'.ordens[k] == s.ordens[k];
      }
    }
  }

  lemma SetOSStatusPreservesValid(s: Store, osId: Id, st: Status, userId: Option<Id>, eventId: Id, now: Instant)
    requires Valid(s)
    ensures var r := SetOSStatus(s, osId, st, userId, eventId, now);
            r.Success? ==> Valid(r.value.0)
  {
    var r := SetOSStatus(s, osId, st, userId, eventId, now);
    if r.Success? {
      var k := OrderIndex(s, osId).value;
      assert Priced(s.ordens[k], s.itens);
      ValidAfterOrderUpdate(s, r.value.0, k);
    }
  }

  lemma SetMaoDeObraPreservesValid(s: Store, osId: Id, valor: Cents, userId: Option<Id>, eventId: Id, now: Instant)
    requires Valid(s)
    ensures var r := SetMaoDeObra(s, osId, valor, userId, eventId, now);
            r.Success? ==> Valid(r.value.0)
  {
    var r := SetMaoDeObra(s, osId, valor, userId, eventId, now);
    if r.Success? {
      ValidAfterOrderUpdate(s, r.value.0, OrderIndex(s, osId).value);
    }
  }

  lemma ClearMaoDeObraPreservesValid(s: Store, osId: Id, userId: Option<Id>, eventId: Id, now: Instant)
    requires Valid(s)
    ensures var r := ClearMaoDeObra(s, osId, userId, eventId, now);
            r.Success? ==> Valid(r.value.0)
  {
    var r := ClearMaoDeObra(s, osId, userId, eventId, now);
    if r.Success? {
      ValidAfterOrderUpdate(s, r.value.0, OrderIndex(s, osId).value);
    }
  }

  lemma AddOSItemPreservesValid(s: Store, input: NewItem, userId: Option<Id>, itemId: Id, eventId: Id, now: Instant)
    requires Valid(s)
    ensures var r := AddOSItem(s, input, userId, itemId, eventId, now);
            r.Success? ==> Valid(r.value.0)
  {
    var r := AddOSItem(s, input, userId, itemId, eventId, now);
    if r.Success? {
      var k := OrderIndex(s, input.osId).value;
      var (s', item) := r.value;
      forall j | 0 <= j < |s.ordens| && j != k
        ensures ItemSum(s'.itens, s.ordens[j].id) == ItemSum(s.itens, s.ordens[j].id)
      {
        ItemSumAppend(s.itens, [item], s.ordens[j].id);
        if j < k {
          assert s.ordens[j].id != s.ordens[k].id;
        } else {
          assert s.ordens[k].id != s.ordens[j].id;
        }
      }
      forall x | x in s'.itens
        ensures HasOrder(s, x.osId)
      {
        if x !in s.itens {
          assert x == item;
          assert s.ordens[k].id == x.osId;
        }
      }
      ValidAfterOrderUpdate(s, s', k);
    }
  }

  lemma RemoveOSItemPreservesValid(s: Store, itemId: Id, userId: Option<Id>, eventId: Id, now: Instant)
    requires Valid(s)
    ensures var r := RemoveOSItem(s, itemId, userId, eventId, now);
            r.Success? ==> Valid(r.value.0)
  {
    var r := RemoveOSItem(s, itemId, userId, eventId, now);
    if r.Success? {
      var i := ItemIndex(s, itemId).value;
      var item := s.itens[i];
      var k := OrderIndex(s, item.osId).value;
      var s' := r.value.0;
      forall j | 0 <= j < |s.ordens| && j != k
        ensures ItemSum(s'.itens, s.ordens[j].id) == ItemSum(s.itens, s.ordens[j].id)
      {
        ItemSumRemoveAt(s.itens, i, s.ordens[j].id);
        if j < k {
          assert s.ordens[j].id != s.ordens[k].id;
        } else {
          assert s.ordens[k].id != s.ordens[j].id;
        }
      }
      forall x | x in s'.itens
        ensures HasOrder(s, x.osId)
      {
        assert x in s.itens;
      }
      ValidAfterOrderUpdate(s, s', k);
    }
  }

  lemma RemoveOSItensByTipoPreservesValid(s: Store, osId: Id, tipo: TipoItem, userId: Option<Id>, eventId: Id, now: Instant)
    requires Valid(s)
    ensures var r := RemoveOSItensByTipo(s, osId, tipo, userId, eventId, now);
            r.Success? ==> Valid(r.value.0)
  {
    var r := RemoveOSItensByTipo(s, osId, tipo, userId, eventId, now);
    if r.Success? {
      var k := OrderIndex(s, osId).value;
      var s' := r.value.0;
      forall j | 0 <= j < |s.ordens| && j != k
        ensures ItemSum(s'.itens, s.ordens[j].id) == ItemSum(s.itens, s.ordens[j].id)
      {
        if j < k {
          assert s.ordens[j].id != s.ordens[k].id;
        } else {
          assert s.ordens[k].id != s.ordens[j].id;
        }
        assert s'.itens == KeepOthers(s.itens, osId, tipo);
      }
      ValidAfterOrderUpdate(s, s', k);
    }
  }

  /** Checklist, client, vehicle and account changes leave the orders and
      items alone; a new account keeps consistency when its id is fresh. */
  lemma SideTablesPreserveValid(s: Store, now: Instant)
    requires Valid(s)
    ensures forall rows, ids | |ids| == |rows| :: Valid(InsertChecklist(s, rows, ids, now))
    ensures forall id :: Valid(ToggleChecklist(s, id).0)
    ensures forall c, id :: Valid(CreateCliente(s, c, id, now).0)
    ensures forall v, id :: Valid(CreateVeiculo(s, v, id, now).0)
  {
  }

  lemma SignUpPreservesValid(s: Store, email: string, newId: Id)
    requires Valid(s)
    requires newId !in s.counters
    requires forall k :: 0 <= k < |s.ordens| ==> s.ordens[k].userId != newId
    ensures var r := SignUp(s, email, newId);
            r.Success? ==> Valid(r.value.0)
  {
    var r := SignUp(s, email, newId);
    if r.Success? {
      var s' := r.value.0;
      forall k | 0 <= k < |s'.ordens|
        ensures s'.ordens[k].numero <= Counter(s', s'.ordens[k].userId)
      {
        assert s'.ordens[k].numero <= Counter(s, s'.ordens[k].userId);
      }
    }
  }

  // ---------------------------------------------------------------------------
  // Properties of sequences of operations
  // ---------------------------------------------------------------------------

  /** Two orders created one after the other for the same user get
      consecutive numbers. */
  lemma CreateOSConsecutive(s: Store, a: NewOS, b: NewOS, idA: Id, idB: Id, now1: Instant, now2: Instant)
    requires a.userId == b.userId
    ensures var (s1, o1) := CreateOS(s, a, idA, now1);
            CreateOS(s1, b, idB, now2).1.numero == o1.numero + 1
  {
  }

  /** Zeroing the labour charge a second time changes no order and no item:
      only another timeline event is logged. */
  lemma ClearMaoDeObraIdempotent(s: Store, osId: Id, userId: Option<Id>, e1: Id, e2: Id, now: Instant)
    ensures var r1 := ClearMaoDeObra(s, osId, userId, e1, now);
            r1.Success? ==>
              var r2 := ClearMaoDeObra(r1.value.0, osId, userId, e2, now);
              && r2.Success?
              && r2.value.0.ordens == r1.value.0.ordens
              && r2.value.0.itens == r1.value.0.itens
  {
    var r1 := ClearMaoDeObra(s, osId, userId, e1, now);
    if r1.Success? {
      var s1 := r1.value.0;
      OrderIndexStable(s, s1, osId);
      var k := OrderIndex(s, osId).value;
      var r2 := ClearMaoDeObra(s1, osId, userId, e2, now);
      assert r2.value.0.ordens[k] == s1.ordens[k];
      assert r2.value.0.ordens == s1.ordens[k := s1.ordens[k]];
    }
  }

  /** Completing an order a second time keeps the payment and completion
      instants of the first time. */
  lemma ConcluidaTwiceKeepsStamps(s: Store, osId: Id, userId: Option<Id>, e1: Id, e2: Id, t1: Instant, t2: Instant)
    ensures var r1 := SetOSStatus(s, osId, Concluida, userId, e1, t1);
            r1.Success? ==>
              var k := OrderIndex(s, osId).value;
              var r2 := SetOSStatus(r1.value.0, osId, Concluida, userId, e2, t2);
              && r2.Success?
              && r1.value.0.ordens[k].paidAt.Some?
              && r2.value.0.ordens[k].paidAt == r1.value.0.ordens[k].paidAt
              && r2.value.0.ordens[k].dataConclusao == r1.value.0.ordens[k].dataConclusao
  {
    var r1 := SetOSStatus(s, osId, Concluida, userId, e1, t1);
    if r1.Success? {
      OrderIndexStable(s, r1.value.0, osId);
    }
  }

  /** `updateOS` takes the order's total as given, so a caller that changes
      the total (or the labour charge) without the items breaks pricing. */
  lemma UpdateOSCanBreakPricing(s: Store, updated: Order, now: Instant)
    requires OrderIndex(s, updated.id).Some?
    requires updated.valorTotal != ItemSum(s.itens, updated.id) + Mao(updated)
    ensures UpdateOS(s, updated, now).Success?
    ensures !Valid(UpdateOS(s, updated, now).value.0)
  {
    var k := OrderIndex(s, updated.id).value;
    var s' := UpdateOS(s, updated, now).value.0;
    assert !Priced(s'.ordens[k], s'.itens);
  }
}

=== FILE: text.dfy ===
/** String helpers that stand in for the JavaScript string methods the
    application relies on: `trim`, `toLowerCase`, `toUpperCase`, `includes`,
    `Number.prototype.toString`, `replace` with a string pattern, and the
    `/\D/g` digit filter.  Strings are `seq<char>` over Unicode scalar values. */
module Text {
  import opened Seqs

  // ---------------------------------------------------------------------------
  // Whitespace and trim
  // ---------------------------------------------------------------------------

  /** The characters `String.prototype.trim` removes: the ECMAScript
      WhiteSpace and LineTerminator code points, that is the ASCII blanks,
      the byte-order mark and every Unicode space separator (Zs) besides the
      two line and paragraph separators. */
  predicate IsWhitespace(c: char) {
    c == ' ' || c == '\t' || c == '\n' || c == '\r' || c == '\U{000B}' || c == '\U{000C}'
    || c == '\U{00A0}' || c == '\U{FEFF}' || c == '\U{2028}' || c == '\U{2029}'
    || c == '\U{1680}' || ('\U{2000}' <= c <= '\U{200A}') || c == '\U{202F}' || c == '\U{205F}'
    || c == '\U{3000}'
  }

  /** True when every character is whitespace (the empty string included). */
  predicate IsBlank(s: string) {
    forall k :: 0 <= k < |s| ==> IsWhitespace(s[k])
  }

  /** Drops the leading whitespace. */
  function TrimStart(s: string): (r: string)
    ensures |r| <= |s| && r == s[|s| - |r|..]
    ensures IsBlank(s[..|s| - |r|])
    ensures |r| > 0 ==> !IsWhitespace(r[0])
  {
    if |s| > 0 && IsWhitespace(s[0]) then TrimStart(s[1..]) else s
  }

  /** Drops the trailing whitespace. */
  function TrimEnd(s: string): (r: string)
    ensures |r| <= |s| && r == s[..|r|]
    ensures IsBlank(s[|r|..])
    ensures |r| > 0 ==> !IsWhitespace(r[|r| - 1])
  {
    if |s| > 0 && IsWhitespace(s[|s| - 1]) then TrimEnd(s[..|s| - 1]) else s
  }

  /** Where the text left by `TrimStart` begins. */
  function TrimOffset(s: string): (i: nat)
    ensures i <= |s|
  {
    |s| - |TrimStart(s)|
  }

  /** Removing blank text from the front and then from the back leaves a
      slice with blank text on both sides. */
  lemma TrimSlices(s: string, t: string, r: string)
    requires |t| <= |s| && t == s[|s| - |t|..] && IsBlank(s[..|s| - |t|])
    requires |r| <= |t| && r == t[..|r|] && IsBlank(t[|r|..])
    requires |t| > 0 ==> !IsWhitespace(t[0])
    requires |r| > 0 ==> !IsWhitespace(r[|r| - 1])
    ensures var i := |s| - |t|;
            i + |r| <= |s| && r == s[i..i + |r|] && IsBlank(s[..i]) && IsBlank(s[i + |r|..])
    ensures |r| > 0 ==> !IsWhitespace(r[0]) && !IsWhitespace(r[|r| - 1])
  {
    assert s[|s| - |t| + |r|..] == t[|r|..];
    assert |r| > 0 ==> r[0] == t[0];
  }

  /** `s.trim()`: the slice of `s` left after removing the leading and the
      trailing whitespace; it starts where `TrimStart` stops. */
  function Trim(s: string): (r: string)
    ensures TrimOffset(s) + |r| <= |s|
    ensures r == s[TrimOffset(s)..TrimOffset(s) + |r|]
    ensures IsBlank(s[..TrimOffset(s)]) && IsBlank(s[TrimOffset(s) + |r|..])
    ensures |r| > 0 ==> !IsWhitespace(r[0]) && !IsWhitespace(r[|r| - 1])
  {
    var t := TrimStart(s);
    var r := TrimEnd(t);
    TrimSlices(s, t, r);
    r
  }

  /** A string trims to the empty string exactly when it is blank: this is the
      test `!x.trim()` the forms use to reject a missing value. */
  lemma TrimEmptyIffBlank(s: string)
    ensures Trim(s) == [] <==> IsBlank(s)
  {
    var r := Trim(s);
    var i := TrimOffset(s);
    if r == [] {
      assert i == |s|;
      forall k | 0 <= k < |s|
        ensures IsWhitespace(s[k])
      {
        assert s[k] == s[..i][k];
      }
    } else {
      assert s[i] == r[0];
    }
  }

  // ---------------------------------------------------------------------------
  // Case mapping
  // ---------------------------------------------------------------------------

  /** Upper-case letters the model folds: ASCII `A`-`Z` and the Latin-1 letters
      U+00C0..U+00DE except the multiplication sign U+00D7. */
  predicate IsUpper(c: char) {
    ('A' <= c <= 'Z') || ('\U{00C0}' <= c <= '\U{00DE}' && c != '\U{00D7}')
  }

  /** Lower-case partners of `IsUpper`: `a`-`z` and U+00E0..U+00FE except the
      division sign U+00F7. */
  predicate IsLower(c: char) {
    ('a' <= c <= 'z') || ('\U{00E0}' <= c <= '\U{00FE}' && c != '\U{00F7}')
  }

  function LowerChar(c: char): (r: char)
    ensures IsUpper(c) ==> IsLower(r) && r as int == c as int + 32
    ensures !IsUpper(c) ==> r == c
  {
    if IsUpper(c) then (c as int + 32) as char else c
  }

  function UpperChar(c: char): (r: char)
    ensures IsLower(c) ==> IsUpper(r) && r as int == c as int - 32
    ensures !IsLower(c) ==> r == c
  {
    if IsLower(c) then (c as int - 32) as char else c
  }

  /** `s.toLowerCase()` on the letters the model folds. */
  function ToLower(s: string): (r: string)
    ensures |r| == |s|
    ensures forall k :: 0 <= k < |s| ==> r[k] == LowerChar(s[k])
  {
    if s == [] then [] else [LowerChar(s[0])] + ToLower(s[1..])
  }

  /** `s.toUpperCase()` on the letters the model folds. */
  function ToUpper(s: string): (r: string)
    ensures |r| == |s|
    ensures forall k :: 0 <= k < |s| ==> r[k] == UpperChar(s[k])
  {
    if s == [] then [] else [UpperChar(s[0])] + ToUpper(s[1..])
  }

  /** Lower-casing twice is lower-casing once: the result has no upper-case
      letter left. */
  lemma ToLowerIdempotent(s: string)
    ensures ToLower(ToLower(s)) == ToLower(s)
    ensures forall k :: 0 <= k < |s| ==> !IsUpper(ToLower(s)[k])
  {
  }

  /** Text without upper-case letters, digits for one, is its own lower
      case. */
  lemma ToLowerNoUpper(s: string)
    requires forall k :: 0 <= k < |s| ==> !IsUpper(s[k])
    ensures ToLower(s) == s
  {
  }

  // ---------------------------------------------------------------------------
  // Substring search
  // ---------------------------------------------------------------------------

  predicate IsPrefix(p: string, s: string) {
    |p| <= |s| && s[..|p|] == p
  }

  /** `s.includes(sub)`, searched left to right. */
  predicate Contains(s: string, sub: string)
    decreases |s|
  {
    IsPrefix(sub, s) || (|s| > 0 && Contains(s[1..], sub))
  }

  /** `sub` occurs in `s` starting at position `i`. */
  predicate OccursAt(s: string, sub: string, i: int) {
    0 <= i <= |s| - |sub| && s[i..i + |sub|] == sub
  }

  /** `Contains` holds exactly when `sub` occurs at some position of `s`. */
  lemma {:induction false} ContainsIff(s: string, sub: string)
    ensures Contains(s, sub) <==> exists i :: OccursAt(s, sub, i)
    decreases |s|
  {
    if IsPrefix(sub, s) {
      assert OccursAt(s, sub, 0);
    } else if |s| > 0 {
      ContainsIff(s[1..], sub);
      if exists i :: OccursAt(s, sub, i) {
        var i :| OccursAt(s, sub, i);
        assert i != 0;
        assert s[1..][i - 1..i - 1 + |sub|] == sub;
        assert OccursAt(s[1..], sub, i - 1);
      }
      if Contains(s[1..], sub) {
        var j :| OccursAt(s[1..], sub, j);
        assert s[j + 1..j + 1 + |sub|] == sub;
        assert OccursAt(s, sub, j + 1);
      }
    }
  }

  /** Every string contains the empty string, so an empty search term matches. */
  lemma ContainsEmpty(s: string)
    ensures Contains(s, [])
  {
    assert IsPrefix([], s);
  }

  /** A string contains every slice spliced into it. */
  lemma ContainsMiddle(a: string, sub: string, b: string)
    ensures Contains(a + sub + b, sub)
  {
    var s := a + sub + b;
    assert s[|a|..|a| + |sub|] == sub;
    assert OccursAt(s, sub, |a|);
    ContainsIff(s, sub);
  }

  /** A text made of an opening that starts with a visible character, then
      anything, then two given lines, then anything, starts with the opening,
      contains both lines and is not blank. */
  lemma Composed(r: string, g: string, body: string, first: string, second: string, tail: string)
    requires r == g + body + first + second + tail
    requires g != [] && !IsWhitespace(g[0])
    ensures IsPrefix(g, r)
    ensures Contains(r, first) && Contains(r, second)
    ensures Trim(r) != []
  {
    assert r[..|g|] == g;
    ContainsMiddle(g + body, first, second + tail);
    assert r == (g + body) + first + (second + tail);
    ContainsMiddle(g + body + first, second, tail);
    assert r[0] == g[0];
    TrimEmptyIffBlank(r);
  }

  // ---------------------------------------------------------------------------
  // Ordering
  // ---------------------------------------------------------------------------

  /** Lexicographic order on code points. */
  predicate LexLe(a: string, b: string)
    decreases |a|
  {
    a == [] || (b != [] && (a[0] < b[0] || (a[0] == b[0] && LexLe(a[1..], b[1..]))))
  }

  /** Any two strings are ordered one way or the other. */
  lemma {:induction false} LexLeTotal(a: string, b: string)
    ensures LexLe(a, b) || LexLe(b, a)
    decreases |a|
  {
    if a != [] && b != [] && a[0] == b[0] {
      LexLeTotal(a[1..], b[1..]);
    }
  }

  // ---------------------------------------------------------------------------
  // Decimal digits
  // ---------------------------------------------------------------------------

  predicate IsDigit(c: char) {
    '0' <= c <= '9'
  }

  predicate AllDigits(s: string) {
    forall k :: 0 <= k < |s| ==> IsDigit(s[k])
  }

  function DigitChar(d: nat): (c: char)
    requires d < 10
    ensures IsDigit(c)
    ensures c as int - '0' as int == d
  {
    (d + '0' as int) as char
  }

  function DigitValue(c: char): (d: nat)
    requires IsDigit(c)
    ensures d < 10 && DigitChar(d) == c
  {
    c as int - '0' as int
  }

  /** `n.toString()` for a non-negative integer. */
  function NatToString(n: nat): (r: string)
    ensures |r| > 0 && AllDigits(r)
    ensures |r| > 1 ==> r[0] != '0'
  {
    if n < 10 then [DigitChar(n)] else NatToString(n / 10) + [DigitChar(n % 10)]
  }

  /** The value of a string of decimal digits, most significant first. */
  function ParseDigits(s: string): nat
    requires AllDigits(s)
  {
    if s == [] then 0 else ParseDigits(s[..|s| - 1]) * 10 + DigitValue(s[|s| - 1])
  }

  /** Reading back the decimal text of `n` gives `n`. */
  lemma {:induction false} ParseNatToString(n: nat)
    ensures ParseDigits(NatToString(n)) == n
  {
    var r := NatToString(n);
    if n >= 10 {
      ParseNatToString(n / 10);
      assert r[..|r| - 1] == NatToString(n / 10);
    }
  }

  /** Two numbers print the same exactly when they are equal. */
  lemma NatToStringInjective(m: nat, n: nat)
    ensures NatToString(m) == NatToString(n) <==> m == n
  {
    if NatToString(m) == NatToString(n) {
      ParseNatToString(m);
      ParseNatToString(n);
    }
  }

  /** `s.replace(/\D/g, "")`: keeps the decimal digits, in order. */
  function KeepDigits(s: string): (r: string)
    ensures AllDigits(r)
    ensures |r| <= |s|
    ensures IsSubsequence(r, s)
    ensures AllDigits(s) ==> r == s
  {
    if s == [] then []
    else if IsDigit(s[0]) then
      var t := KeepDigits(s[1..]);
      assert ([s[0]] + t)[1..] == t;
      [s[0]] + t
    else KeepDigits(s[1..])
  }

  /** Keeping the digits is filtering by `IsDigit`: every digit stays, in
      place order, and nothing else does. */
  lemma {:induction false} KeepDigitsIsFilter(s: string)
    ensures KeepDigits(s) == Filter(s, (c: char) => IsDigit(c))
  {
    if s != [] {
      KeepDigitsIsFilter(s[1..]);
    }
  }

  /** Text typed in two pieces keeps the digits of the first piece, then
      those of the second. */
  lemma {:induction false} KeepDigitsAppend(a: string, b: string)
    ensures KeepDigits(a + b) == KeepDigits(a) + KeepDigits(b)
  {
    if a == [] {
      assert a + b == b;
    } else {
      KeepDigitsAppend(a[1..], b);
      assert (a + b)[0] == a[0] && (a + b)[1..] == a[1..] + b;
    }
  }

  /** Removing non-digits neither adds nor drops a digit: the number of each
      digit character is the same before and after. */
  lemma {:induction false} KeepDigitsCounts(s: string, c: char)
    requires IsDigit(c)
    ensures multiset(KeepDigits(s))[c] == multiset(s)[c]
  {
    if s != [] {
      KeepDigitsCounts(s[1..], c);
      assert s == [s[0]] + s[1..];
    }
  }

  /** The longest run of digits at the start of `s`. */
  function DigitPrefix(s: string): (r: string)
    ensures AllDigits(r) && IsPrefix(r, s)
    ensures |r| < |s| ==> !IsDigit(s[|r|])
  {
    if s == [] || !IsDigit(s[0]) then []
    else
      var t := DigitPrefix(s[1..]);
      assert s[..|t| + 1] == [s[0]] + s[1..][..|t|];
      [s[0]] + t
  }

  /** A non-empty digit prefix starts at a digit. */
  lemma DigitPrefixHead(s: string)
    ensures DigitPrefix(s) != [] ==> s != [] && IsDigit(s[0])
  {
    var d := DigitPrefix(s);
    if d != [] {
      assert s[0] == d[0];
    }
  }

  /** A digit string is its own digit prefix. */
  lemma {:induction false} DigitPrefixAll(s: string)
    requires AllDigits(s)
    ensures DigitPrefix(s) == s
  {
    if s != [] {
      assert AllDigits(s[1..]);
      DigitPrefixAll(s[1..]);
    }
  }

  /** Digits followed by a non-digit: the digit run stops exactly there. */
  lemma {:induction false} DigitPrefixStops(a: string, b: string)
    requires AllDigits(a) && b != [] && !IsDigit(b[0])
    ensures DigitPrefix(a + b) == a
  {
    if a == [] {
      assert a + b == b;
    } else {
      assert (a + b)[1..] == a[1..] + b;
      assert AllDigits(a[1..]);
      DigitPrefixStops(a[1..], b);
      assert a == [a[0]] + a[1..];
    }
  }

  /** Lines each followed by the terminator `t`. */
  function Terminated(lines: seq<string>, t: string): string {
    if lines == [] then [] else lines[0] + t + Terminated(lines[1..], t)
  }

  /** `lines.join(sep)`. */
  function Join(lines: seq<string>, sep: string): string {
    if lines == [] then []
    else if |lines| == 1 then lines[0]
    else lines[0] + sep + Join(lines[1..], sep)
  }

  /** Joining with a separator and appending one more separator is the same as
      ending every line with it. */
  lemma {:induction false} JoinThenSeparator(lines: seq<string>, sep: string)
    requires lines != []
    ensures Join(lines, sep) + sep == Terminated(lines, sep)
  {
    if |lines| == 1 {
      assert lines[1..] == [];
    } else {
      JoinThenSeparator(lines[1..], sep);
      assert Join(lines, sep) + sep == lines[0] + sep + (Join(lines[1..], sep) + sep);
    }
  }

  /** The position of the first `a` in `s`, or `|s|` when there is none. */
  function FirstIndex(s: string, a: char): (i: nat)
    ensures i <= |s| && a !in s[..i]
    ensures i < |s| ==> s[i] == a
    ensures i == |s| ==> a !in s
  {
    if s == [] then 0
    else if s[0] == a then 0
    else
      var j := FirstIndex(s[1..], a);
      assert s[..j + 1] == [s[0]] + s[1..][..j];
      j + 1
  }

  /** `FirstIndex` is the position of an `a` with none before it. */
  lemma FirstIndexAt(s: string, a: char, i: nat)
    requires i < |s| && s[i] == a && a !in s[..i]
    ensures FirstIndex(s, a) == i
  {
  }

  /** `s.replace(a, b)` with one-character string arguments: only the first
      occurrence of `a` is replaced. */
  function ReplaceFirst(s: string, a: char, b: char): (r: string)
    ensures |r| == |s|
    ensures a !in s ==> r == s
    ensures a in s ==> var i := FirstIndex(s, a); r[i] == b && r[..i] == s[..i] && r[i + 1..] == s[i + 1..]
  {
    var i := FirstIndex(s, a);
    if i < |s| then s[..i] + [b] + s[i + 1..] else s
  }
}

=== FILE: types.dfy ===
/** The entities of the shop: clients, vehicles, service orders ("OS"), their
    line items, checklist rows, photos and timeline events, the local user
    accounts, and the store that holds them all together. */
module Types {
  import opened Wrappers
  import opened Money
  import opened Calendar

  /** Identifiers are opaque strings (UUIDs in the source). */
  type Id = string

  datatype Status = Aberta | EmAndamento | AguardandoPeca | Concluida | Entregue

  /** The value a status is stored and shown under. */
  function StatusName(st: Status): (r: string)
    ensures |r| > 0
  {
    match st
    case Aberta => "aberta"
    case EmAndamento => "em_andamento"
    case AguardandoPeca => "aguardando_peca"
    case Concluida => "concluida"
    case Entregue => "entregue"
  }

  /** Distinct statuses are stored under distinct names. */
  lemma StatusNameInjective(a: Status, b: Status)
    ensures StatusName(a) == StatusName(b) ==> a == b
  {
  }

  /** Kind of a line item: labour (`servico`) or a part (`peca`). */
  datatype TipoItem = Servico | Peca

  datatype TipoFoto = Antes | Durante | Depois

  datatype Cliente = Cliente(
    id: Id,
    nome: string,
    telefone: string,
    email: Option<string>,
    cpfCnpj: Option<string>,
    endereco: Option<string>,
    createdAt: Instant,
    updatedAt: Instant,
    userId: Id)

  datatype Veiculo = Veiculo(
    id: Id,
    clienteId: Id,
    placa: string,
    marca: string,
    modelo: string,
    ano: Option<int>,
    cor: Option<string>,
    createdAt: Instant,
    userId: Id)

  /** A service order.  `km` is `None` when the odometer text did not parse
      (`NaN` in the source); `maoDeObra` is `None` when the field is absent and
      then counts as 0. */
  datatype Order = Order(
    id: Id,
    numero: nat,
    clienteId: Id,
    veiculoId: Id,
    status: Status,
    problemaRelatado: string,
    km: Option<int>,
    combustivel: int,
    valorTotal: Cents,
    previsaoEntrega: Option<Day>,
    dataEntrada: Instant,
    dataConclusao: Option<Instant>,
    createdAt: Instant,
    updatedAt: Instant,
    userId: Id,
    maoDeObra: Option<Cents>,
    paidAt: Option<Instant>,
    deliveredAt: Option<Instant>)

  /** An order with its client and vehicle attached, as the list and detail
      queries hand it out. */
  datatype OrderView = OrderView(os: Order, cliente: Option<Cliente>, veiculo: Option<Veiculo>)

  datatype ChecklistRow = ChecklistRow(
    id: Id,
    osId: Id,
    item: string,
    checked: bool,
    ordem: int,
    createdAt: Instant)

  datatype Item = Item(
    id: Id,
    osId: Id,
    tipo: TipoItem,
    descricao: string,
    quantidade: nat,
    valorUnitario: Cents,
    valorTotal: Cents,
    createdAt: Instant)

  datatype Foto = Foto(id: Id, osId: Id, tipo: TipoFoto, url: string, createdAt: Instant)

  datatype TimelineEvent = TimelineEvent(
    id: Id,
    osId: Id,
    evento: string,
    createdAt: Instant,
    userId: Option<Id>)

  datatype User = User(id: Id, email: string)

  /** The whole local database, loaded and saved as one value.  `counters`
      holds, per user id, the last order number handed out. */
  datatype Store = Store(
    users: seq<User>,
    clientes: seq<Cliente>,
    veiculos: seq<Veiculo>,
    ordens: seq<Order>,
    checklist: seq<ChecklistRow>,
    itens: seq<Item>,
    fotos: seq<Foto>,
    timeline: seq<TimelineEvent>,
    counters: map<Id, nat>)

  /** The database a first visit starts from: one demo account whose counter
      is 0, and nothing else. */
  function Seed(): (s: Store)
    ensures |s.users| == 1 && s.users[0].id in s.counters && s.counters[s.users[0].id] == 0
    ensures s.ordens == [] && s.itens == [] && s.timeline == [] && s.checklist == []
  {
    Store([User("demo-user", "demo@oficina.com")], [], [], [], [], [], [], [], map["demo-user" := 0])
  }
}

=== FILE: whatsapp.dfy ===
/** The WhatsApp update an operator sends from an order: it re-reads the order
    and its items from the store, computes the items total, the labour charge
    and the final total, and composes the message text. */
module WhatsApp {
  import opened Wrappers
  import opened Text
  import opened Seqs
  import opened Money
  import opened Types
  import opened LocalDB
  import opened StoreInvariants
  import opened OSDetail

  const Placeholder: string := "\U{2022} (nenhum item lan\U{00E7}ado)\n"

  /** One bullet: description, quantity, unit price and item total. */
  function ItemLine(i: Item): string {
    "\U{2022} " + i.descricao + " \U{2014} " + NatToString(i.quantidade) + "x R$ " + Fixed2(i.valorUnitario)
    + " = R$ " + Fixed2(i.valorTotal)
  }

  function ItemLines(itens: seq<Item>): (r: seq<string>)
    ensures |r| == |itens|
    ensures forall k :: 0 <= k < |r| ==> r[k] == ItemLine(itens[k])
  {
    if itens == [] then [] else [ItemLine(itens[0])] + ItemLines(itens[1..])
  }

  /** `listaItens`: the placeholder line for no items; otherwise one bullet
      per item, in order, each ending the line. */
  function ListaItens(itens: seq<Item>): (r: string)
    ensures itens == [] ==> r == Placeholder
    ensures itens != [] ==> r == Terminated(ItemLines(itens), "\n")
  {
    if itens == [] then Placeholder
    else
      JoinThenSeparator(ItemLines(itens), "\n");
      Join(ItemLines(itens), "\n") + "\n"
  }

  function Greeting(nome: string): string {
    "Ol\U{00E1}, " + nome + "! \U{1F44B}\n\n"
  }

  function MaoLine(mao: Cents): string {
    "\U{1F468}\U{200D}\U{1F527} M\U{00E3}o de obra: R$ " + Fixed2(mao) + "\n"
  }

  function TotalLine(total: Cents): string {
    "\U{1F4B0} Total: R$ " + Fixed2(total) + "\n"
  }

  const Closing: string := "Qualquer d\U{00FA}vida, estou \U{00E0} disposi\U{00E7}\U{00E3}o."

  /** ` (make model)` after the plate when the trimmed make and model are
      not empty, nothing otherwise. */
  function ModeloSuffix(modelo: string): (r: string)
    ensures r == [] <==> modelo == []
    ensures modelo != [] ==> Contains(r, "(" + modelo + ")")
  {
    if modelo != [] then
      ContainsMiddle(" ", "(" + modelo + ")", []);
      assert " " + ("(" + modelo + ")") + [] == " (" + modelo + ")";
      " (" + modelo + ")"
    else ""
  }

  /** The make and model as the message names them. */
  function VehicleText(marca: string, modelo: string): string {
    Trim(marca + " " + modelo)
  }

  /** The parenthesised make and model are left out exactly when both are
      blank. */
  lemma SuffixOmittedIffBlank(marca: string, modelo: string)
    ensures ModeloSuffix(VehicleText(marca, modelo)) == [] <==> IsBlank(marca) && IsBlank(modelo)
  {
    var s := marca + " " + modelo;
    TrimEmptyIffBlank(s);
    if IsBlank(s) {
      forall k | 0 <= k < |marca| ensures IsWhitespace(marca[k]) {
        assert s[k] == marca[k];
      }
      forall k | 0 <= k < |modelo| ensures IsWhitespace(modelo[k]) {
        assert s[|marca| + 1 + k] == modelo[k];
      }
    }
  }

  function Header(numero: nat): string {
    "Atualiza\U{00E7}\U{00E3}o da sua OS #" + NatToString(numero) + "\n"
  }

  function VeiculoLine(placa: string, modelo: string): string {
    "\U{1F697} Ve\U{00ED}culo: " + placa + ModeloSuffix(modelo) + "\n"
  }

  function StatusPart(status: Status): string {
    "\U{1F4CC} Status: " + StatusName(status) + "\n\n"
  }

  const ItensHeading: string := "\U{1F9FE} Itens:\n"

  /** Everything the message says between the greeting and the labour line. */
  function Body(numero: nat, placa: string, modelo: string, status: Status, lista: string): string {
    Header(numero) + VeiculoLine(placa, modelo) + StatusPart(status) + (ItensHeading + lista + "\n")
  }

  /** A text laid out as greeting, body and tail shows the body's vehicle
      line and item list. */
  lemma BodyShown(r: string, g: string, b: string, h: string, v: string, st: string, lista: string,
                  m: string, t: string, c: string)
    requires b == h + v + st + (ItensHeading + lista + "\n")
    requires r == g + b + m + t + c
    ensures Contains(r, v) && Contains(r, lista)
  {
    var tail := m + t + c;
    assert r == (g + h) + v + (st + (ItensHeading + lista + "\n") + tail);
    ContainsMiddle(g + h, v, st + (ItensHeading + lista + "\n") + tail);
    assert r == (g + h + v + st + ItensHeading) + lista + ("\n" + tail);
    ContainsMiddle(g + h + v + st + ItensHeading, lista, "\n" + tail);
  }

  /** The message: greeting, order number, vehicle, status, items, labour,
      total and the closing line.  It opens with the greeting, is never
      blank, and contains the vehicle line, the item list, and the labour
      and total lines for the values given. */
  function Message(nome: string, numero: nat, placa: string, modelo: string, status: Status,
                   lista: string, mao: Cents, total: Cents): (r: string)
    ensures IsPrefix(Greeting(nome), r)
    ensures Contains(r, MaoLine(mao)) && Contains(r, TotalLine(total))
    ensures Contains(r, VeiculoLine(placa, modelo)) && Contains(r, lista)
    ensures Trim(r) != []
  {
    var g := Greeting(nome);
    var b := Body(numero, placa, modelo, status, lista);
    var m := MaoLine(mao);
    var t := TotalLine(total);
    var c := "\n" + Closing;
    var r := g + b + m + t + c;
    assert g[0] == 'O';
    Composed(r, g, b, m, t, c);
    BodyShown(r, g, b, Header(numero), VeiculoLine(placa, modelo), StatusPart(status), lista, m, t, c);
    r
  }

  function ClienteNome(v: OrderView): string {
    if v.cliente.Some? then v.cliente.value.nome else "Cliente"
  }

  /** The vehicle line for the order's vehicle: its plate, then its make and
      model unless both are blank; empty fields when it has no vehicle. */
  function VeiculoLineOf(v: OrderView): string {
    if v.veiculo.Some? then VeiculoLine(v.veiculo.value.placa, VehicleText(v.veiculo.value.marca, v.veiculo.value.modelo))
    else VeiculoLine("", VehicleText("", ""))
  }

  /** The message for an order and its items: addressed to the client (or
      "Cliente"), naming its vehicle, listing its items, with the order's
      labour line and the given total line. */
  function MessageFor(v: OrderView, itens: seq<Item>, total: Cents): (r: string)
    ensures IsPrefix(Greeting(ClienteNome(v)), r)
    ensures Contains(r, MaoLine(Mao(v.os))) && Contains(r, TotalLine(total))
    ensures Contains(r, VeiculoLineOf(v)) && Contains(r, ListaItens(itens))
    ensures Trim(r) != []
  {
    var placa := if v.veiculo.Some? then v.veiculo.value.placa else "";
    var marca := if v.veiculo.Some? then v.veiculo.value.marca else "";
    var modelo := if v.veiculo.Some? then v.veiculo.value.modelo else "";
    Message(ClienteNome(v), v.os.numero, placa, VehicleText(marca, modelo), v.os.status, ListaItens(itens),
            Mao(v.os), total)
  }

  /** What `handleSendWhatsApp` hands to the modal: the order with its
      client and vehicle, the message, the client's phone, and the totals. */
  datatype Draft = Draft(
    os: OrderView,
    mensagem: string,
    telefone: string,
    totalFinal: Cents,
    maoDeObra: Cents,
    totalItens: Cents)

  /** The draft for an order and its items: totals, message and phone. */
  function Assemble(v: OrderView, itens: seq<Item>): (d: Draft)
    ensures d.os == v && d.maoDeObra == Mao(v.os) && d.totalItens == AllSum(itens)
    ensures d.totalFinal == d.totalItens + d.maoDeObra
    ensures IsPrefix(Greeting(ClienteNome(v)), d.mensagem)
    ensures Contains(d.mensagem, MaoLine(d.maoDeObra)) && Contains(d.mensagem, TotalLine(d.totalFinal))
    ensures Trim(d.mensagem) != []
    ensures d.telefone == (if v.cliente.Some? then v.cliente.value.telefone else "")
  {
    var tel := if v.cliente.Some? then v.cliente.value.telefone else "";
    var mao := Mao(v.os);
    var total := AllSum(itens) + mao;
    var msg := MessageFor(v, itens, total);
    Draft(v, msg, tel, total, mao, AllSum(itens))
  }

  /** `handleSendWhatsApp`: reads the order back from the store (falling back
      to the order on screen, with no items, when the store has none), sums
      the items, adds the labour charge and composes the message. */
  function BuildWhatsApp(s: Store, onScreen: OrderView): (d: Draft)
    ensures GetOSDetails(s, onScreen.os.id).None? ==> d.os == onScreen && d.totalItens == 0
    ensures GetOSDetails(s, onScreen.os.id).Some? ==>
              d.os == GetOSDetails(s, onScreen.os.id).value.os
              && d.totalItens == AllSum(GetOSDetails(s, onScreen.os.id).value.itens)
    ensures d.maoDeObra == Mao(d.os.os) && d.totalFinal == d.totalItens + d.maoDeObra
    ensures Contains(d.mensagem, TotalLine(d.totalFinal)) && Trim(d.mensagem) != []
  {
    match GetOSDetails(s, onScreen.os.id)
    case Some(det) => Assemble(det.os, det.itens)
    case None => Assemble(onScreen, [])
  }

  /** On a consistent store the total sent to the client is the order's
      stored `valor_total`: the builder and the store price alike. */
  lemma DraftTotalIsStored(s: Store, onScreen: OrderView)
    requires Valid(s)
    requires GetOSDetails(s, onScreen.os.id).Some?
    ensures BuildWhatsApp(s, onScreen).totalFinal == GetOSDetails(s, onScreen.os.id).value.os.os.valorTotal
  {
    var id := onScreen.os.id;
    var det := GetOSDetails(s, id).value;
    var k := OrderIndex(s, id).value;
    assert det.os.os == s.ordens[k];
    assert Priced(s.ordens[k], s.itens);
    ItemSumIsFiltered(s.itens, id);
    assert AllSum(det.itens) == ItemSum(s.itens, id);
  }
}

=== FILE: whatsapp_modal.dfy ===
/** The WhatsApp dialog: it shows the prepared message (or a fallback built
    from the order), and sending opens `wa.me` with the client's phone digits
    and the encoded message. */
module WhatsAppModal {
  import opened Wrappers
  import opened Text
  import opened Seqs
  import opened Money
  import opened Types
  import opened LocalDB
  import opened WhatsApp

  /** The order as the dialog receives it: every field may be absent. */
  datatype ModalOS = ModalOS(
    numero: Option<nat>,
    status: Option<string>,
    valorTotal: Option<Cents>,
    cliente: Option<Cliente>,
    veiculo: Option<Veiculo>,
    mensagem: Option<string>,
    telefone: Option<string>)

  /** The object the send action hands over: the order re-read from the store
      (so `valor_total` is the stored one), with the composed message and the
      client's phone. */
  function FromDraft(d: Draft): ModalOS {
    ModalOS(Some(d.os.os.numero), Some(StatusName(d.os.os.status)), Some(d.os.os.valorTotal),
            d.os.cliente, d.os.veiculo, Some(d.mensagem), Some(d.telefone))
  }

  // ---------------------------------------------------------------------------
  // Status labels
  // ---------------------------------------------------------------------------

  function Label(st: Status): string {
    match st
    case Aberta => "Aberta"
    case EmAndamento => "Em andamento"
    case AguardandoPeca => "Aguardando pe\U{00E7}a"
    case Concluida => "Conclu\U{00ED}da"
    case Entregue => "Entregue"
  }

  /** `getStatusLabel`: the stored name of a status gets its label; any other
      text is shown as it is. */
  function StatusLabel(raw: string): (r: string)
    ensures forall st :: raw == StatusName(st) ==> r == Label(st)
    ensures (forall st :: raw != StatusName(st)) ==> r == raw
  {
    if raw == StatusName(Aberta) then Label(Aberta)
    else if raw == StatusName(EmAndamento) then Label(EmAndamento)
    else if raw == StatusName(AguardandoPeca) then Label(AguardandoPeca)
    else if raw == StatusName(Concluida) then Label(Concluida)
    else if raw == StatusName(Entregue) then Label(Entregue)
    else raw
  }

  /** Different statuses are shown with different labels. */
  lemma LabelInjective(a: Status, b: Status)
    ensures StatusLabel(StatusName(a)) == StatusLabel(StatusName(b)) <==> a == b
  {
  }

  // ---------------------------------------------------------------------------
  // Fallback message
  // ---------------------------------------------------------------------------

  /** `R$ 12.34` for a number, a dash when the total is missing; the digits
      after `R$ ` read back as the amount. */
  function TotalText(v: Option<Cents>): (r: string)
    ensures v.None? ==> r == "\U{2014}"
    ensures v.Some? ==> IsPrefix("R$ ", r) && JsNumber(r[3..]).Some? && JsNumber(r[3..]).value == v.value
  {
    match v
    case None => "\U{2014}"
    case Some(c) =>
      var digits := Fixed2(c);
      var r := "R$ " + digits;
      assert r[3..] == digits;
      Fixed2ReadsBack(c, digits);
      r
  }

  function Opening(cliente: string): string {
    "Ol\U{00E1}, " + cliente + "!\n\n"
  }

  function StatusLine(shown: string): string {
    "\U{1F4CC} Status: " + shown + "\n"
  }

  function ValorLine(total: string): string {
    "\U{1F4B0} Valor total: " + total + "\n\n"
  }

  /** The status shown when the order carries none is the first one's label. */
  function ShownStatus(os: ModalOS): string {
    StatusLabel(os.status.GetOr(StatusName(Aberta)))
  }

  /** The message built from the order alone when no usable one was given:
      greeting, order number, vehicle, status label and total. */
  function FallbackMessage(os: ModalOS): (r: string)
    ensures IsPrefix(Opening(if os.cliente.Some? then os.cliente.value.nome else "Cliente"), r)
    ensures Contains(r, StatusLine(ShownStatus(os)))
    ensures Contains(r, ValorLine(TotalText(os.valorTotal)))
    ensures Trim(r) != []
  {
    var cliente := if os.cliente.Some? then os.cliente.value.nome else "Cliente";
    var placa := if os.veiculo.Some? then os.veiculo.value.placa else "";
    var marca := if os.veiculo.Some? then os.veiculo.value.marca else "";
    var modelo := if os.veiculo.Some? then os.veiculo.value.modelo else "";
    var veiculo := Trim(marca + " " + modelo);
    var numero := if os.numero.Some? then NatToString(os.numero.value) else "";
    var g := Opening(cliente);
    var body := "Sua ordem de servi\U{00E7}o #" + numero + " foi atualizada.\n\n"
                + "\U{1F697} Ve\U{00ED}culo: " + placa + ModeloSuffix(veiculo) + "\n";
    var tail := "Qualquer d\U{00FA}vida, estamos \U{00E0} disposi\U{00E7}\U{00E3}o.";
    var r := g + body + StatusLine(ShownStatus(os)) + ValorLine(TotalText(os.valorTotal)) + tail;
    assert g[0] == 'O';
    Composed(r, g, body, StatusLine(ShownStatus(os)), ValorLine(TotalText(os.valorTotal)), tail);
    r
  }

  /** The text the dialog opens with: the given message unless it is absent
      or blank, in which case the fallback. */
  function InitialMessage(os: ModalOS): (r: string)
    ensures os.mensagem.Some? && Trim(os.mensagem.value) != [] ==> r == os.mensagem.value
    ensures !(os.mensagem.Some? && Trim(os.mensagem.value) != []) ==> r == FallbackMessage(os)
    ensures Trim(r) != []
  {
    if os.mensagem.Some? && Trim(os.mensagem.value) != [] then os.mensagem.value
    else FallbackMessage(os)
  }

  /** The dialog opened from an order shows exactly the message composed for
      it: that message is never blank, so the fallback is not used. */
  lemma DraftMessageUsed(s: Store, onScreen: OrderView)
    ensures InitialMessage(FromDraft(BuildWhatsApp(s, onScreen))) == BuildWhatsApp(s, onScreen).mensagem
  {
  }

  // ---------------------------------------------------------------------------
  // Sending
  // ---------------------------------------------------------------------------

  /** `os.telefone ?? os.cliente?.telefone ?? ""`: an explicit phone wins,
      even an empty one. */
  function RawPhone(os: ModalOS): (r: string)
    ensures os.telefone.Some? ==> r == os.telefone.value
    ensures os.telefone.None? && os.cliente.Some? ==> r == os.cliente.value.telefone
    ensures os.telefone.None? && os.cliente.None? ==> r == []
  {
    if os.telefone.Some? then os.telefone.value
    else if os.cliente.Some? then os.cliente.value.telefone
    else ""
  }

  /** The dialog opened from an order dials the client on record, if any. */
  lemma DraftDialsCliente(s: Store, onScreen: OrderView)
    ensures var d := BuildWhatsApp(s, onScreen);
            RawPhone(FromDraft(d)) == (if d.os.cliente.Some? then d.os.cliente.value.telefone else "")
  {
  }

  const WaPrefix: string := "https://wa.me/55"
  const TextParam: string := "?text="

  /** `handleSend`: keeps the digits of the phone; with none nothing is sent,
      otherwise the link to open is the `wa.me` address for Brazil (+55), the
      digits and the encoded message.  `encode` stands for
      `encodeURIComponent`. */
  function HandleSend(os: ModalOS, message: string, encode: string -> string): (r: Option<string>)
    ensures r.None? <==> KeepDigits(RawPhone(os)) == []
    ensures r.Some? ==> IsPrefix(WaPrefix, r.value)
  {
    var phone := KeepDigits(RawPhone(os));
    if phone == [] then None
    else
      var u := WaPrefix + phone + TextParam + encode(message);
      assert u[..|WaPrefix|] == WaPrefix;
      Some(u)
  }

  /** Reads a `wa.me` link back into its phone digits and its text
      parameter. */
  function ParseUrl(u: string): Option<(string, string)> {
    if !IsPrefix(WaPrefix, u) then None
    else
      var rest := u[|WaPrefix|..];
      var phone := DigitPrefix(rest);
      var after := rest[|phone|..];
      if phone != [] && IsPrefix(TextParam, after) then Some((phone, after[|TextParam|..])) else None
  }

  /** The link opened carries exactly the phone's digits and the encoded
      message: reading it back gives both. */
  lemma SendUrlRoundTrip(os: ModalOS, message: string, encode: string -> string)
    requires HandleSend(os, message, encode).Some?
    ensures ParseUrl(HandleSend(os, message, encode).value) == Some((KeepDigits(RawPhone(os)), encode(message)))
  {
    var phone := KeepDigits(RawPhone(os));
    var enc := encode(message);
    var u := HandleSend(os, message, encode).value;
    var b := TextParam + enc;
    assert u == WaPrefix + phone + TextParam + enc;
    assert u[|WaPrefix|..] == phone + b;
    DigitPrefixStops(phone, b);
    assert (phone + b)[|phone|..] == b;
    assert b[..|TextParam|] == TextParam;
    assert b[|TextParam|..] == enc;
  }

  /** Every digit of the phone as typed is dialled, as often as it was
      typed and in the order it was typed. */
  lemma SendKeepsEveryDigit(os: ModalOS, c: char)
    requires IsDigit(c)
    ensures multiset(KeepDigits(RawPhone(os)))[c] == multiset(RawPhone(os))[c]
    ensures KeepDigits(RawPhone(os)) == Filter(RawPhone(os), (x: char) => IsDigit(x))
  {
    KeepDigitsCounts(RawPhone(os), c);
    KeepDigitsIsFilter(RawPhone(os));
  }
}

=== FILE: wizard.dfy ===
/** The three-step intake wizard: client and vehicle, then the problem and the
    odometer, then the checklist.  The wizard is a value; each button press
    yields the next value, and submitting creates the client, the vehicle, the
    order and its checklist in the store. */
module NewOSWizard {
  import opened Wrappers
  import opened Text
  import opened Calendar
  import opened Types
  import opened LocalDB

  datatype FormData = FormData(
    clienteNome: string,
    clienteTelefone: string,
    clienteEmail: string,
    veiculoPlaca: string,
    veiculoMarca: string,
    veiculoModelo: string,
    veiculoAno: string,
    veiculoCor: string,
    problemaRelatado: string,
    km: string,
    combustivel: int,
    previsaoEntrega: Option<Day>)

  datatype Wizard = Wizard(step: int, error: string, form: FormData, checked: set<string>)

  const MsgRequired: string := "Preencha os campos obrigat\U{00F3}rios"
  const MsgLogin: string := "Voc\U{00EA} precisa estar logado."

  /** The wizard as it opens: step 1, no error, blank fields, the fuel gauge
      at 50 and nothing checked. */
  function Initial(): (w: Wizard)
    ensures w.step == 1 && w.error == [] && w.checked == {}
  {
    Wizard(1, "", FormData("", "", "", "", "", "", "", "", "", "", 50, None), {})
  }

  // ---------------------------------------------------------------------------
  // Steps
  // ---------------------------------------------------------------------------

  /** Step 1 needs a client name, a phone and a plate (any non-empty text). */
  predicate Step1Complete(f: FormData) {
    f.clienteNome != [] && f.clienteTelefone != [] && f.veiculoPlaca != []
  }

  /** Step 2 needs the reported problem and the odometer reading. */
  predicate Step2Complete(f: FormData) {
    f.problemaRelatado != [] && f.km != []
  }

  /** `handleNext`: on a missing required field of the current step the step
      stays and the error is set; otherwise the error is cleared and the step
      goes up by exactly one. */
  function HandleNext(w: Wizard): (r: Wizard)
    ensures r.form == w.form && r.checked == w.checked
    ensures (w.step == 1 && !Step1Complete(w.form)) || (w.step == 2 && !Step2Complete(w.form))
            ==> r.step == w.step && r.error == MsgRequired
    ensures !((w.step == 1 && !Step1Complete(w.form)) || (w.step == 2 && !Step2Complete(w.form)))
            ==> r.step == w.step + 1 && r.error == []
  {
    if w.step == 1 && !Step1Complete(w.form) then w.(error := MsgRequired)
    else if w.step == 2 && !Step2Complete(w.form) then w.(error := MsgRequired)
    else w.(error := "", step := w.step + 1)
  }

  /** The buttons of the bottom bar: "back" while past step 1, "next" while
      before step 3, "create" otherwise. */
  predicate BackShown(w: Wizard) { w.step > 1 }
  predicate NextShown(w: Wizard) { w.step < 3 }

  datatype Action = Back | Next | Toggle(item: string) | Edit(form: FormData)

  /** The effect of one user action; a press on a button that is not shown
      does nothing. */
  function Press(w: Wizard, a: Action): Wizard {
    match a
    case Back => if BackShown(w) then w.(step := w.step - 1) else w
    case Next => if NextShown(w) then HandleNext(w) else w
    case Toggle(item) => w.(checked := ToggleChecklistItem(w.checked, item))
    case Edit(f) => w.(form := f)
  }

  /** No action takes the wizard out of steps 1 to 3. */
  lemma PressKeepsStep(w: Wizard, a: Action)
    requires 1 <= w.step <= 3
    ensures 1 <= Press(w, a).step <= 3
  {
  }

  function Run(w: Wizard, actions: seq<Action>): Wizard
    decreases |actions|
  {
    if actions == [] then w else Run(Press(w, actions[0]), actions[1..])
  }

  /** Whatever the user does, the step stays within 1 to 3. */
  lemma {:induction false} RunKeepsStep(w: Wizard, actions: seq<Action>)
    requires 1 <= w.step <= 3
    ensures 1 <= Run(w, actions).step <= 3
    decreases |actions|
  {
    if actions != [] {
      PressKeepsStep(w, actions[0]);
      RunKeepsStep(Press(w, actions[0]), actions[1..]);
    }
  }

  /** Step 3 is reached only through a step 2 whose fields were complete. */
  lemma ReachStep3(w: Wizard)
    requires w.step == 2
    ensures Press(w, Next).step == 3 <==> Step2Complete(w.form)
  {
  }

  // ---------------------------------------------------------------------------
  // Checklist
  // ---------------------------------------------------------------------------

  const ChecklistCatalog: seq<string> := [
    "Extintor",
    "Tri\U{00E2}ngulo",
    "Macaco",
    "Chave de roda",
    "Estepe",
    "Tapetes",
    "R\U{00E1}dio/multim\U{00ED}dia",
    "Documento do ve\U{00ED}culo",
    "Manual do propriet\U{00E1}rio",
    "Avarias na lataria"]

  /** `toggleChecklistItem`: flips the membership of exactly that item. */
  function ToggleChecklistItem(checked: set<string>, item: string): (r: set<string>)
    ensures item in r <==> item !in checked
    ensures forall x :: x != item ==> (x in r <==> x in checked)
  {
    if item in checked then checked - {item} else checked + {item}
  }

  /** Toggling the same item twice restores the selection. */
  lemma ToggleTwice(checked: set<string>, item: string)
    ensures ToggleChecklistItem(ToggleChecklistItem(checked, item), item) == checked
  {
  }

  function SeedFrom(osId: Id, items: seq<string>, checked: set<string>, start: int): (r: seq<NewChecklistRow>)
    ensures |r| == |items|
    ensures forall k :: 0 <= k < |r| ==> r[k] == NewChecklistRow(osId, items[k], items[k] in checked, start + k)
  {
    if items == [] then []
    else [NewChecklistRow(osId, items[0], items[0] in checked, start)] + SeedFrom(osId, items[1..], checked, start + 1)
  }

  /** The rows `handleSubmit` seeds: one per catalog entry, in catalog order,
      numbered from 0, checked exactly when the entry was selected. */
  function SeedChecklist(osId: Id, checked: set<string>): (r: seq<NewChecklistRow>)
    ensures |r| == |ChecklistCatalog|
    ensures forall k :: 0 <= k < |r| ==>
              r[k].osId == osId && r[k].item == ChecklistCatalog[k] && r[k].ordem == k
              && (r[k].checked <==> ChecklistCatalog[k] in checked)
  {
    SeedFrom(osId, ChecklistCatalog, checked, 0)
  }

  // ---------------------------------------------------------------------------
  // Submission
  // ---------------------------------------------------------------------------

  /** Text that starts with a digit has no leading whitespace to skip. */
  lemma TrimStartDigit(s: string)
    requires s != [] && IsDigit(s[0])
    ensures TrimStart(s) == s
  {
    assert !IsWhitespace(s[0]);
  }

  /** The sign and the leading digits of text whose leading whitespace is
      already gone; no digit at all is `NaN`, here `None`. */
  function SignedDigits(t: string): Option<int> {
    var negative := t != [] && t[0] == '-';
    var body := if t != [] && (t[0] == '-' || t[0] == '+') then t[1..] else t;
    var digits := DigitPrefix(body);
    if digits == [] then None
    else if negative then Some(-(ParseDigits(digits) as int))
    else Some(ParseDigits(digits))
  }

  /** A digit string reads as the number it spells. */
  lemma DigitStringReads(s: string)
    ensures s != [] && AllDigits(s) ==>
              SignedDigits(TrimStart(s)).Some? && SignedDigits(TrimStart(s)).value == ParseDigits(s)
  {
    if s != [] && AllDigits(s) {
      TrimStartDigit(s);
      DigitPrefixAll(s);
      assert IsDigit(s[0]);
    }
  }

  /** Text without any digit is `NaN`. */
  lemma NoDigitReadsNone(s: string)
    ensures (forall k :: 0 <= k < |s| ==> !IsDigit(s[k])) ==> SignedDigits(TrimStart(s)).None?
  {
    var t := TrimStart(s);
    var body := if t != [] && (t[0] == '-' || t[0] == '+') then t[1..] else t;
    assert body == s[|s| - |body|..];
    if body != [] {
      assert body[0] == s[|s| - |body|];
    }
    DigitPrefixHead(body);
  }

  /** `parseInt(s)` in base 10: leading whitespace and one sign are skipped,
      then the leading digits are read.  A digit string reads as the number
      it spells, and text without any digit is `NaN`. */
  function ParseInt(s: string): (r: Option<int>)
    ensures s != [] && AllDigits(s) ==> r.Some? && r.value == ParseDigits(s)
    ensures (forall k :: 0 <= k < |s| ==> !IsDigit(s[k])) ==> r.None?
  {
    DigitStringReads(s);
    NoDigitReadsNone(s);
    SignedDigits(TrimStart(s))
  }

  /** Reading back a number written in decimal gives the number. */
  lemma ParseIntNatToString(n: nat)
    ensures ParseInt(NatToString(n)).Some? && ParseInt(NatToString(n)).value == n
  {
    ParseNatToString(n);
  }

  /** `value || null` for a text field. */
  function NonEmpty(s: string): (r: Option<string>)
    ensures r.None? <==> s == []
    ensures r.Some? ==> r.value == s
  {
    if s == [] then None else Some(s)
  }

  datatype Created = Created(store: Store, cliente: Cliente, veiculo: Veiculo, os: Order)

  /** The first two writes of `handleSubmit`: the client from step 1 and its
      vehicle, plate in upper case; empty optional fields are stored as
      absent. */
  function SaveClienteVeiculo(s: Store, uid: Id, f: FormData, clienteId: Id, veiculoId: Id, now: Instant)
    : (r: (Store, Cliente, Veiculo))
    ensures r.0 == s.(clientes := s.clientes + [r.1], veiculos := s.veiculos + [r.2])
    ensures r.1.nome == f.clienteNome && r.1.telefone == f.clienteTelefone
    ensures r.1.email.None? <==> f.clienteEmail == []
    ensures r.2.clienteId == r.1.id && r.2.placa == ToUpper(f.veiculoPlaca)
    ensures r.2.ano.None? <==> f.veiculoAno == [] || ParseInt(f.veiculoAno).None?
    ensures r.2.cor.None? <==> f.veiculoCor == []
  {
    var (s1, cliente) := CreateCliente(s, NewCliente(f.clienteNome, f.clienteTelefone, NonEmpty(f.clienteEmail), uid), clienteId, now);
    var ano := if f.veiculoAno == [] then None else ParseInt(f.veiculoAno);
    var (s2, veiculo) := CreateVeiculo(s1, NewVeiculo(cliente.id, ToUpper(f.veiculoPlaca), f.veiculoMarca, f.veiculoModelo,
                                                      ano, NonEmpty(f.veiculoCor), uid), veiculoId, now);
    (s2, cliente, veiculo)
  }

  /** `handleSubmit`: fails before anything is created when nobody is logged
      in; otherwise creates the client, its vehicle (plate in upper case),
      the order and its seeded checklist, in that order. */
  function Submit(s: Store, user: Option<Id>, w: Wizard,
                  clienteId: Id, veiculoId: Id, osId: Id, rowIds: seq<Id>, now: Instant): (r: Result<Created, string>)
    requires |rowIds| == |ChecklistCatalog|
    ensures user.None? <==> r.Failure?
    ensures r.Failure? ==> r.error == MsgLogin
    ensures r.Success? ==>
              var c := r.value;
              && c.store.clientes == s.clientes + [c.cliente]
              && c.store.veiculos == s.veiculos + [c.veiculo]
              && c.store.ordens == s.ordens + [c.os]
              && c.store.itens == s.itens
              && c.cliente.nome == w.form.clienteNome && c.cliente.telefone == w.form.clienteTelefone
              && (c.cliente.email.None? <==> w.form.clienteEmail == [])
              && c.veiculo.clienteId == c.cliente.id && c.veiculo.placa == ToUpper(w.form.veiculoPlaca)
              && (c.veiculo.ano.None? <==> w.form.veiculoAno == [] || ParseInt(w.form.veiculoAno).None?)
              && (c.veiculo.cor.None? <==> w.form.veiculoCor == [])
              && c.os.clienteId == c.cliente.id && c.os.veiculoId == c.veiculo.id
              && c.os.km == ParseInt(w.form.km) && c.os.previsaoEntrega == w.form.previsaoEntrega
              && c.os.status == Aberta && c.os.numero == Counter(s, user.value) + 1
              && |c.store.checklist| == |s.checklist| + |ChecklistCatalog|
              && (forall k :: 0 <= k < |ChecklistCatalog| ==>
                    var row := c.store.checklist[|s.checklist| + k];
                    row.osId == c.os.id && row.item == ChecklistCatalog[k] && row.ordem == k
                    && (row.checked <==> ChecklistCatalog[k] in w.checked))
  {
    match user
    case None => Failure(MsgLogin)
    case Some(uid) =>
      var f := w.form;
      var (s2, cliente, veiculo) := SaveClienteVeiculo(s, uid, f, clienteId, veiculoId, now);
      var (s3, os) := CreateOS(s2, NewOS(cliente.id, veiculo.id, f.problemaRelatado, ParseInt(f.km),
                                         f.combustivel, f.previsaoEntrega, uid), osId, now);
      var rows := SeedChecklist(os.id, w.checked);
      var s4 := InsertChecklist(s3, rows, rowIds, now);
      Success(Created(s4, cliente, veiculo, os))
  }
}

=== FILE: wrappers.dfy ===
/** Failure-carrying datatypes shared by every module of the model.
    A TypeScript `null`/`undefined` becomes `None`; a thrown `Error` becomes
    a `Failure` carrying the error. */
module Wrappers {

  datatype Option<+T> = None | Some(value: T) {

    /** The `x ?? d` operator of the source: the value when present, else `d`. */
    function GetOr(default: T): T {
      match this
      case Some(v) => v
      case None => default
    }
  }

  datatype Result<+R, +E> = Success(value: R) | Failure(error: E) {

    predicate IsFailure() {
      Failure?
    }
  }
}
